=== FILE: README.md ===
# Algo_trader core in Dafny

A model of the trading core of Algo_trader, with proofs about it. Algo_trader is a pandas-based back-tester for one
stock's minute bars. The model covers four parts:

- **Resampler.** `convert_timeframe` fills single-cell gaps with the mean of the two neighbours. It then groups
  the minute bars into buckets of `d` minutes and aggregates each bucket: first open, highest high, lowest low,
  last close, summed volume. A bucket is dropped when its open, high, low or close has no value at all; the last `Buy/Sell` signal of each bucket is kept,
  and the 14-period SMA/EMA/RSI columns are recomputed (modules `Resample`, `ResampleLaws`).
- **Indicators.** Rolling SMA, EMA (`adjust=False`), RSI, MACD, ATR and Bollinger bands (module `Indicators`).
- **Strategies.**
  - The `Position` state machines of the SMA, Bollinger and multi-indicator strategies (module
    `StateMachines`, over the common runner in `Positions`).
  - The vectorised MACD and breakout strategies, whose crossover events are forward-filled.
  - The RSI, mean-reversion and intraday-gap threshold strategies.
  - The `Buy/Sell` SMA crossover of the older `Stratergy` package (module `SignalStrategies`).
- **Accounting.** Modules `Accounting` and `Values`.
  - The date filter and the strategy dispatch of both performance functions.
  - The points captured (closes of the sell rows minus closes of the buy rows).
  - The replay of capital: a buy spends all cash on whole shares, a sell liquidates, and the final worth is marked
    to the last close.
  - The profit percentage.
  - The buy→sell pair count and PnL of the practice-mode `performance`.

Data representation:
- A table column is a `seq<Option<real>>`, and `None` stands for pandas' NaN.
- Every comparison with a missing cell is false, as it is in pandas.
- Reading outside the column also gives `None`. This models `shift(1)` at the first bar.
- A `Frame` holds the OHLCV bars, with integer minute timestamps, and a map of named columns.
- The resampler's input is a `RawFrame` whose OHLCV cells may be missing.
- Raised exceptions become `Err` values of a `Result`:
  - `ValueError` for an unknown strategy name or a missing `SMA` column;
  - `KeyError` for a missing `Buy/Sell` column;
  - the empty table behind `iloc[-1]` / `iloc[0]`.
- A buy at price 0 also becomes an `Err`, although pandas raises nothing there (see "## Left out").

## Model

| member | source | states |
|---|---|---|
| Resample.GapFill | preprocessing/timeframe.py:16-18 | a present cell is kept; a missing cell becomes present exactly when both neighbours are present, and then holds their average; a gap-free column is unchanged |
| Resample.GapFillBetween | preprocessing/timeframe.py:18 | a filled value lies between its two neighbours |
| Resample.GapFillIdempotent | preprocessing/timeframe.py:16-18 | filling twice gives the same column as filling once |
| Resample.FillGaps | preprocessing/timeframe.py:16-18 | every numeric column, OHLCV and extra, is gap-filled independently and stays aligned with the index |
| Resample.KeyRange | preprocessing/timeframe.py:21 | a timestamp lands in bucket k exactly when k*d <= t < k*d + d (floor division, also for negative stamps) |
| Resample.KeyMonotone | preprocessing/timeframe.py:21 | later timestamps never land in an earlier bucket |
| Resample.BucketValues | preprocessing/timeframe.py:21-27 | x is among a bucket's values exactly when some row of that bucket holds x |
| Resample.Aggregate | preprocessing/timeframe.py:21-30 | a bucket yields a bar exactly when its open, high, low and close each have a value; the bar is labelled with the bucket start and carries the bucket's volume total |
| Resample.AggregateMeaning | preprocessing/timeframe.py:21-27 | the open is the bucket's first present open, the close its last present close, the high its largest high and the low its smallest low, each attained by some row of the bucket |
| Resample.AggregateOpenClose | preprocessing/timeframe.py:22-25 | the aggregated open is the bucket's first present open and the close its last present close |
| Resample.AggregateHighLow | preprocessing/timeframe.py:23-24 | the aggregated high is attained in the bucket and bounds every present high; dually for the low |
| Resample.OpenIsFirst | preprocessing/timeframe.py:22 | the first value of a bucket comes from a row with no earlier present value in that bucket |
| Resample.CloseIsLast | preprocessing/timeframe.py:25 | the last value of a bucket comes from a row with no later present value in that bucket |
| Resample.HighIsMax | preprocessing/timeframe.py:23 | the largest value of a bucket is held by one of its rows and no row of the bucket holds a larger one |
| Resample.LowIsMin | preprocessing/timeframe.py:24 | the smallest value of a bucket is held by one of its rows and no row of the bucket holds a smaller one |
| Resample.KeptKeys | preprocessing/timeframe.py:30 | the kept bucket keys lie in the scanned range, all satisfy the keep test, and are strictly increasing |
| Resample.KeptKeysComplete | preprocessing/timeframe.py:30 | no surviving bucket in the range is skipped |
| Resample.BucketSpan | preprocessing/timeframe.py:21 | the scanned key range covers the bucket of every row |
| Resample.KeptBucketHasRow | preprocessing/timeframe.py:21-30 | a bucket that yields a bar contains at least one input row |
| Resample.OutputKeys | preprocessing/timeframe.py:21-30 | the output buckets are strictly increasing and are exactly the buckets whose aggregate survives the dropna |
| Resample.LastValue | preprocessing/timeframe.py:33-34 | a bucket's signal is present exactly when some row of the bucket carries one, and it is the bucket's last present signal |
| Resample.LastSignals | preprocessing/timeframe.py:33-34 | the output Buy/Sell column holds, bar by bar, the last signal of that bar's bucket |
| Resample.Reindicate | preprocessing/timeframe.py:37-42 | SMA, EMA and RSI are recomputed with period 14 on the resampled closes exactly for the flags given; the other columns are untouched |
| Resample.OutputBars | preprocessing/timeframe.py:21-27 | each output bar is the aggregate of its bucket |
| Resample.Resampled | preprocessing/timeframe.py:21-34 | the resampled table has one bar per surviving bucket, equal to its aggregate, and carries Buy/Sell exactly when the input did |
| Resample.ConvertTimeframe | preprocessing/timeframe.py:3-56 | the output columns are Buy/Sell, SMA, EMA and RSI exactly as the input had them; the bars are the aggregates of the surviving buckets of the gap-filled input; the indicators are recomputed on the new closes |
| ResampleLaws.LabelsIncreasing | preprocessing/timeframe.py:21-30 | the output bar labels are strictly increasing |
| ResampleLaws.RowRepresented | preprocessing/timeframe.py:21-30 | every input row whose bucket survives is covered by an output bar that starts at or before it and ends after it, and that bar is its bucket's aggregate |
| ResampleLaws.AggregateLowNotAboveHigh | preprocessing/timeframe.py:23-24 | a bucket holding one row with low <= high has an aggregated low no greater than its high |
| ResampleLaws.LowNotAboveHigh | preprocessing/timeframe.py:21-30 | when every input row has low <= high, so does every output bar |
| ResampleLaws.SingleRowBucket | preprocessing/timeframe.py:21-27 | a bucket holding one complete row reproduces that row, with its volume or 0 when the volume is missing |
| ResampleLaws.RowSurvives | preprocessing/timeframe.py:21-30 | a row with all four prices present keeps its bucket alive |
| ResampleLaws.DroppedBucketEmpty | preprocessing/timeframe.py:26-30 | when all prices are present, a dropped bucket has no volume to lose |
| ResampleLaws.SpanVolumeTotal | preprocessing/timeframe.py:26 | summing the per-bucket volume totals over a range that covers every row gives the column's total volume |
| ResampleLaws.OutputVolumes | preprocessing/timeframe.py:26-30 | the output volumes are the per-bucket volume totals of the kept buckets, in order |
| ResampleLaws.KeptVolumeTotal | preprocessing/timeframe.py:26-30 | with all prices present, the kept buckets together hold the whole volume |
| ResampleLaws.VolumeConserved | preprocessing/timeframe.py:16-30 | with all prices present, resampling conserves the total (gap-filled) volume |
| Indicators.RollingMean | preprocessing/indicator.py:5 | the rolling mean is missing exactly during the first p-1 bars, and is the mean of the last p closes afterwards |
| Indicators.RollingMeanBounds | preprocessing/indicator.py:5 | a rolling mean lies between the minimum and maximum of its window |
| Indicators.RollingMeanNonNegative | preprocessing/indicator.py:5 | non-negative inputs give a non-negative rolling mean |
| Indicators.RollingMeanCausal | preprocessing/indicator.py:5 | the rolling mean of a prefix is the prefix of the rolling mean (no look-ahead) |
| Indicators.AddSma | preprocessing/indicator.py:3-6 | adds exactly the SMA column, which is the rolling mean of the closes over `period` bars (missing during warm-up), and leaves the other columns alone |
| Indicators.Ema | preprocessing/indicator.py:10 | the EMA has one value per close and starts at the first close |
| Indicators.EmaRecurrence | preprocessing/indicator.py:10 | each later EMA value is alpha*close + (1-alpha)*previous EMA with alpha = 2/(span+1) |
| Indicators.EmaBounds | preprocessing/indicator.py:10 | an EMA value lies between the minimum and maximum of the closes seen so far |
| Indicators.EmaCausal | preprocessing/indicator.py:10 | the EMA of a prefix is the prefix of the EMA |
| Indicators.AddEma | preprocessing/indicator.py:8-11 | adds exactly the EMA column, which is the `adjust=False` EMA of the closes with no missing cells, and leaves the other columns alone |
| Indicators.Gains | preprocessing/indicator.py:16 | gains are non-negative, 0 at the first bar, and positive exactly on an up-move |
| Indicators.Losses | preprocessing/indicator.py:17 | losses are non-negative, 0 at the first bar, and positive exactly on a down-move |
| Indicators.GainLossSplit | preprocessing/indicator.py:15-17 | gain minus loss is the price change, and at most one of the two is nonzero |
| Indicators.RsiValue | preprocessing/indicator.py:20-21 | RSI is missing exactly for 0/0, equals 100 exactly when there are gains but no losses, is 100 − 100/(1 + g/l) = 100g/(g + l) when there are losses, and lies in [0, 100] |
| Indicators.RsiClosedForm | preprocessing/indicator.py:20-21 | 100 - 100/(1 + g/l) equals 100*g/(g+l) and lies in [0, 100) when l > 0 |
| Indicators.Rsi | preprocessing/indicator.py:13-22 | RSI is missing during warm-up and for flat windows, lies in [0, 100], and is 100 exactly when the window has gains and no losses |
| Indicators.RsiAt | preprocessing/indicator.py:15-21 | past the warm-up, RSI is `RsiValue` of the window's mean gain and mean loss, so 100 − 100/(1 + g/l) whenever the window lost |
| Indicators.RsiCausal | preprocessing/indicator.py:18-21 | the RSI of a prefix is the prefix of the RSI |
| Indicators.AddRsi | preprocessing/indicator.py:13-22 | adds exactly the RSI column, which is the RSI of the closes over `period` bars, and leaves the other columns alone |
| Indicators.Macd | preprocessing/indicator.py:35-38 | the MACD line is EMA(short) − EMA(long) at every bar, the signal line is the EMA of the MACD line, and both start at 0 |
| Indicators.MacdEqualSpans | preprocessing/indicator.py:37 | equal short and long spans give a MACD line of zeros |
| Indicators.MacdCausal | preprocessing/indicator.py:35-38 | the MACD and signal lines of a prefix are the prefixes of the lines |
| Indicators.AddMacd | preprocessing/indicator.py:33-39 | adds exactly the MACD and Signal columns, holding the MACD and signal lines of the closes, and leaves the other columns alone |
| Indicators.TrueRangeAt | preprocessing/indicator.py:43-46 | the true range is the largest of H-L, abs(H - previous close) and abs(L - previous close), and is H-L at the first bar, where there is no previous close |
| Indicators.TrueRange | preprocessing/indicator.py:46 | the true-range column holds the true range of every bar |
| Indicators.Atr | preprocessing/indicator.py:47 | ATR is missing exactly during the first p-1 bars and is then the mean of the last p true ranges |
| Indicators.AtrNonNegative | preprocessing/indicator.py:43-47 | bars with low <= high give a non-negative ATR |
| Indicators.AtrCausal | preprocessing/indicator.py:43-47 | the ATR of a prefix is the prefix of the ATR |
| Indicators.AddAtr | preprocessing/indicator.py:41-49 | adds ATR, removes the H-L, H-PC, L-PC and TR scratch columns, and leaves the rest alone |
| Indicators.SampleVariance | preprocessing/indicator.py:27 | the sample variance (divisor n-1) is non-negative |
| Indicators.RollingStd | preprocessing/indicator.py:27 | the rolling standard deviation is present exactly from bar p-1 on, and only when p >= 2 |
| Indicators.BandsOf | preprocessing/indicator.py:26-29 | the upper and lower bands are present exactly when the SMA and the deviation are, and lie k deviations above and below the SMA |
| Indicators.BandsOrdered | preprocessing/indicator.py:28-29 | lower band <= SMA <= upper band |
| Indicators.AddBands | preprocessing/indicator.py:24-31 | writes the rolling mean as SMA and the two bands of BandsOf as UpperBand and LowerBand, drops STD, and leaves every other column alone |
| Positions.Run | Strategy/SMA_strategy.py:26-29 | the position column starts flat and each later bar is the step applied to the previous bar's position |
| Positions.RunPrefix | Strategy/SMA_strategy.py:29-53 | positions never depend on later bars |
| Positions.RunInRange | Strategy/SMA_strategy.py:26-53 | a step that answers short, flat or long keeps the whole column in {-1, 0, 1} |
| Positions.CrossEvents | Stratergy/sma_stratergy.py:25-28 | the event is 1 exactly on an upward crossing, -1 exactly on a downward one, never set at bar 0 |
| Positions.FFill | Strategy/MACD_crossover_strategy.py:38 | forward fill keeps every nonzero event and keeps the length |
| Positions.FFillSpec | Strategy/MACD_crossover_strategy.py:38 | each filled value is the most recent nonzero event at or before its bar (0 when none), stays in {-1, 0, 1}, and a bar without an event repeats the previous position |
| Positions.FFillAfterEvent | Strategy/Trend_following_breakout_strategy.py:29 | once an event has occurred the filled position is never flat again |
| StateMachines.SmaPositions | Strategy/SMA_strategy.py:26-53 | from flat the position goes long exactly on an upward crossing and short exactly on a downward one; a long exits exactly when close < SMA and a short exactly when close > SMA, and otherwise holds |
| StateMachines.SmaNoDirectFlip | Strategy/SMA_strategy.py:39-53 | the SMA machine never goes from long to short or back in one bar |
| StateMachines.SmaStrategy | Strategy/SMA_strategy.py:18-55 | fails with a missing-SMA error exactly when there is no SMA column; otherwise it adds exactly the Position column of the state machine |
| StateMachines.BandPositions | Strategy/BB_strategy.py:88-112 | from flat the position goes long exactly when close < lower band and short exactly when, failing that, close > upper band; a long or a short lasts one bar |
| StateMachines.BandNoConsecutiveTrades | Strategy/BB_strategy.py:101-112 | of two consecutive bars at least one is flat |
| StateMachines.BandStrategy | Strategy/BB_strategy.py:66-113 | computes the 20-period, 2-deviation bands only when a band column is missing, then adds exactly the Position column of the band machine; every column other than STD, SMA, the two bands and Position keeps its values |
| StateMachines.MultiIndicator | Strategy/multi_indicator_strategy.py:23-60 | the fast and slow averages and the RSI are the indicators above; from flat it goes long exactly on an upward MA crossing with RSI below overbought, and short exactly on a downward one with RSI above oversold; exits mirror the SMA machine on the two averages |
| StateMachines.MultiStep | Strategy/multi_indicator_strategy.py:37-60 | one bar of the loop: from flat, long exactly on an upward crossing with RSI below overbought and short exactly on a downward one with RSI above oversold; a long exits only when the fast average drops below the slow one and never flips short; dually for a short |
| StateMachines.MultiIndicatorStrategy | Strategy/multi_indicator_strategy.py:4-62 | adds exactly Fast_MA, Slow_MA, RSI and Position: the two rolling means of the closes, their RSI over `rsiPeriod`, and the machine's positions; every other column is unchanged |
| SignalStrategies.MacdEvents | Strategy/MACD_crossover_strategy.py:32-35 | crossing events are short, flat or long, one per bar |
| SignalStrategies.MacdPositions | Strategy/MACD_crossover_strategy.py:29-38 | the position is 1 on an upward MACD/signal crossing and -1 on a downward one, is the latest crossing event, and changes only on a crossing bar |
| SignalStrategies.MacdLineColumns | Strategy/MACD_crossover_strategy.py:21-26 | adds the two EMAs, the MACD line and the signal line computed from the closes |
| SignalStrategies.MacdStrategy | Strategy/MACD_crossover_strategy.py:4-40 | adds exactly EMA_short and EMA_long (the two EMAs of the closes), MACD and Signal_Line (the MACD lines) and Position (the forward-filled crossover column); every other column is unchanged |
| SignalStrategies.WindowMax | Strategy/Trend_following_breakout_strategy.py:18 | the windowed maximum bounds every close in the window (min_periods=1) and is attained there |
| SignalStrategies.WindowMin | Strategy/Trend_following_breakout_strategy.py:19 | the windowed minimum bounds every close in the window and is attained there |
| SignalStrategies.RollingMax | Strategy/Trend_following_breakout_strategy.py:18 | HHigh holds the windowed maximum at every bar |
| SignalStrategies.RollingMin | Strategy/Trend_following_breakout_strategy.py:19 | LLow holds the windowed minimum at every bar |
| SignalStrategies.ChannelContainsClose | Strategy/Trend_following_breakout_strategy.py:18-19 | every close lies between its LLow and HHigh |
| SignalStrategies.BreakoutEvent | Strategy/Trend_following_breakout_strategy.py:25-26 | -1 exactly when the close breaks below the previous LLow; 1 exactly when it breaks above the previous HHigh and not below |
| SignalStrategies.BreakoutEvents | Strategy/Trend_following_breakout_strategy.py:25-26 | the event column marks exactly the breakouts above the previous bar's HHigh and below its LLow |
| SignalStrategies.BreakoutBuyIsNewHigh | Strategy/Trend_following_breakout_strategy.py:18-25 | a buy breakout makes the close the new HHigh |
| SignalStrategies.BreakoutSellIsNewLow | Strategy/Trend_following_breakout_strategy.py:19-26 | a sell breakout makes the close the new LLow |
| SignalStrategies.BreakoutPositions | Strategy/Trend_following_breakout_strategy.py:22-29 | each position is the latest breakout event (0 before the first) and changes only on an event bar |
| SignalStrategies.ChannelColumns | Strategy/Trend_following_breakout_strategy.py:18-19 | HHigh and LLow are the rolling maximum and minimum of the closes over at most `lookback` bars; no other column changes |
| SignalStrategies.BreakoutStrategy | Strategy/Trend_following_breakout_strategy.py:4-32 | adds exactly HHigh, LLow and the forward-filled Position column |
| SignalStrategies.Threshold | Strategy/RSI_strategy.py:22-28 | -1 exactly above the upper threshold; 1 exactly below the lower one and not above the upper; missing values give 0 |
| SignalStrategies.RsiSignals | Strategy/RSI_strategy.py:22-28 | short exactly when RSI > overbought, long exactly when RSI < oversold (and not overbought), flat when RSI is missing or in between |
| SignalStrategies.RsiStrategy | Strategy/RSI_strategy.py:3-30 | adds exactly RSI, computed with period 14 whatever period is passed, and the threshold Position column |
| SignalStrategies.RsiStrategyWarmUp | Strategy/RSI_strategy.py:19 | the period argument has no effect, and the first 13 bars are flat |
| SignalStrategies.ColumnStd | Strategy/Mean_reversion_strategy.py:59-62 | the column's standard deviation exists exactly when it has two present values, and is the root of their sample variance |
| SignalStrategies.Deviations | Strategy/Mean_reversion_strategy.py:53 | a deviation is present exactly when the average is, and is close minus average |
| SignalStrategies.ReversionSignals | Strategy/Mean_reversion_strategy.py:56-62 | -1 exactly when the deviation exceeds 2 std; 1 exactly when it is below -2 std (and not above 2 std) |
| SignalStrategies.MeanReversion | Strategy/Mean_reversion_strategy.py:50-62 | the average, deviation and signal columns are built from each other as above |
| SignalStrategies.MeanReversionSignals | Strategy/Mean_reversion_strategy.py:56-62 | with a non-negative root, a buy is exactly a deviation below -2 std, and warm-up bars never signal |
| SignalStrategies.MeanReversionStrategy | Strategy/Mean_reversion_strategy.py:36-64 | adds exactly Moving Average (the rolling mean of the closes), Deviation (close minus that mean) and the Buy/Sell signals; every other column is unchanged |
| SignalStrategies.Gaps | Strategy/Intraday_gap_strategy.py:20 | the gap is missing at the first bar and is open minus previous close afterwards |
| SignalStrategies.GapSignal | Strategy/Intraday_gap_strategy.py:23-26 | -1 exactly when the open is more than 1% above the previous close; 1 exactly when it is more than 1% below (and not above) |
| SignalStrategies.GapSignals | Strategy/Intraday_gap_strategy.py:17-26 | the signal column is flat at bar 0 and follows the 1% gap rule afterwards |
| SignalStrategies.GapSignalsExclusive | Strategy/Intraday_gap_strategy.py:23-26 | for a positive previous close, a buy is exactly a gap down of more than 1% |
| SignalStrategies.GapStrategy | Strategy/Intraday_gap_strategy.py:4-28 | adds exactly Gap and Buy/Sell |
| SignalStrategies.SmaCrossStrategy | Stratergy/sma_stratergy.py:4-30 | fails exactly when SMA is missing; otherwise Buy/Sell is 1 exactly on an upward close/SMA crossing, -1 exactly on a downward one and 0 elsewhere, and nothing else changes |
| SignalStrategies.CrossEventsAlternate | Stratergy/sma_stratergy.py:25-28 | two adjacent bars never carry the same nonzero crossing event |
| Accounting.MinStamp | Evaluation/strategy_performance.py:28 | the default start is a timestamp of the table no later than any other |
| Accounting.MaxStamp | Evaluation/strategy_performance.py:30 | the default end is a timestamp of the table no earlier than any other |
| Accounting.Window | Evaluation/strategy_performance.py:27-30 | given dates are used as they are; a missing date defaults to a bound of all the table's timestamps |
| Accounting.InWindow | Evaluation/strategy_performance.py:33 | a row is kept exactly when its timestamp is within [start, end] |
| Accounting.Restrict | Evaluation/strategy_performance.py:33 | filtering keeps every column, keeps the table aligned, and selects the same rows from bars and columns |
| Accounting.RestrictAll | Evaluation/strategy_performance.py:33 | an all-true filter changes nothing |
| Accounting.FilterDates | Evaluation/strategy_performance.py:27-33 | a bar survives exactly when it is within the window; an empty table is returned as it is |
| Accounting.FilterDefaultKeepsAll | Evaluation/strategy_performance.py:27-33 | with neither date given the table is unchanged |
| Accounting.ParseStrategy | Evaluation/strategy_performance.py:36-51 | an accepted name is the name of the strategy chosen; any other name is rejected with an invalid-strategy error |
| Accounting.ParseNameOf | Evaluation/strategy_performance.py:36-51 | each of the seven names selects its own strategy |
| Accounting.ApplyStrategy | Evaluation/strategy_performance.py:36-51 | dispatch fails exactly for sma on a table without SMA, and never changes the bars |
| Accounting.WritesBuySell | Evaluation/strategy_performance.py:36-55 | after dispatch a Buy/Sell column exists exactly when it already did or the strategy is idg or mr |
| Accounting.SignalMask | Evaluation/strategy_performance.py:55-56 | a row is selected exactly when its signal equals the value sought |
| Accounting.WeightedCloses | Evaluation/strategy_performance.py:55-58 | each row contributes its close, negated on a buy, kept on a sell, and 0 otherwise |
| Accounting.Points | Evaluation/strategy_performance.py:55-58 | the points captured are 0 when no row carries a buy or a sell |
| Accounting.PointsWeighted | Evaluation/strategy_performance.py:55-58 | the sum of sell closes minus the sum of buy closes equals the sum of the per-row weighted closes |
| Accounting.FloorBounds | Evaluation/strategy_performance.py:67 | the whole shares bought cost at most the cash, and one more share would exceed it |
| Accounting.Worth | Evaluation/strategy_performance.py:77 | the final value is the cash when no shares are held, never below the cash when shares and price are non-negative, and non-negative for a solvent book |
| Accounting.Step | Evaluation/strategy_performance.py:64-74 | a buy at a zero price is the only failure; a buy turns cash into whole shares, keeping the worth at the old cash and leaving less than one share's price; a sell with shares liquidates at unchanged worth; any other row changes nothing |
| Accounting.Replay | Evaluation/strategy_performance.py:61-74 | the replay fails, with a zero-price error, exactly when some buy row has a zero close |
| Accounting.ReplayLoop | Evaluation/strategy_performance.py:61-74 | the left-to-right loop over the rows computes the replay from the initial capital and one share |
| Accounting.ReplayErrSticks | Evaluation/strategy_performance.py:64-74 | once the replay has failed on a prefix, later rows do not change the outcome |
| Accounting.ReplaySolvent | Evaluation/strategy_performance.py:61-74 | with positive closes and a solvent start, cash and shares never go negative |
| Accounting.StepSolvent | Evaluation/strategy_performance.py:65-74 | one row at a positive price keeps cash and shares non-negative |
| Accounting.ReplayQuiet | Evaluation/strategy_performance.py:61-74 | rows without a signal leave the book unchanged |
| Accounting.BuyReplacesHolding | Evaluation/strategy_performance.py:65-69 | a buy discards the shares already held: the result is as if none were held |
| Accounting.Percent | Evaluation/strategy_performance.py:78 | the percentage exists exactly for a nonzero base, and percentage times base is 100 times the gain |
| Accounting.Account | Evaluation/strategy_performance.py:55-80 | fails for a missing Buy/Sell, an empty table or a zero-price buy, and for nothing else; on success the points, the final worth marked to the last close, and the profit percentage are as defined above |
| Accounting.AccountSolvent | Evaluation/strategy_performance.py:61-77 | positive closes and a non-negative initial capital give a non-negative final worth |
| Accounting.AccountQuiet | Evaluation/strategy_performance.py:55-78 | a table without signals ends with the initial cash plus the one default share at the last close, and captures no points |
| Accounting.StrategyPerformance | Evaluation/strategy_performance.py:11-80 | an unknown name fails with an invalid-strategy error; otherwise the result is the accounting of the chosen strategy on the date-filtered table, or the strategy's own error |
| Accounting.PositionStrategiesLackSignals | Evaluation/strategy_performance.py:36-55 | sma, bb, rsi, macd and tfb write Position, not Buy/Sell, so on a table without Buy/Sell the evaluation fails |
| Accounting.StratergyPerformance | Performance/stratergy_performance.py:7-82 | only sma is accepted; it needs an SMA column; it reports the profit percentage and the points of the Buy/Sell crossover strategy on the filtered table |
| Accounting.Signalled | Practice/performance.py:11 | a (signal, close) pair is kept exactly when some row has that present signal and that close |
| Accounting.SignalledInOrder | Practice/performance.py:11 | the kept rows are the row pairs selected by the presence mask: each signalled row once, in row order |
| Accounting.PairCount | Practice/performance.py:15-20 | the trade count is 0 when no kept row is a buy, and 0 when no kept row is a sell |
| Accounting.PairPnl | Practice/performance.py:15-20 | the PnL is non-negative when every buy→sell pair closes at or above its buy, and non-positive when every pair closes at or below it |
| Accounting.PairCountBound | Practice/performance.py:13-20 | buy→sell pairs never overlap: twice the pair count (plus one for a trailing buy) is at most the number of rows |
| Accounting.NoPairNoPnl | Practice/performance.py:13-20 | without a buy→sell pair the PnL is 0 |
| Accounting.PracticePerformance | Practice/performance.py:1-29 | fails for a missing Buy/Sell and, exactly when no row is signalled, for an empty table; otherwise it counts the buy→sell pairs, sums their close differences, and reports the return on the first signalled close |

## Left out

- The Garman–Klass volatility (preprocessing/indicator.py:51-56) is not modelled. It needs logarithms and square
  roots of reals. `convert_timeframe` only mentions it inside a string literal, so no code calls it.
- The square root in the standard deviations is a parameter `root: real -> real`. Properties that need it assume
  only that it is non-negative on non-negative inputs.
- IEEE infinities and NaNs produced by arithmetic are not modelled; the model uses exact reals. Two cases are
  handled explicitly instead:
  - A buy at a zero price is an `Err(ZeroPrice)`, where numpy would produce inf/NaN and carry on.
  - A zero initial capital, or a zero first signalled close in practice mode, gives a missing percentage.
- Accounting.Step: the model is stated over exact reals. `capital // price` is floor division on floats, whose
  rounding is not modelled.
- The resampler asks for non-decreasing integer minute timestamps; the source does not state that requirement.
  pandas' calendar-aware rules, such as months, are not modelled. Only fixed-width buckets of `d` minutes, anchored
  at minute 0, are modelled.
- `convert_timeframe` gap-fills only float and int columns. The model treats every column as numeric.
- Window lengths and spans are required to be at least 1. This is a modelling choice: `rolling(window=0)` gives an all-missing column, and only `ewm(span<1)` and the `min_periods=1` breakout channel raise. The choice leaves out that degenerate all-missing case, and no caller passes 0.
- The in-place mutation of the caller's DataFrame is not modelled. Every function returns a new table, and the
  `copy()` calls in the SMA and Bollinger strategies disappear.
- Charts, `print` calls, the candle-chart call in both performance functions, scripts, and the data download and
  cleaning code are left out. They are I/O.
- Stratergy/bb_stratergy.py is not part of this model. `Performance/stratergy_performance.py` imports it but never
  calls it.
- Commented-out code is not modelled:
  - the MACD/Bollinger/ATR recomputation in preprocessing/timeframe.py:43-55;
  - the earlier Bollinger strategy in Strategy/BB_strategy.py:3-64;
  - the dispatch branches in Performance/stratergy_performance.py:38-50.
- Strategy/Mean_reversion_strategy.py defines `mean_reversion_strategy` twice. The model follows the second
  definition (lines 36-64), which is the one Python binds. Both definitions are identical.
- The standard deviation in the mean-reversion strategy covers the whole deviation column, as in the source. It
  therefore looks ahead: the causality lemmas proved for the indicators do not hold for it.
- The strategies registered in `strategy_performance` compute `Position`, but the accounting reads `Buy/Sell`.
  This is modelled as written: the accounting fails on such a table unless it already carried a `Buy/Sell`
  column (`Accounting.PositionStrategiesLackSignals`).

=== FILE: accounting.dfy ===
/** Backtest accounting: the inclusive date filter, the strategy-name
    dispatch, points captured, the capital/share replay with whole-share
    sizing and final mark-to-market, and the adjacent buy/sell pair counter
    of the practice mode. */
module Accounting {
  import opened Values
  import opened Series
  import opened StateMachines
  import opened SignalStrategies

  // ------------------------------------------------------------ date filter

  function MinStamp(ts: seq<int>): (m: int)
    requires |ts| > 0
    ensures forall i :: 0 <= i < |ts| ==> m <= ts[i]
    ensures exists i :: 0 <= i < |ts| && ts[i] == m
    decreases |ts|
  {
    if |ts| == 1 then ts[0]
    else
      var m := MinStamp(ts[..|ts| - 1]);
      assert forall i :: 0 <= i < |ts| - 1 ==> ts[..|ts| - 1][i] == ts[i];
      if ts[|ts| - 1] < m then ts[|ts| - 1] else m
  }

  function MaxStamp(ts: seq<int>): (m: int)
    requires |ts| > 0
    ensures forall i :: 0 <= i < |ts| ==> ts[i] <= m
    ensures exists i :: 0 <= i < |ts| && ts[i] == m
    decreases |ts|
  {
    if |ts| == 1 then ts[0]
    else
      var m := MaxStamp(ts[..|ts| - 1]);
      assert forall i :: 0 <= i < |ts| - 1 ==> ts[..|ts| - 1][i] == ts[i];
      if ts[|ts| - 1] > m then ts[|ts| - 1] else m
  }

  /** Which bars lie in `[lo, hi]`, both ends included. */
  function InWindow(bars: seq<Bar>, lo: int, hi: int): (mask: seq<bool>)
    ensures |mask| == |bars|
    ensures forall i :: 0 <= i < |bars| ==> (mask[i] <==> lo <= bars[i].t <= hi)
  {
    seq(|bars|, i requires 0 <= i < |bars| => lo <= bars[i].t <= hi)
  }

  /** The window a backtest runs over: the given bounds, or the earliest and
      latest timestamps of the table for the ones left unset. */
  function Window(f: Frame, start: Option<int>, end: Option<int>): (w: (int, int))
    requires |f.bars| > 0
    ensures start.Some? ==> w.0 == start.value
    ensures end.Some? ==> w.1 == end.value
    ensures start.None? ==> forall i :: 0 <= i < |f.bars| ==> w.0 <= f.bars[i].t
    ensures end.None? ==> forall i :: 0 <= i < |f.bars| ==> f.bars[i].t <= w.1
  {
    (start.GetOr(MinStamp(Stamps(f.bars))), end.GetOr(MaxStamp(Stamps(f.bars))))
  }

  /** Selecting with one mask from two sequences of the same length gives
      results of the same length. */
  lemma {:induction false} SelectSameLength<S, T>(xs: seq<S>, ys: seq<T>, mask: seq<bool>)
    requires |xs| == |mask| && |ys| == |mask|
    ensures |Select(xs, mask)| == |Select(ys, mask)|
    decreases |mask|
  {
    if |mask| > 0 {
      var n := |mask| - 1;
      SelectSameLength(xs[..n], ys[..n], mask[..n]);
    }
  }

  /** The rows a mask selects, in order, with every column cut down to the
      same rows. */
  function Restrict(f: Frame, mask: seq<bool>): (r: Frame)
    requires WellFormed(f) && |mask| == |f.bars|
    ensures WellFormed(r)
    ensures r.cols.Keys == f.cols.Keys
    ensures r.bars == Select(f.bars, mask)
    ensures forall k :: k in r.cols ==> r.cols[k] == Select(f.cols[k], mask)
  {
    var r := Frame(Select(f.bars, mask), map k | k in f.cols :: Select(f.cols[k], mask));
    forall k | k in r.cols
      ensures |r.cols[k]| == |r.bars|
    {
      SelectSameLength(f.cols[k], f.bars, mask);
    }
    r
  }

  /** A mask that selects every row keeps the table as it is. */
  lemma RestrictAll(f: Frame, mask: seq<bool>)
    requires WellFormed(f) && |mask| == |f.bars|
    requires forall i :: 0 <= i < |mask| ==> mask[i]
    ensures Restrict(f, mask) == f
  {
    SelectAll(f.bars, mask);
    forall k | k in f.cols
      ensures Select(f.cols[k], mask) == f.cols[k]
    {
      SelectAll(f.cols[k], mask);
    }
  }

  /** `data[(data.index >= start) & (data.index <= end)]`: the rows whose
      timestamp lies in the window, in order, with every column cut down to
      the same rows. An empty table stays empty. */
  function FilterDates(f: Frame, start: Option<int>, end: Option<int>): (r: Frame)
    requires WellFormed(f)
    ensures WellFormed(r)
    ensures r.cols.Keys == f.cols.Keys
    ensures |f.bars| == 0 ==> r == f
    ensures |f.bars| > 0 ==> var w := Window(f, start, end);
      && r == Restrict(f, InWindow(f.bars, w.0, w.1))
      && (forall b :: b in r.bars <==> b in f.bars && w.0 <= b.t <= w.1)
  {
    if |f.bars| == 0 then f
    else
      var w := Window(f, start, end);
      var mask := InWindow(f.bars, w.0, w.1);
      var r := Restrict(f, mask);
      forall b
        ensures b in r.bars <==> b in f.bars && w.0 <= b.t <= w.1
      {
        SelectMembership(f.bars, mask, b);
      }
      r
  }

  /** With both bounds left unset the filter keeps the whole table. */
  lemma FilterDefaultKeepsAll(f: Frame)
    requires WellFormed(f)
    ensures FilterDates(f, None, None) == f
  {
    if |f.bars| > 0 {
      var w := Window(f, None, None);
      RestrictAll(f, InWindow(f.bars, w.0, w.1));
    }
  }

  // ------------------------------------------------------------ dispatch

  /** The strategies a backtest can be asked for by name. */
  datatype StrategyName = Sma | Bb | Rsi | Macd | Idg | Tfb | Mr

  function NameOf(k: StrategyName): string {
    match k
    case Sma => "sma"
    case Bb => "bb"
    case Rsi => "rsi"
    case Macd => "macd"
    case Idg => "idg"
    case Tfb => "tfb"
    case Mr => "mr"
  }

  /** The if/elif chain over strategy names; anything else is rejected. */
  function ParseStrategy(name: string): (r: Result<StrategyName>)
    ensures r.Ok? ==> NameOf(r.value) == name
    ensures r.Err? ==> r.error == InvalidStrategy(name)
  {
    if name == "sma" then Ok(Sma)
    else if name == "bb" then Ok(Bb)
    else if name == "rsi" then Ok(Rsi)
    else if name == "macd" then Ok(Macd)
    else if name == "idg" then Ok(Idg)
    else if name == "tfb" then Ok(Tfb)
    else if name == "mr" then Ok(Mr)
    else Err(InvalidStrategy(name))
  }

  /** Every strategy's own name is accepted, and names it back; so exactly
      the seven names are accepted. */
  lemma ParseNameOf(k: StrategyName)
    ensures ParseStrategy(NameOf(k)) == Ok(k)
  {
  }

  /** Applies the named strategy with the default parameters of its
      definition. */
  function ApplyStrategy(f: Frame, k: StrategyName, root: real -> real): (r: Result<Frame>)
    ensures r.Err? <==> k == Sma && "SMA" !in f.cols
    ensures r.Ok? ==> r.value.bars == f.bars
  {
    match k
    case Sma => SmaStrategy(f)
    case Bb => Ok(BandStrategy(f, root))
    case Rsi => Ok(RsiStrategy(f, 14, 70.0, 30.0))
    case Macd => Ok(MacdStrategy(f, 12, 26, 9))
    case Idg => Ok(GapStrategy(f))
    case Tfb => Ok(BreakoutStrategy(f, 20))
    case Mr => Ok(MeanReversionStrategy(f, 20, root))
  }

  /** Only the intraday gap and mean reversion strategies write a
      `Buy/Sell` column; the others write `Position` and leave `Buy/Sell`
      present only when the table already had one. */
  lemma WritesBuySell(f: Frame, k: StrategyName, root: real -> real)
    requires ApplyStrategy(f, k, root).Ok?
    ensures "Buy/Sell" in ApplyStrategy(f, k, root).value.cols <==> "Buy/Sell" in f.cols || k == Idg || k == Mr
  {
    match k
    case Sma => SmaKeepsSignals(f);
    case Bb => BandKeepsSignals(f, root);
    case Rsi => RsiKeepsSignals(f);
    case Macd => MacdKeepsSignals(f);
    case Idg =>
    case Tfb => BreakoutKeepsSignals(f);
    case Mr =>
  }

  /** Removing and adding columns none of which is `Buy/Sell` keeps
      `Buy/Sell` exactly when it was there before. */
  lemma KeysKeepSignal(before: set<string>, after: set<string>, removed: set<string>, added: set<string>)
    requires after == (before - removed) + added
    requires forall x :: x in removed + added ==> |x| > 0 && x[0] != 'B'
    ensures "Buy/Sell" in after <==> "Buy/Sell" in before
  {
    assert "Buy/Sell"[0] == 'B';
  }

  lemma SmaKeepsSignals(f: Frame)
    requires SmaStrategy(f).Ok?
    ensures "Buy/Sell" in SmaStrategy(f).value.cols <==> "Buy/Sell" in f.cols
  {
    assert "Buy/Sell" != "Position";
  }

  lemma BandColumnsKeepSignal(before: set<string>, after: set<string>)
    requires after == (before - {"STD"}) + {"SMA", "UpperBand", "LowerBand", "Position"}
    ensures "Buy/Sell" in after <==> "Buy/Sell" in before
  {
    KeysKeepSignal(before, after, {"STD"}, {"SMA", "UpperBand", "LowerBand", "Position"});
  }

  lemma BandKeepsSignals(f: Frame, root: real -> real)
    ensures "Buy/Sell" in BandStrategy(f, root).cols <==> "Buy/Sell" in f.cols
  {
    var r := BandStrategy(f, root);
    var before, after := f.cols.Keys, r.cols.Keys;
    if "UpperBand" !in f.cols || "LowerBand" !in f.cols {
      assert after == (before - {"STD"}) + {"SMA", "UpperBand", "LowerBand", "Position"};
      BandColumnsKeepSignal(before, after);
    } else {
      assert after == before + {"Position"};
      KeysKeepSignal(before, after, {}, {"Position"});
    }
    assert "Buy/Sell" in r.cols <==> "Buy/Sell" in after;
  }

  lemma RsiKeepsSignals(f: Frame)
    ensures "Buy/Sell" in RsiStrategy(f, 14, 70.0, 30.0).cols <==> "Buy/Sell" in f.cols
  {
    var before, after := f.cols.Keys, RsiStrategy(f, 14, 70.0, 30.0).cols.Keys;
    assert after == before + {"RSI", "Position"};
    KeysKeepSignal(before, after, {}, {"RSI", "Position"});
  }

  lemma MacdColumnsKeepSignal(before: set<string>, after: set<string>)
    requires after == before + {"EMA_short", "EMA_long", "MACD", "Signal_Line", "Position"}
    ensures "Buy/Sell" in after <==> "Buy/Sell" in before
  {
    KeysKeepSignal(before, after, {}, {"EMA_short", "EMA_long", "MACD", "Signal_Line", "Position"});
  }

  lemma MacdKeepsSignals(f: Frame)
    ensures "Buy/Sell" in MacdStrategy(f, 12, 26, 9).cols <==> "Buy/Sell" in f.cols
  {
    var before, after := f.cols.Keys, MacdStrategy(f, 12, 26, 9).cols.Keys;
    assert after == before + {"EMA_short", "EMA_long", "MACD", "Signal_Line", "Position"};
    MacdColumnsKeepSignal(before, after);
  }

  lemma BreakoutColumnsKeepSignal(before: set<string>, after: set<string>)
    requires after == before + {"HHigh", "LLow", "Position"}
    ensures "Buy/Sell" in after <==> "Buy/Sell" in before
  {
    KeysKeepSignal(before, after, {}, {"HHigh", "LLow", "Position"});
  }

  lemma BreakoutKeepsSignals(f: Frame)
    ensures "Buy/Sell" in BreakoutStrategy(f, 20).cols <==> "Buy/Sell" in f.cols
  {
    var before, after := f.cols.Keys, BreakoutStrategy(f, 20).cols.Keys;
    assert after == before + {"HHigh", "LLow", "Position"};
    BreakoutColumnsKeepSignal(before, after);
  }

  // ------------------------------------------------------------ points captured

  /** Which rows' signal equals `v`; rows past the end of the signal
      column count as missing. */
  function SignalMask(sigs: Column, n: nat, v: real): (mask: seq<bool>)
    ensures |mask| == n
    ensures forall i :: 0 <= i < n ==> (mask[i] <==> At(sigs, i) == Some(v))
  {
    seq(n, i requires 0 <= i < n => At(sigs, i) == Some(v))
  }

  /** Sum of the closes of sell rows minus sum of the closes of buy rows. */
  function Points(sigs: Column, closes: seq<real>): (p: real)
    ensures (forall i :: 0 <= i < |closes| ==> At(sigs, i) != Some(1.0) && At(sigs, i) != Some(-1.0)) ==> p == 0.0
  {
    var sells, buys := SignalMask(sigs, |closes|, -1.0), SignalMask(sigs, |closes|, 1.0);
    var d := Sum(Select(closes, sells)) - Sum(Select(closes, buys));
    if forall i :: 0 <= i < |closes| ==> !sells[i] && !buys[i] then
      SelectNone(closes, sells);
      SelectNone(closes, buys);
      d
    else d
  }

  /** What a row adds to the points: its close with the sign opposite to
      its signal, nothing when it carries no signal. */
  function Weight(sig: Option<real>): real {
    if sig == Some(1.0) then -1.0 else if sig == Some(-1.0) then 1.0 else 0.0
  }

  function WeightedCloses(sigs: Column, closes: seq<real>): (ws: seq<real>)
    ensures |ws| == |closes|
    ensures forall i :: 0 <= i < |closes| ==> ws[i] == Weight(At(sigs, i)) * closes[i]
  {
    seq(|closes|, i requires 0 <= i < |closes| => Weight(At(sigs, i)) * closes[i])
  }

  lemma SelectStep(closes: seq<real>, mask: seq<bool>)
    requires |closes| == |mask| && |closes| > 0
    ensures var n := |closes| - 1;
      Sum(Select(closes, mask)) == Sum(Select(closes[..n], mask[..n])) + (if mask[n] then closes[n] else 0.0)
  {
    if mask[|closes| - 1] {
      SelectKept(closes, mask);
    } else {
      SelectSkipped(closes, mask);
    }
  }

  lemma SelectKept(closes: seq<real>, mask: seq<bool>)
    requires |closes| == |mask| && |closes| > 0 && mask[|closes| - 1]
    ensures var n := |closes| - 1;
      Sum(Select(closes, mask)) == Sum(Select(closes[..n], mask[..n])) + closes[n]
  {
    var n := |closes| - 1;
    var pre := Select(closes[..n], mask[..n]);
    assert Select(closes, mask) == pre + [closes[n]];
    SumAppend(pre, closes[n]);
  }

  lemma SelectSkipped(closes: seq<real>, mask: seq<bool>)
    requires |closes| == |mask| && |closes| > 0 && !mask[|closes| - 1]
    ensures var n := |closes| - 1;
      Sum(Select(closes, mask)) == Sum(Select(closes[..n], mask[..n]))
  {
    var n := |closes| - 1;
    var pre := Select(closes[..n], mask[..n]);
    assert Select(closes, mask) == pre + [];
    assert pre + [] == pre;
  }

  lemma WeightedStep(sigs: Column, closes: seq<real>)
    requires |closes| > 0
    ensures var n := |closes| - 1;
      Sum(WeightedCloses(sigs, closes)) == Sum(WeightedCloses(sigs, closes[..n])) + Weight(At(sigs, n)) * closes[n]
  {
    var n := |closes| - 1;
    var whole := WeightedCloses(sigs, closes);
    var init := WeightedCloses(sigs, closes[..n]);
    var last := Weight(At(sigs, n)) * closes[n];
    assert |whole| == |init + [last]|;
    forall i | 0 <= i < |whole|
      ensures whole[i] == (init + [last])[i]
    {
      if i < n {
        assert closes[..n][i] == closes[i];
        assert init[i] == Weight(At(sigs, i)) * closes[i];
      }
    }
    assert whole == init + [last];
    SumAppend(init, last);
  }

  /** Points captured is the signal-weighted sum of the closes. */
  lemma {:induction false} PointsWeighted(sigs: Column, closes: seq<real>)
    ensures Points(sigs, closes) == Sum(WeightedCloses(sigs, closes))
    decreases |closes|
  {
    if |closes| > 0 {
      var n := |closes| - 1;
      var pre := closes[..n];
      PointsWeighted(sigs, pre);
      var sell, buy := SignalMask(sigs, |closes|, -1.0), SignalMask(sigs, |closes|, 1.0);
      assert sell[..n] == SignalMask(sigs, n, -1.0);
      assert buy[..n] == SignalMask(sigs, n, 1.0);
      SelectStep(closes, sell);
      SelectStep(closes, buy);
      WeightedStep(sigs, closes);
    }
  }

  // ------------------------------------------------------------ capital replay

  /** Cash and the number of shares held (`position_size`). */
  datatype Book = Book(capital: real, shares: int)

  /** Cash plus the held shares valued at `price`. */
  function Worth(b: Book, price: real): (w: real)
    ensures b.shares == 0 ==> w == b.capital
    ensures b.shares >= 0 && price >= 0.0 ==> w >= b.capital
    ensures b.capital >= 0.0 && b.shares >= 0 && price >= 0.0 ==> w >= 0.0
  {
    if b.shares >= 0 && price >= 0.0 then
      MulNonNegative(b.shares as real, price);
      b.capital + b.shares as real * price
    else b.capital + b.shares as real * price
  }

  /** Whole shares bought with `c` at `p`: the most whose cost does not
      exceed `c`. */
  lemma FloorBounds(c: real, p: real)
    ensures p > 0.0 ==> var s := (c / p).Floor as real; s * p <= c < s * p + p
  {
    if p > 0.0 {
      var s := (c / p).Floor as real;
      assert s <= c / p < s + 1.0;
      BelowQuotient(c, p, s);
      AboveQuotient(c, p, s + 1.0);
      AddOne(s, p);
    }
  }

  /** A value at most `c / p` takes at most `c` when multiplied by `p`. */
  lemma BelowQuotient(c: real, p: real, s: real)
    requires p > 0.0 && s <= c / p
    ensures s * p <= c
  {
    MulNonNegative(c / p - s, p);
    assert (c / p - s) * p == c - s * p;
  }

  /** A value above `c / p` exceeds `c` when multiplied by `p`. */
  lemma AboveQuotient(c: real, p: real, t: real)
    requires p > 0.0 && c / p < t
    ensures c < t * p
  {
    MulPositive(t - c / p, p);
    assert (t - c / p) * p == t * p - c;
  }

  /** One row of the replay loop. A buy spends the cash on as many whole
      shares as it affords at the row's close, replacing whatever was held;
      a sell, only when shares are held, turns them all back into cash;
      any other row changes nothing. A buy at a zero close cannot be sized. */
  function Step(b: Book, sig: Option<real>, price: real): (r: Result<Book>)
    ensures r.Err? <==> sig == Some(1.0) && price == 0.0
    ensures r.Err? ==> r.error == ZeroPrice
    ensures sig == Some(1.0) && price != 0.0 ==> r.Ok? && Worth(r.value, price) == b.capital
    ensures sig == Some(1.0) && price > 0.0 ==> 0.0 <= r.value.capital < price
    ensures sig == Some(1.0) && price > 0.0 && b.capital >= 0.0 ==> r.value.shares >= 0
    ensures sig == Some(-1.0) && b.shares > 0 ==> r.Ok? && r.value.shares == 0 && Worth(r.value, price) == Worth(b, price)
    ensures sig != Some(1.0) && !(sig == Some(-1.0) && b.shares > 0) ==> r == Ok(b)
  {
    if sig == Some(1.0) then
      if price == 0.0 then Err(ZeroPrice)
      else
        var shares := (b.capital / price).Floor;
        FloorBounds(b.capital, price);
        Ok(Book(b.capital - shares as real * price, shares))
    else if sig == Some(-1.0) && b.shares > 0 then Ok(Book(b.capital + b.shares as real * price, 0))
    else Ok(b)
  }

  /** The replay loop over the rows whose closes are given, from `b`; the
      signal of a row past the end of the signal column counts as missing. */
  function Replay(sigs: Column, closes: seq<real>, b: Book): (r: Result<Book>)
    ensures r.Err? <==> exists i :: 0 <= i < |closes| && At(sigs, i) == Some(1.0) && closes[i] == 0.0
    ensures r.Err? ==> r.error == ZeroPrice
    decreases |closes|
  {
    if |closes| == 0 then Ok(b)
    else
      var n := |closes| - 1;
      match Replay(sigs, closes[..n], b)
      case Err(e) => Err(e)
      case Ok(prev) => Step(prev, At(sigs, n), closes[n])
  }

  /** The loop as the source writes it: one pass over the rows, carrying
      cash and shares. */
  method ReplayLoop(sigs: Column, closes: seq<real>, initial: real) returns (r: Result<Book>)
    ensures r == Replay(sigs, closes, Book(initial, 1))
  {
    var b := Book(initial, 1);
    var i := 0;
    while i < |closes|
      invariant 0 <= i <= |closes|
      invariant Replay(sigs, closes[..i], Book(initial, 1)) == Ok(b)
    {
      assert closes[..i + 1][..i] == closes[..i];
      var s := Step(b, At(sigs, i), closes[i]);
      if s.Err? {
        assert Replay(sigs, closes[..i + 1], Book(initial, 1)) == s;
        ReplayErrSticks(sigs, closes, i + 1, Book(initial, 1));
        return s;
      }
      b := s.value;
      i := i + 1;
    }
    assert closes[..i] == closes;
    return Ok(b);
  }

  /** Once the replay fails on a prefix it fails the same way on the whole. */
  lemma {:induction false} ReplayErrSticks(sigs: Column, closes: seq<real>, k: nat, b: Book)
    requires k <= |closes| && Replay(sigs, closes[..k], b).Err?
    ensures Replay(sigs, closes, b) == Replay(sigs, closes[..k], b)
    decreases |closes| - k
  {
    if k < |closes| {
      assert closes[..k + 1][..k] == closes[..k];
      ReplayErrSticks(sigs, closes, k + 1, b);
    } else {
      assert closes[..k] == closes;
    }
  }

  /** With positive closes, a non-negative cash balance and no short holding
      to start from, the replay never fails and never lets cash or shares go
      negative. */
  lemma {:induction false} ReplaySolvent(sigs: Column, closes: seq<real>, b: Book)
    requires forall i :: 0 <= i < |closes| ==> closes[i] > 0.0
    requires b.capital >= 0.0 && b.shares >= 0
    ensures Replay(sigs, closes, b).Ok?
    ensures Replay(sigs, closes, b).value.capital >= 0.0 && Replay(sigs, closes, b).value.shares >= 0
    decreases |closes|
  {
    if |closes| > 0 {
      var n := |closes| - 1;
      ReplaySolvent(sigs, closes[..n], b);
      var prev := Replay(sigs, closes[..n], b).value;
      assert Replay(sigs, closes, b) == Step(prev, At(sigs, n), closes[n]);
      StepSolvent(prev, At(sigs, n), closes[n]);
    }
  }

  /** One row keeps cash and shares non-negative at a positive close. */
  lemma StepSolvent(b: Book, sig: Option<real>, price: real)
    requires price > 0.0 && b.capital >= 0.0 && b.shares >= 0
    ensures Step(b, sig, price).Ok?
    ensures Step(b, sig, price).value.capital >= 0.0 && Step(b, sig, price).value.shares >= 0
  {
    if sig == Some(-1.0) && b.shares > 0 {
      MulNonNegative(b.shares as real, price);
    }
  }

  /** Rows that neither buy nor sell leave the book as it was. */
  lemma {:induction false} ReplayQuiet(sigs: Column, closes: seq<real>, b: Book)
    requires forall i :: 0 <= i < |closes| ==> At(sigs, i) != Some(1.0) && At(sigs, i) != Some(-1.0)
    ensures Replay(sigs, closes, b) == Ok(b)
    decreases |closes|
  {
    if |closes| > 0 {
      ReplayQuiet(sigs, closes[..|closes| - 1], b);
    }
  }

  /** A buy sizes the holding from cash alone: whatever was held before is
      replaced, not added to. */
  lemma BuyReplacesHolding(b: Book, price: real)
    requires price > 0.0
    ensures Step(b, Some(1.0), price) == Step(Book(b.capital, 0), Some(1.0), price)
  {
    var x, y := Step(b, Some(1.0), price).value, Step(Book(b.capital, 0), Some(1.0), price).value;
    assert x.capital == y.capital && x.shares == y.shares;
  }

  // ------------------------------------------------------------ the reports

  /** What `strategy_performance` returns: final capital, profit/loss in
      percent of the initial capital (missing when that is 0), and points
      captured. */
  datatype Report = Report(final: real, pnl: Option<real>, points: real)

  /** The accounting that follows the strategy in both performance
      functions: reads `Buy/Sell`, computes the points, replays the capital
      from `initial` cash and one share, and marks the result to the last
      close. */
  function Account(h: Frame, initial: real): (r: Result<Report>)
    ensures "Buy/Sell" !in h.cols ==> r == Err(MissingColumn("Buy/Sell"))
    ensures r.Err? ==> r.error in {MissingColumn("Buy/Sell"), ZeroPrice, EmptySeries}
    ensures "Buy/Sell" in h.cols && |h.bars| == 0 ==> r == Err(EmptySeries)
    ensures r.Ok? <==> "Buy/Sell" in h.cols && |h.bars| > 0 && Replay(h.cols["Buy/Sell"], Closes(h.bars), Book(initial, 1)).Ok?
    ensures "Buy/Sell" in h.cols && Replay(h.cols["Buy/Sell"], Closes(h.bars), Book(initial, 1)).Err? ==> r == Err(ZeroPrice)
    ensures r.Ok? ==> var closes := Closes(h.bars);
      && r.value.points == Points(h.cols["Buy/Sell"], closes)
      && Replay(h.cols["Buy/Sell"], closes, Book(initial, 1)).Ok?
      && r.value.final == Worth(Replay(h.cols["Buy/Sell"], closes, Book(initial, 1)).value, closes[|closes| - 1])
    ensures r.Ok? ==> r.value.pnl == Percent(r.value.final - initial, initial)
  {
    if "Buy/Sell" !in h.cols then Err(MissingColumn("Buy/Sell"))
    else
      var sigs, closes := h.cols["Buy/Sell"], Closes(h.bars);
      var points := Points(sigs, closes);
      match Replay(sigs, closes, Book(initial, 1))
      case Err(e) => Err(e)
      case Ok(b) =>
        if |closes| == 0 then Err(EmptySeries)
        else
          var final := Worth(b, closes[|closes| - 1]);
          Ok(Report(final, Percent(final - initial, initial), points))
  }

  /** `gain` in percent of `base`; missing when `base` is 0 (the NaN or
      infinity a zero division yields). */
  function Percent(gain: real, base: real): (p: Option<real>)
    ensures p.Some? <==> base != 0.0
    ensures p.Some? ==> p.value * base == gain * 100.0
  {
    if base == 0.0 then None
    else
      assert gain / base * base == gain;
      Some(gain / base * 100.0)
  }

  /** With positive closes and non-negative initial cash, the accounting of
      a non-empty table with a `Buy/Sell` column succeeds and ends with a
      non-negative final capital. */
  lemma AccountSolvent(h: Frame, initial: real)
    requires "Buy/Sell" in h.cols && |h.bars| > 0 && initial >= 0.0
    requires forall i :: 0 <= i < |h.bars| ==> h.bars[i].c > 0.0
    ensures Account(h, initial).Ok? && Account(h, initial).value.final >= 0.0
  {
    var closes := Closes(h.bars);
    ReplaySolvent(h.cols["Buy/Sell"], closes, Book(initial, 1));
    var b := Replay(h.cols["Buy/Sell"], closes, Book(initial, 1)).value;
    MulNonNegative(b.shares as real, closes[|closes| - 1]);
    assert Worth(b, closes[|closes| - 1]) >= 0.0;
  }

  /** With no buy and no sell anywhere, the final capital is the initial
      cash plus the one default share at the last close. */
  lemma AccountQuiet(h: Frame, initial: real)
    requires "Buy/Sell" in h.cols && |h.bars| > 0
    requires forall i :: 0 <= i < |h.bars| ==>
      At(h.cols["Buy/Sell"], i) != Some(1.0) && At(h.cols["Buy/Sell"], i) != Some(-1.0)
    ensures Account(h, initial).Ok?
    ensures Account(h, initial).value.final == initial + h.bars[|h.bars| - 1].c
    ensures Account(h, initial).value.points == 0.0
  {
    var sigs, closes := h.cols["Buy/Sell"], Closes(h.bars);
    ReplayQuiet(sigs, closes, Book(initial, 1));
    PointsWeighted(sigs, closes);
    ZeroWeights(sigs, closes);
  }

  lemma {:induction false} ZeroWeights(sigs: Column, closes: seq<real>)
    requires forall i :: 0 <= i < |closes| ==> At(sigs, i) != Some(1.0) && At(sigs, i) != Some(-1.0)
    ensures Sum(WeightedCloses(sigs, closes)) == 0.0
    decreases |closes|
  {
    if |closes| > 0 {
      var n := |closes| - 1;
      ZeroWeights(sigs, closes[..n]);
      assert WeightedCloses(sigs, closes) == WeightedCloses(sigs, closes[..n]) + [0.0];
      SumAppend(WeightedCloses(sigs, closes[..n]), 0.0);
    }
  }

  /** `strategy_performance(data, name, start, end, initial)`: filter the
      dates, run the named strategy, then account. */
  function StrategyPerformance(f: Frame, name: string, start: Option<int>, end: Option<int>,
                               initial: real, root: real -> real): (r: Result<Report>)
    requires WellFormed(f)
    ensures ParseStrategy(name).Err? ==> r == Err(InvalidStrategy(name))
    ensures ParseStrategy(name).Ok? ==>
      var g := FilterDates(f, start, end);
      var applied := ApplyStrategy(g, ParseStrategy(name).value, root);
      r == if applied.Err? then Err(applied.error) else Account(applied.value, initial)
  {
    var g := FilterDates(f, start, end);
    var k :- ParseStrategy(name);
    var h :- ApplyStrategy(g, k, root);
    Account(h, initial)
  }

  /** Five of the seven strategies write `Position`, not `Buy/Sell`; on a
      table without a `Buy/Sell` column of its own their backtest stops at
      the missing column (or, for `sma`, at a missing `SMA`). */
  lemma PositionStrategiesLackSignals(f: Frame, name: string, start: Option<int>, end: Option<int>,
                                      initial: real, root: real -> real)
    requires WellFormed(f) && "Buy/Sell" !in f.cols
    requires name in {"sma", "bb", "rsi", "macd", "tfb"}
    ensures StrategyPerformance(f, name, start, end, initial, root).Err?
  {
    var k := if name == "sma" then Sma else if name == "bb" then Bb else if name == "rsi" then Rsi
             else if name == "macd" then Macd else Tfb;
    assert NameOf(k) == name;
    ParseNameOf(k);
    var g := FilterDates(f, start, end);
    assert "Buy/Sell" !in g.cols;
    var applied := ApplyStrategy(g, k, root);
    if applied.Ok? {
      WritesBuySell(g, k, root);
      assert "Buy/Sell" !in applied.value.cols;
      assert Account(applied.value, initial).Err?;
    }
  }

  /** `stratergy_performance`: only `sma` is accepted, here meaning the
      edge-triggered crossover that writes `Buy/Sell`. Returns the profit or
      loss percentage and the points. */
  function StratergyPerformance(f: Frame, name: string, start: Option<int>, end: Option<int>,
                                initial: real): (r: Result<(Option<real>, real)>)
    requires WellFormed(f)
    ensures name != "sma" ==> r == Err(InvalidStrategy(name))
    ensures name == "sma" && "SMA" !in f.cols ==> r == Err(MissingColumn("SMA"))
    ensures name == "sma" && "SMA" in f.cols ==>
      var h := SmaCrossStrategy(FilterDates(f, start, end)).value;
      var a := Account(h, initial);
      (r.Ok? <==> a.Ok?) && (r.Ok? ==> r.value == (a.value.pnl, a.value.points))
  {
    if name != "sma" then Err(InvalidStrategy(name))
    else
      var h :- SmaCrossStrategy(FilterDates(f, start, end));
      var a :- Account(h, initial);
      Ok((a.pnl, a.points))
  }

  // ------------------------------------------------------------ practice mode

  /** Every row as a (signal, close) pair, a missing signal read as 0. */
  function RowPairs(sigs: Column, closes: seq<real>): (rows: seq<(real, real)>)
    ensures |rows| == |closes|
    ensures forall i :: 0 <= i < |closes| ==> rows[i] == (At(sigs, i).GetOr(0.0), closes[i])
  {
    seq(|closes|, i requires 0 <= i < |closes| => (At(sigs, i).GetOr(0.0), closes[i]))
  }

  /** Which of the first `n` rows carry a signal (`notna`). */
  function PresentMask(sigs: Column, n: nat): (mask: seq<bool>)
    ensures |mask| == n
    ensures forall i :: 0 <= i < n ==> (mask[i] <==> At(sigs, i).Some?)
  {
    seq(n, i requires 0 <= i < n => At(sigs, i).Some?)
  }

  /** The present signals of `Buy/Sell` with their rows' closes
      (`dropna(subset=['Buy/Sell'])`): the signalled rows, each once, in
      row order. */
  function Signalled(sigs: Column, closes: seq<real>): (r: seq<(real, real)>)
    ensures |r| <= |closes|
    ensures forall p :: p in r <==> exists i :: 0 <= i < |closes| && At(sigs, i) == Some(p.0) && closes[i] == p.1
    decreases |closes|
  {
    if |closes| == 0 then []
    else
      var n := |closes| - 1;
      var pre := Signalled(sigs, closes[..n]);
      assert forall i :: 0 <= i < n ==> closes[..n][i] == closes[i];
      var s := At(sigs, n);
      if s.Some? then pre + [(s.value, closes[n])] else pre
  }

  /** Selecting the signalled rows of one more row appends that row when
      it carries a signal. */
  lemma SignalledStep(sigs: Column, closes: seq<real>)
    requires |closes| > 0
    ensures var n, s := |closes| - 1, At(sigs, |closes| - 1);
      Select(RowPairs(sigs, closes), PresentMask(sigs, |closes|)) ==
      Select(RowPairs(sigs, closes[..n]), PresentMask(sigs, n)) + (if s.Some? then [(s.value, closes[n])] else [])
  {
    var n := |closes| - 1;
    assert RowPairs(sigs, closes)[..n] == RowPairs(sigs, closes[..n]);
    assert PresentMask(sigs, |closes|)[..n] == PresentMask(sigs, n);
  }

  /** The signalled rows are the row pairs selected by the presence mask:
      each signalled row once, in row order, which is what the adjacent-pair
      count depends on. */
  lemma {:induction false} SignalledInOrder(sigs: Column, closes: seq<real>)
    ensures Signalled(sigs, closes) == Select(RowPairs(sigs, closes), PresentMask(sigs, |closes|))
    decreases |closes|
  {
    if |closes| > 0 {
      var n := |closes| - 1;
      SignalledInOrder(sigs, closes[..n]);
      SignalledStep(sigs, closes);
    }
  }

  /** Whether rows `i-1` and `i` form a buy followed by a sell. */
  predicate IsPair(rows: seq<(real, real)>, i: int)
    requires 0 < i < |rows|
  {
    rows[i - 1].0 == 1.0 && rows[i].0 == -1.0
  }

  /** Number of adjacent buy-then-sell pairs. */
  function PairCount(rows: seq<(real, real)>): (n: nat)
    ensures (forall i :: 0 <= i < |rows| ==> rows[i].0 != 1.0) ==> n == 0
    ensures (forall i :: 0 <= i < |rows| ==> rows[i].0 != -1.0) ==> n == 0
    decreases |rows|
  {
    if |rows| < 2 then 0
    else
      var k := |rows| - 1;
      assert forall i :: 0 <= i < k ==> rows[..k][i] == rows[i];
      PairCount(rows[..k]) + (if IsPair(rows, k) then 1 else 0)
  }

  /** Summed close-to-close gain over the adjacent buy-then-sell pairs. */
  function PairPnl(rows: seq<(real, real)>): (pnl: real)
    ensures (forall i :: 0 < i < |rows| && IsPair(rows, i) ==> rows[i - 1].1 <= rows[i].1) ==> pnl >= 0.0
    ensures (forall i :: 0 < i < |rows| && IsPair(rows, i) ==> rows[i].1 <= rows[i - 1].1) ==> pnl <= 0.0
    decreases |rows|
  {
    if |rows| < 2 then 0.0
    else
      var n := |rows| - 1;
      assert forall i :: 0 <= i < n ==> rows[..n][i] == rows[i];
      PairPnl(rows[..n]) + (if IsPair(rows, n) then rows[n].1 - rows[n - 1].1 else 0.0)
  }

  /** Extending the rows by one adds the pair it may close. */
  lemma PairStep(rows: seq<(real, real)>, i: nat)
    requires 1 <= i < |rows|
    ensures PairCount(rows[..i + 1]) == PairCount(rows[..i]) + (if IsPair(rows, i) then 1 else 0)
    ensures PairPnl(rows[..i + 1]) == PairPnl(rows[..i]) + (if IsPair(rows, i) then rows[i].1 - rows[i - 1].1 else 0.0)
  {
    assert rows[..i + 1][..i] == rows[..i];
  }

  /** Pairs cannot share a row: a row ending in a buy leaves one row fewer
      for pairs. */
  lemma {:induction false} PairCountBound(rows: seq<(real, real)>)
    ensures 2 * PairCount(rows) + (if |rows| > 0 && rows[|rows| - 1].0 == 1.0 then 1 else 0) <= |rows|
    decreases |rows|
  {
    if |rows| >= 2 {
      var n := |rows| - 1;
      var pre := rows[..n];
      PairCountBound(pre);
      assert pre[n - 1] == rows[n - 1];
    }
  }

  /** With no buy-then-sell pair there is neither profit nor loss. */
  lemma {:induction false} NoPairNoPnl(rows: seq<(real, real)>)
    requires PairCount(rows) == 0
    ensures PairPnl(rows) == 0.0
    decreases |rows|
  {
    if |rows| >= 2 {
      var n := |rows| - 1;
      NoPairNoPnl(rows[..n]);
    }
  }

  /** What `performance` returns. */
  datatype PracticeReport = PracticeReport(pnl: real, percent: Option<real>, trades: nat)

  /** `performance(data)`: counts the adjacent buy-then-sell pairs among
      the rows that carry a signal and sums their gains; returns are the
      gain as a percentage of the first such row's close (missing when that
      close is 0). */
  method PracticePerformance(f: Frame) returns (r: Result<PracticeReport>)
    ensures "Buy/Sell" !in f.cols ==> r == Err(MissingColumn("Buy/Sell"))
    ensures "Buy/Sell" in f.cols ==>
      var rows := Signalled(f.cols["Buy/Sell"], Closes(f.bars));
      && (|rows| == 0 <==> r.Err?)
      && (r.Err? ==> r.error == EmptySeries)
      && (r.Ok? ==> r.value.trades == PairCount(rows) && r.value.pnl == PairPnl(rows))
      && (r.Ok? ==> 2 * r.value.trades <= |rows|)
      && (r.Ok? ==> r.value.percent == Percent(r.value.pnl, rows[0].1))
  {
    if "Buy/Sell" !in f.cols {
      return Err(MissingColumn("Buy/Sell"));
    }
    var rows := Signalled(f.cols["Buy/Sell"], Closes(f.bars));
    if |rows| == 0 {
      // the loop below would not run, and the first row does not exist
      return Err(EmptySeries);
    }
    var pnl := 0.0;
    var trades := 0;
    var i := 1;
    assert rows[..1] == [rows[0]];
    while i < |rows|
      invariant 1 <= i <= |rows|
      invariant trades == PairCount(rows[..i]) && pnl == PairPnl(rows[..i])
    {
      PairStep(rows, i);
      if rows[i - 1].0 == 1.0 && rows[i].0 == -1.0 {
        pnl := pnl + (rows[i].1 - rows[i - 1].1);
        trades := trades + 1;
      }
      i := i + 1;
    }
    assert rows[..i] == rows;
    PairCountBound(rows);
    return Ok(PracticeReport(pnl, Percent(pnl, rows[0].1), trades));
  }
}

=== FILE: indicators.dfy ===
/** The indicator library: trailing-window and forward-recursive transforms
    of the Close (and High/Low) series. Every value at bar t is a function of
    bars 0..t only, which the `...Causal` lemmas state. */
module Indicators {
  import opened Values
  import opened Series

  // ---------------------------------------------------------------- SMA

  /** The `p` values ending at bar `i`. */
  function Window(xs: seq<real>, i: int, p: int): seq<real>
    requires 1 <= p && p - 1 <= i < |xs|
  {
    xs[i - p + 1..i + 1]
  }

  /** `rolling(window=p).mean()`: missing for bars 0..p-2, then the mean of
      the last `p` values. */
  function RollingMean(xs: seq<real>, p: nat): (r: Column)
    requires p >= 1
    ensures |r| == |xs|
    ensures forall i :: 0 <= i < |xs| ==> (r[i].Some? <==> i >= p - 1)
    ensures forall i :: p - 1 <= i < |xs| ==> r[i] == Some(Mean(Window(xs, i, p)))
  {
    seq(|xs|, i requires 0 <= i < |xs| => if i < p - 1 then None else Some(Mean(Window(xs, i, p))))
  }

  /** A defined rolling mean lies between the smallest and the largest value
      of its window. */
  lemma RollingMeanBounds(xs: seq<real>, p: nat, i: nat)
    requires p >= 1 && p - 1 <= i < |xs|
    ensures Min(Window(xs, i, p)) <= RollingMean(xs, p)[i].value <= Max(Window(xs, i, p))
  {
    MeanBetween(Window(xs, i, p));
  }

  lemma RollingMeanNonNegative(xs: seq<real>, p: nat)
    requires p >= 1
    requires forall i :: 0 <= i < |xs| ==> xs[i] >= 0.0
    ensures forall i :: 0 <= i < |xs| && RollingMean(xs, p)[i].Some? ==> RollingMean(xs, p)[i].value >= 0.0
  {
    forall i | 0 <= i < |xs| && RollingMean(xs, p)[i].Some?
      ensures RollingMean(xs, p)[i].value >= 0.0
    {
      RollingMeanBounds(xs, p, i);
      var w := Window(xs, i, p);
      assert w[0] == xs[i - p + 1];
    }
  }

  lemma RollingMeanCausal(xs: seq<real>, p: nat, k: nat)
    requires p >= 1 && k <= |xs|
    ensures RollingMean(xs[..k], p) == RollingMean(xs, p)[..k]
  {
    var short, long := RollingMean(xs[..k], p), RollingMean(xs, p);
    forall i | 0 <= i < k
      ensures short[i] == long[i]
    {
      if i >= p - 1 {
        assert Window(xs[..k], i, p) == xs[i - p + 1..i + 1];
      }
    }
    assert short == long[..k];
  }

  /** `sma(data, period)`: writes `SMA` from the Close column. */
  function AddSma(f: Frame, period: nat): (r: Frame)
    requires period >= 1
    ensures r.bars == f.bars
    ensures r.cols.Keys == f.cols.Keys + {"SMA"}
    ensures |r.cols["SMA"]| == |f.bars|
    ensures forall i :: 0 <= i < |f.bars| ==>
      (r.cols["SMA"][i].Some? <==> i >= period - 1)
    ensures r.cols["SMA"] == RollingMean(Closes(f.bars), period)
    ensures forall k :: k in f.cols && k != "SMA" ==> r.cols[k] == f.cols[k]
  {
    WithColumn(f, "SMA", RollingMean(Closes(f.bars), period))
  }

  // ---------------------------------------------------------------- EMA

  /** Smoothing factor of `ewm(span=p)`. */
  function Alpha(span: nat): (a: real)
    requires span >= 1
    ensures 0.0 < a <= 1.0
  {
    2.0 / (span as real + 1.0)
  }

  /** `ewm(span, adjust=False).mean()`: seeded with the first value, then
      `y[t] = a*x[t] + (1-a)*y[t-1]`. Defined at every bar. */
  function Ema(xs: seq<real>, span: nat): (r: seq<real>)
    requires span >= 1
    ensures |r| == |xs|
    ensures |xs| > 0 ==> r[0] == xs[0]
    decreases |xs|
  {
    if |xs| == 0 then []
    else if |xs| == 1 then [xs[0]]
    else
      var prev := Ema(xs[..|xs| - 1], span);
      prev + [Blend(Alpha(span), xs[|xs| - 1], prev[|prev| - 1])]
  }

  /** One smoothing step: weight `a` on the new value. */
  function Blend(a: real, x: real, prev: real): real {
    a * x + (1.0 - a) * prev
  }

  lemma {:induction false} EmaCausal(xs: seq<real>, span: nat, k: nat)
    requires span >= 1 && k <= |xs|
    ensures Ema(xs[..k], span) == Ema(xs, span)[..k]
    decreases |xs|
  {
    if k < |xs| {
      var init := xs[..|xs| - 1];
      assert |xs| >= 2 || k == 0;
      if |xs| >= 2 {
        EmaCausal(init, span, k);
        assert init[..k] == xs[..k];
      }
    } else {
      assert xs[..k] == xs;
    }
  }

  lemma EmaUnfold(xs: seq<real>, span: nat)
    requires span >= 1 && |xs| >= 2
    ensures var prev := Ema(xs[..|xs| - 1], span);
      Ema(xs, span) == prev + [Blend(Alpha(span), xs[|xs| - 1], prev[|xs| - 2])]
  {
  }

  /** The `adjust=False` recurrence, bar by bar. */
  lemma EmaRecurrence(xs: seq<real>, span: nat, t: nat)
    requires span >= 1 && 1 <= t < |xs|
    ensures Ema(xs, span)[t] == Blend(Alpha(span), xs[t], Ema(xs, span)[t - 1])
  {
    var e, pre := Ema(xs, span), xs[..t + 1];
    assert |pre| == t + 1 && pre[..t] == xs[..t] && pre[t] == xs[t];
    EmaUnfold(pre, span);
    var prev := Ema(xs[..t], span);
    assert Ema(pre, span) == prev + [Blend(Alpha(span), xs[t], prev[t - 1])];
    EmaCausal(xs, span, t + 1);
    EmaCausal(xs, span, t);
    assert e[t] == Ema(pre, span)[t];
    assert prev[t - 1] == e[t - 1];
  }

  /** Each EMA value lies between the smallest and the largest value seen
      so far. */
  lemma {:induction false} EmaBounds(xs: seq<real>, span: nat, t: nat)
    requires span >= 1 && t < |xs|
    ensures Min(xs[..t + 1]) <= Ema(xs, span)[t] <= Max(xs[..t + 1])
    decreases t
  {
    var e := Ema(xs, span);
    if t > 0 {
      EmaBounds(xs, span, t - 1);
      EmaRecurrence(xs, span, t);
      var lo, hi := Min(xs[..t + 1]), Max(xs[..t + 1]);
      PrefixExtremes(xs, t);
      Convex(Alpha(span), xs[t], e[t - 1], lo, hi);
    } else {
      assert xs[..1] == [xs[0]];
    }
  }

  lemma Convex(a: real, x: real, y: real, lo: real, hi: real)
    requires 0.0 < a <= 1.0 && lo <= x <= hi && lo <= y <= hi
    ensures lo <= Blend(a, x, y) <= hi
  {
    MulNonNegative(a, x - lo);
    MulNonNegative(1.0 - a, y - lo);
    MulNonNegative(a, hi - x);
    MulNonNegative(1.0 - a, hi - y);
    assert a * x + (1.0 - a) * y - lo == a * (x - lo) + (1.0 - a) * (y - lo);
    assert hi - (a * x + (1.0 - a) * y) == a * (hi - x) + (1.0 - a) * (hi - y);
  }

  /** The extremes of a longer prefix bound those of a shorter one. */
  lemma PrefixExtremes(xs: seq<real>, t: nat)
    requires 1 <= t < |xs|
    ensures Min(xs[..t + 1]) <= Min(xs[..t]) && Max(xs[..t]) <= Max(xs[..t + 1])
    ensures Min(xs[..t + 1]) <= xs[t] <= Max(xs[..t + 1])
  {
    var longer, shorter := xs[..t + 1], xs[..t];
    var i :| 0 <= i < |shorter| && shorter[i] == Min(shorter);
    assert longer[i] == shorter[i];
    var j :| 0 <= j < |shorter| && shorter[j] == Max(shorter);
    assert longer[j] == shorter[j];
    assert longer[t] == xs[t];
  }

  /** `ema(data, period)`: writes `EMA`. */
  function AddEma(f: Frame, period: nat): (r: Frame)
    requires period >= 1
    ensures r.bars == f.bars
    ensures r.cols.Keys == f.cols.Keys + {"EMA"}
    ensures AllPresent(r.cols["EMA"]) && |r.cols["EMA"]| == |f.bars|
    ensures r.cols["EMA"] == Lift(Ema(Closes(f.bars), period))
    ensures forall k :: k in f.cols && k != "EMA" ==> r.cols[k] == f.cols[k]
  {
    WithColumn(f, "EMA", Lift(Ema(Closes(f.bars), period)))
  }

  // ---------------------------------------------------------------- RSI

  /** `diff()`: missing at bar 0. */
  function Change(xs: seq<real>, i: int): Option<real> {
    if 1 <= i < |xs| then Some(xs[i] - xs[i - 1]) else None
  }

  /** `delta.where(delta > 0, 0)`: a missing change counts as 0. */
  function Gains(xs: seq<real>): (g: seq<real>)
    ensures |g| == |xs|
    ensures forall i :: 0 <= i < |xs| ==> g[i] >= 0.0
    ensures |xs| > 0 ==> g[0] == 0.0
    ensures forall i :: 1 <= i < |xs| ==> (g[i] > 0.0 <==> xs[i] > xs[i - 1])
  {
    seq(|xs|, i requires 0 <= i < |xs| => if Gt(Change(xs, i), Some(0.0)) then Change(xs, i).value else 0.0)
  }

  /** `-delta.where(delta < 0, 0)`. */
  function Losses(xs: seq<real>): (l: seq<real>)
    ensures |l| == |xs|
    ensures forall i :: 0 <= i < |xs| ==> l[i] >= 0.0
    ensures |xs| > 0 ==> l[0] == 0.0
    ensures forall i :: 1 <= i < |xs| ==> (l[i] > 0.0 <==> xs[i] < xs[i - 1])
  {
    seq(|xs|, i requires 0 <= i < |xs| => if Lt(Change(xs, i), Some(0.0)) then -Change(xs, i).value else 0.0)
  }

  /** A bar's gain and loss recover its price change. */
  lemma GainLossSplit(xs: seq<real>, i: nat)
    requires 1 <= i < |xs|
    ensures Gains(xs)[i] - Losses(xs)[i] == xs[i] - xs[i - 1]
    ensures Gains(xs)[i] == 0.0 || Losses(xs)[i] == 0.0
  {
  }

  /** `100 - 100/(1 + g/l)`, with the IEEE outcomes of a zero loss made
      explicit: `g/0` is infinite and gives 100, `0/0` is NaN. */
  function RsiValue(g: real, l: real): (r: Option<real>)
    requires g >= 0.0 && l >= 0.0
    ensures r.None? <==> g == 0.0 && l == 0.0
    ensures r.Some? ==> 0.0 <= r.value <= 100.0
    ensures r == Some(100.0) <==> l == 0.0 && g > 0.0
    ensures l > 0.0 ==> r == Some(100.0 * g / (g + l))
    ensures l > 0.0 ==> r == Some(100.0 - 100.0 / (1.0 + g / l))
  {
    if l == 0.0 then
      if g == 0.0 then None else Some(100.0)
    else
      var rs := g / l;
      RsiClosedForm(g, l);
      Some(100.0 - 100.0 / (1.0 + rs))
  }

  lemma RsiClosedForm(g: real, l: real)
    requires g >= 0.0 && l > 0.0
    ensures 100.0 - 100.0 / (1.0 + g / l) == 100.0 * g / (g + l)
    ensures 0.0 <= 100.0 * g / (g + l) < 100.0
  {
    var rs := g / l;
    assert rs * l == g;
    assert (1.0 + rs) * l == g + l;
    var q := 100.0 / (1.0 + rs);
    assert q * (1.0 + rs) == 100.0;
    assert q * (g + l) == 100.0 * l by {
      assert q * (g + l) == q * ((1.0 + rs) * l);
      assert q * ((1.0 + rs) * l) == (q * (1.0 + rs)) * l;
    }
    var f := 100.0 * g / (g + l);
    assert f * (g + l) == 100.0 * g;
    assert (100.0 - q) * (g + l) == f * (g + l);
    Cancel(100.0 - q, f, g + l);
    MulNonNegative(100.0, g);
    assert (100.0 - f) * (g + l) == 100.0 * l;
  }

  /** `rsi(data, period)`: simple rolling means of gains and losses. */
  function Rsi(xs: seq<real>, p: nat): (r: Column)
    requires p >= 1
    ensures |r| == |xs|
    ensures forall i :: 0 <= i < |xs| && r[i].Some? ==> i >= p - 1 && 0.0 <= r[i].value <= 100.0
    ensures forall i :: p - 1 <= i < |xs| ==>
      var g, l := Mean(Window(Gains(xs), i, p)), Mean(Window(Losses(xs), i, p));
      (r[i].None? <==> g == 0.0 && l == 0.0) && (r[i] == Some(100.0) <==> l == 0.0 && g > 0.0)
  {
    var ag, al := RollingMean(Gains(xs), p), RollingMean(Losses(xs), p);
    RollingMeanNonNegative(Gains(xs), p);
    RollingMeanNonNegative(Losses(xs), p);
    seq(|xs|, i requires 0 <= i < |xs| => RsiCell(ag, al, i))
  }

  /** One bar of `rsi`: missing unless both averages are defined. */
  function RsiCell(ag: Column, al: Column, i: nat): (r: Option<real>)
    requires i < |ag| && i < |al|
    requires ag[i].Some? ==> ag[i].value >= 0.0
    requires al[i].Some? ==> al[i].value >= 0.0
    ensures r.Some? ==> ag[i].Some? && al[i].Some? && 0.0 <= r.value <= 100.0
    ensures ag[i].Some? && al[i].Some? ==>
      var g, l := ag[i].value, al[i].value;
      (r.None? <==> g == 0.0 && l == 0.0) && (r == Some(100.0) <==> l == 0.0 && g > 0.0) &&
      (l > 0.0 ==> r == Some(100.0 - 100.0 / (1.0 + g / l)))
  {
    if ag[i].Some? && al[i].Some? then RsiValue(ag[i].value, al[i].value) else None
  }

  /** The RSI of a bar past the warm-up is `RsiValue` of the averaged gains
      and losses of its window: `100 - 100/(1 + g/l)` when the window lost,
      100 when it only gained, missing when it did neither. */
  lemma RsiAt(xs: seq<real>, p: nat, i: nat)
    requires p >= 1 && p - 1 <= i < |xs|
    ensures var g, l := Mean(Window(Gains(xs), i, p)), Mean(Window(Losses(xs), i, p));
      g >= 0.0 && l >= 0.0 && Rsi(xs, p)[i] == RsiValue(g, l)
  {
    var ag, al := RollingMean(Gains(xs), p), RollingMean(Losses(xs), p);
    RollingMeanNonNegative(Gains(xs), p);
    RollingMeanNonNegative(Losses(xs), p);
    assert ag[i] == Some(Mean(Window(Gains(xs), i, p)));
    assert al[i] == Some(Mean(Window(Losses(xs), i, p)));
    assert Rsi(xs, p)[i] == RsiCell(ag, al, i);
  }

  lemma RsiCausal(xs: seq<real>, p: nat, k: nat)
    requires p >= 1 && k <= |xs|
    ensures Rsi(xs[..k], p) == Rsi(xs, p)[..k]
  {
    assert Gains(xs[..k]) == Gains(xs)[..k];
    assert Losses(xs[..k]) == Losses(xs)[..k];
    RollingMeanCausal(Gains(xs), p, k);
    RollingMeanCausal(Losses(xs), p, k);
  }

  /** `rsi(data, period)`: writes `RSI`. */
  function AddRsi(f: Frame, period: nat): (r: Frame)
    requires period >= 1
    ensures r.bars == f.bars
    ensures r.cols.Keys == f.cols.Keys + {"RSI"}
    ensures |r.cols["RSI"]| == |f.bars|
    ensures r.cols["RSI"] == Rsi(Closes(f.bars), period)
    ensures forall k :: k in f.cols && k != "RSI" ==> r.cols[k] == f.cols[k]
  {
    WithColumn(f, "RSI", Rsi(Closes(f.bars), period))
  }

  // ---------------------------------------------------------------- MACD

  datatype MacdLines = MacdLines(macd: seq<real>, signal: seq<real>)

  /** MACD = EMA(short) - EMA(long); Signal = EMA(signal) of MACD. */
  function Macd(xs: seq<real>, short: nat, long: nat, signal: nat): (r: MacdLines)
    requires short >= 1 && long >= 1 && signal >= 1
    ensures |r.macd| == |xs| && |r.signal| == |xs|
    ensures |xs| > 0 ==> r.macd[0] == 0.0 && r.signal[0] == 0.0
    ensures forall i :: 0 <= i < |xs| ==> r.macd[i] == Ema(xs, short)[i] - Ema(xs, long)[i]
    ensures r.signal == Ema(r.macd, signal)
  {
    var es, el := Ema(xs, short), Ema(xs, long);
    var m := seq(|xs|, i requires 0 <= i < |xs| => es[i] - el[i]);
    MacdLines(m, Ema(m, signal))
  }

  /** With equal short and long spans the MACD line is identically zero. */
  lemma MacdEqualSpans(xs: seq<real>, span: nat, signal: nat)
    requires span >= 1 && signal >= 1
    ensures forall i :: 0 <= i < |xs| ==> Macd(xs, span, span, signal).macd[i] == 0.0
  {
  }

  lemma MacdCausal(xs: seq<real>, short: nat, long: nat, signal: nat, k: nat)
    requires short >= 1 && long >= 1 && signal >= 1 && k <= |xs|
    ensures Macd(xs[..k], short, long, signal).macd == Macd(xs, short, long, signal).macd[..k]
    ensures Macd(xs[..k], short, long, signal).signal == Macd(xs, short, long, signal).signal[..k]
  {
    EmaCausal(xs, short, k);
    EmaCausal(xs, long, k);
    var m := Macd(xs, short, long, signal).macd;
    assert Macd(xs[..k], short, long, signal).macd == m[..k];
    EmaCausal(m, signal, k);
  }

  /** `macd(data)`: writes `MACD` and `Signal`. */
  function AddMacd(f: Frame, short: nat, long: nat, signal: nat): (r: Frame)
    requires short >= 1 && long >= 1 && signal >= 1
    ensures r.bars == f.bars
    ensures r.cols.Keys == f.cols.Keys + {"MACD", "Signal"}
    ensures var lines := Macd(Closes(f.bars), short, long, signal);
      r.cols["MACD"] == Lift(lines.macd) && r.cols["Signal"] == Lift(lines.signal)
    ensures forall k :: k in f.cols && k !in {"MACD", "Signal"} ==> r.cols[k] == f.cols[k]
  {
    var lines := Macd(Closes(f.bars), short, long, signal);
    WithColumn(WithColumn(f, "MACD", Lift(lines.macd)), "Signal", Lift(lines.signal))
  }

  // ---------------------------------------------------------------- ATR

  function Abs(x: real): real {
    if x < 0.0 then -x else x
  }

  /** Row-wise max of H-L, |H-prevC| and |L-prevC|, skipping the missing
      previous close at bar 0. */
  function TrueRangeAt(bars: seq<Bar>, i: nat): (tr: real)
    requires i < |bars|
    ensures tr >= bars[i].h - bars[i].l
    ensures i == 0 ==> tr == bars[0].h - bars[0].l
    ensures i > 0 ==> tr >= Abs(bars[i].h - bars[i - 1].c) && tr >= Abs(bars[i].l - bars[i - 1].c)
    ensures i > 0 ==> tr == bars[i].h - bars[i].l || tr == Abs(bars[i].h - bars[i - 1].c) || tr == Abs(bars[i].l - bars[i - 1].c)
  {
    var hl := bars[i].h - bars[i].l;
    if i == 0 then hl
    else
      var hpc, lpc := Abs(bars[i].h - bars[i - 1].c), Abs(bars[i].l - bars[i - 1].c);
      if hl >= hpc && hl >= lpc then hl else if hpc >= lpc then hpc else lpc
  }

  function TrueRange(bars: seq<Bar>): (tr: seq<real>)
    ensures |tr| == |bars|
    ensures forall i :: 0 <= i < |bars| ==> tr[i] == TrueRangeAt(bars, i)
  {
    seq(|bars|, i requires 0 <= i < |bars| => TrueRangeAt(bars, i))
  }

  function Atr(bars: seq<Bar>, p: nat): (r: Column)
    requires p >= 1
    ensures |r| == |bars|
    ensures forall i :: 0 <= i < |bars| ==> (r[i].Some? <==> i >= p - 1)
    ensures forall i :: p - 1 <= i < |bars| ==> r[i] == Some(Mean(Window(TrueRange(bars), i, p)))
  {
    RollingMean(TrueRange(bars), p)
  }

  /** When every bar has Low <= High, the ATR is never negative. */
  lemma AtrNonNegative(bars: seq<Bar>, p: nat)
    requires p >= 1
    requires forall i :: 0 <= i < |bars| ==> bars[i].l <= bars[i].h
    ensures forall i :: 0 <= i < |bars| && Atr(bars, p)[i].Some? ==> Atr(bars, p)[i].value >= 0.0
  {
    forall i | 0 <= i < |bars|
      ensures TrueRange(bars)[i] >= 0.0
    {
      assert TrueRangeAt(bars, i) >= bars[i].h - bars[i].l;
    }
    RollingMeanNonNegative(TrueRange(bars), p);
  }

  lemma AtrCausal(bars: seq<Bar>, p: nat, k: nat)
    requires p >= 1 && k <= |bars|
    ensures Atr(bars[..k], p) == Atr(bars, p)[..k]
  {
    forall i | 0 <= i < k
      ensures TrueRangeAt(bars[..k], i) == TrueRangeAt(bars, i)
    {
    }
    assert TrueRange(bars[..k]) == TrueRange(bars)[..k];
    RollingMeanCausal(TrueRange(bars), p, k);
  }

  /** The helper columns of `atr` are dropped again. */
  const AtrScratch: set<string> := {"H-L", "H-PC", "L-PC", "TR"}

  /** `atr(data, period)`: only `ATR` is left as a new column. */
  function AddAtr(f: Frame, period: nat): (r: Frame)
    requires period >= 1
    ensures r.bars == f.bars
    ensures r.cols.Keys == (f.cols.Keys - AtrScratch) + {"ATR"}
    ensures r.cols["ATR"] == Atr(f.bars, period)
    ensures forall k :: k in f.cols && k !in AtrScratch && k != "ATR" ==> r.cols[k] == f.cols[k]
  {
    Drop(WithColumn(f, "ATR", Atr(f.bars, period)), AtrScratch)
  }

  // ---------------------------------------------------------------- Bollinger

  function SquaredDeviations(xs: seq<real>, m: real): (r: seq<real>)
    ensures |r| == |xs|
    ensures forall i :: 0 <= i < |xs| ==> r[i] >= 0.0
  {
    seq(|xs|, i requires 0 <= i < |xs| => Square(xs[i] - m))
  }

  function Square(x: real): (r: real)
    ensures r >= 0.0
  {
    if x >= 0.0 then x * x else (-x) * (-x)
  }

  /** Sample variance (`ddof=1`). */
  function SampleVariance(xs: seq<real>): (v: real)
    requires |xs| >= 2
    ensures v >= 0.0
  {
    SumNonNegative(SquaredDeviations(xs, Mean(xs)));
    Sum(SquaredDeviations(xs, Mean(xs))) / (|xs| as real - 1.0)
  }

  /** `rolling(window=p).std()`; `root` stands for the square root, which
      this model leaves uninterpreted. A one-bar window has no sample
      deviation. */
  function RollingStd(xs: seq<real>, p: nat, root: real -> real): (r: Column)
    requires p >= 1
    ensures |r| == |xs|
    ensures forall i :: 0 <= i < |xs| ==> (r[i].Some? <==> p >= 2 && i >= p - 1)
  {
    seq(|xs|, i requires 0 <= i < |xs| =>
      if p < 2 || i < p - 1 then None else Some(root(SampleVariance(Window(xs, i, p)))))
  }

  datatype Bands = Bands(middle: Column, upper: Column, lower: Column)

  /** Band arithmetic: middle = rolling mean, upper/lower = middle +/- k*std. */
  function BandsOf(xs: seq<real>, period: nat, k: real, root: real -> real): (b: Bands)
    requires period >= 1
    ensures b.middle == RollingMean(xs, period)
    ensures |b.middle| == |xs| && |b.upper| == |xs| && |b.lower| == |xs|
    ensures forall i :: 0 <= i < |xs| ==>
      var s := RollingStd(xs, period, root)[i];
      (b.upper[i].Some? <==> s.Some? && b.middle[i].Some?) &&
      (b.lower[i].Some? <==> b.upper[i].Some?) &&
      (b.upper[i].Some? ==>
        b.upper[i].value - b.middle[i].value == k * s.value &&
        b.middle[i].value - b.lower[i].value == k * s.value)
  {
    var mid, sd := RollingMean(xs, period), RollingStd(xs, period, root);
    Bands(mid,
          seq(|xs|, i requires 0 <= i < |xs| => Plus(mid[i], Times(k, sd[i]))),
          seq(|xs|, i requires 0 <= i < |xs| => Minus(mid[i], Times(k, sd[i]))))
  }

  /** With a non-negative root and width, Lower <= middle <= Upper. */
  lemma BandsOrdered(xs: seq<real>, period: nat, k: real, root: real -> real, i: nat)
    requires period >= 1 && i < |xs| && k >= 0.0
    requires forall x :: x >= 0.0 ==> root(x) >= 0.0
    requires BandsOf(xs, period, k, root).upper[i].Some?
    ensures var b := BandsOf(xs, period, k, root);
      b.lower[i].value <= b.middle[i].value <= b.upper[i].value
  {
    var s := RollingStd(xs, period, root)[i];
    assert s.value == root(SampleVariance(Window(xs, i, period)));
    assert s.value >= 0.0;
    assert k * s.value >= 0.0;
  }

  /** `bollinger_bands(data, period, num_std)`: overwrites `SMA`, writes
      `UpperBand` and `LowerBand`, and leaves no `STD` column behind. */
  function AddBands(f: Frame, period: nat, k: real, root: real -> real): (r: Frame)
    requires period >= 1
    ensures r.bars == f.bars
    ensures r.cols.Keys == (f.cols.Keys - {"STD"}) + {"SMA", "UpperBand", "LowerBand"}
    ensures "STD" !in r.cols
    ensures r.cols["SMA"] == RollingMean(Closes(f.bars), period)
    ensures var b := BandsOf(Closes(f.bars), period, k, root);
      r.cols["SMA"] == b.middle && r.cols["UpperBand"] == b.upper && r.cols["LowerBand"] == b.lower
    ensures forall c :: c in f.cols && c !in {"STD", "SMA", "UpperBand", "LowerBand"} ==> r.cols[c] == f.cols[c]
  {
    var b := BandsOf(Closes(f.bars), period, k, root);
    var cols := f.cols["SMA" := b.middle]["STD" := RollingStd(Closes(f.bars), period, root)]
                      ["UpperBand" := b.upper]["LowerBand" := b.lower];
    Drop(f.(cols := cols), {"STD"})
  }
}

=== FILE: machines.dfy ===
/** The strategies that walk the table once, left to right, carrying the
    previous bar's `Position` (0 flat, 1 long, -1 short): SMA crossover,
    Bollinger band entry/exit and the multi-indicator crossover. */
module StateMachines {
  import opened Values
  import opened Series
  import opened Indicators
  import opened Positions

  // ------------------------------------------------------------ SMA

  /** One bar of `sma_strategy`'s loop. */
  function SmaStep(close: Column, sma: Column, i: nat, prev: int): int {
    if prev == 0 then
      if CrossesAbove(close, sma, i) then 1
      else if CrossesBelow(close, sma, i) then -1
      else 0
    else if prev == 1 then
      if Lt(At(close, i), At(sma, i)) then 0 else 1
    else if prev == -1 then
      if Gt(At(close, i), At(sma, i)) then 0 else -1
    else 0
  }

  /** The Position column of `sma_strategy`. */
  function SmaPositions(close: seq<real>, sma: Column): (r: seq<int>)
    ensures |r| == |close|
    ensures |r| > 0 ==> r[0] == 0
    ensures forall i :: 0 <= i < |r| ==> IsPos(r[i])
    // from flat: enter only on a crossing, in the crossing's direction
    ensures forall i :: 1 <= i < |r| && r[i - 1] == 0 ==>
      (r[i] == 1 <==> CrossesAbove(Lift(close), sma, i)) &&
      (r[i] == -1 <==> CrossesBelow(Lift(close), sma, i))
    // from long: exit exactly when Close < SMA, otherwise hold
    ensures forall i :: 1 <= i < |r| && r[i - 1] == 1 ==>
      (r[i] == 0 <==> Lt(Some(close[i]), At(sma, i))) && r[i] != -1
    // from short: exit exactly when Close > SMA, otherwise hold
    ensures forall i :: 1 <= i < |r| && r[i - 1] == -1 ==>
      (r[i] == 0 <==> Gt(Some(close[i]), At(sma, i))) && r[i] != 1
  {
    var c := Lift(close);
    var step := (i: nat, p: int) => SmaStep(c, sma, i, p);
    RunInRange(|close|, step);
    Run(|close|, step)
  }

  /** No bar goes straight from long to short or from short to long. */
  lemma SmaNoDirectFlip(close: seq<real>, sma: Column, i: nat)
    requires 1 <= i < |close|
    ensures SmaPositions(close, sma)[i - 1] * SmaPositions(close, sma)[i] != -1
  {
    var r := SmaPositions(close, sma);
    assert IsPos(r[i - 1]) && IsPos(r[i]);
  }

  /** `sma_strategy(data)`: fails without an `SMA` column; otherwise returns
      a copy with `Position` added and nothing else changed. */
  function SmaStrategy(f: Frame): (r: Result<Frame>)
    ensures r.Err? <==> "SMA" !in f.cols
    ensures r.Err? ==> r.error == MissingColumn("SMA")
    ensures r.Ok? ==> r.value.bars == f.bars
    ensures r.Ok? ==> r.value.cols.Keys == f.cols.Keys + {"Position"}
    ensures r.Ok? ==> r.value.cols["Position"] == LiftInts(SmaPositions(Closes(f.bars), f.cols["SMA"]))
    ensures r.Ok? ==> forall k :: k in f.cols && k != "Position" ==> r.value.cols[k] == f.cols[k]
  {
    if "SMA" !in f.cols then Err(MissingColumn("SMA"))
    else Ok(WithColumn(f, "Position", LiftInts(SmaPositions(Closes(f.bars), f.cols["SMA"]))))
  }

  // ------------------------------------------------------------ Bollinger

  /** One bar of the active `bollinger_band_strategy` loop. From long or
      short the loop either assigns 0 or assigns nothing, and the row keeps
      the 0 it was initialised with: either way the next position is 0. */
  function BandStep(close: Column, lower: Column, upper: Column, i: nat, prev: int): int {
    if prev == 0 then
      if Lt(At(close, i), At(lower, i)) then 1
      else if Gt(At(close, i), At(upper, i)) then -1
      else 0
    else 0
  }

  function BandPositions(close: seq<real>, lower: Column, upper: Column): (r: seq<int>)
    ensures |r| == |close|
    ensures |r| > 0 ==> r[0] == 0
    ensures forall i :: 0 <= i < |r| ==> IsPos(r[i])
    ensures forall i :: 1 <= i < |r| && r[i - 1] == 0 ==>
      (r[i] == 1 <==> Lt(Some(close[i]), At(lower, i))) &&
      (r[i] == -1 <==> !Lt(Some(close[i]), At(lower, i)) && Gt(Some(close[i]), At(upper, i)))
    // a long or a short lasts exactly one bar
    ensures forall i :: 1 <= i < |r| && r[i - 1] != 0 ==> r[i] == 0
  {
    var c := Lift(close);
    var step := (i: nat, p: int) => BandStep(c, lower, upper, i, p);
    RunInRange(|close|, step);
    Run(|close|, step)
  }

  /** Consequently no two adjacent bars both hold a position. */
  lemma BandNoConsecutiveTrades(close: seq<real>, lower: Column, upper: Column, i: nat)
    requires 1 <= i < |close|
    ensures BandPositions(close, lower, upper)[i - 1] == 0 || BandPositions(close, lower, upper)[i] == 0
  {
  }

  /** `bollinger_band_strategy(data)`: computes 20-bar, 2-deviation bands
      when either band column is missing, then adds `Position`. */
  function BandStrategy(f: Frame, root: real -> real): (r: Frame)
    ensures r.bars == f.bars
    ensures r.cols.Keys ==
      if "UpperBand" !in f.cols || "LowerBand" !in f.cols
      then (f.cols.Keys - {"STD"}) + {"SMA", "UpperBand", "LowerBand", "Position"}
      else f.cols.Keys + {"Position"}
    ensures ("UpperBand" !in f.cols || "LowerBand" !in f.cols) ==>
      var b := BandsOf(Closes(f.bars), 20, 2.0, root);
      "SMA" in r.cols && r.cols["SMA"] == b.middle && r.cols["UpperBand"] == b.upper && r.cols["LowerBand"] == b.lower
    ensures ("UpperBand" in f.cols && "LowerBand" in f.cols) ==>
      r.cols == f.cols["Position" := r.cols["Position"]]
    ensures forall k :: k in f.cols && k !in {"STD", "SMA", "UpperBand", "LowerBand", "Position"} ==>
      r.cols[k] == f.cols[k]
    ensures r.cols["Position"] ==
      LiftInts(BandPositions(Closes(f.bars), r.cols["LowerBand"], r.cols["UpperBand"]))
  {
    var g := if "UpperBand" !in f.cols || "LowerBand" !in f.cols then AddBands(f, 20, 2.0, root) else f;
    WithColumn(g, "Position", LiftInts(BandPositions(Closes(g.bars), g.cols["LowerBand"], g.cols["UpperBand"])))
  }

  // ------------------------------------------------------------ multi-indicator

  /** One bar of `multi_indicator_strategy`'s loop. */
  function MultiStep(fast: Column, slow: Column, rsi: Column, overbought: real, oversold: real,
                     i: nat, prev: int): (next: int)
    ensures IsPos(next)
    ensures prev == 0 ==>
      (next == 1 <==> CrossesAbove(fast, slow, i) && Lt(At(rsi, i), Some(overbought))) &&
      (next == -1 <==> !(CrossesAbove(fast, slow, i) && Lt(At(rsi, i), Some(overbought))) &&
                       CrossesBelow(fast, slow, i) && Gt(At(rsi, i), Some(oversold)))
    ensures prev == 1 ==> (next == 0 <==> Lt(At(fast, i), At(slow, i))) && next != -1
    ensures prev == -1 ==> (next == 0 <==> Gt(At(fast, i), At(slow, i))) && next != 1
  {
    if prev == 0 then
      if CrossesAbove(fast, slow, i) && Lt(At(rsi, i), Some(overbought)) then 1
      else if CrossesBelow(fast, slow, i) && Gt(At(rsi, i), Some(oversold)) then -1
      else 0
    else if prev == 1 then
      if Lt(At(fast, i), At(slow, i)) then 0 else 1
    else if prev == -1 then
      if Gt(At(fast, i), At(slow, i)) then 0 else -1
    else 0
  }

  datatype MultiColumns = MultiColumns(fast: Column, slow: Column, rsi: Column, position: seq<int>)

  /** Fast/slow rolling means, the library's RSI formula over `rsiPeriod`,
      and the position machine. */
  function MultiIndicator(close: seq<real>, fastWindow: nat, slowWindow: nat, rsiPeriod: nat,
                          overbought: real, oversold: real): (r: MultiColumns)
    requires fastWindow >= 1 && slowWindow >= 1 && rsiPeriod >= 1
    ensures r.fast == RollingMean(close, fastWindow) && r.slow == RollingMean(close, slowWindow)
    ensures r.rsi == Rsi(close, rsiPeriod)
    ensures |r.position| == |close|
    ensures |close| > 0 ==> r.position[0] == 0
    ensures forall i :: 0 <= i < |close| ==> IsPos(r.position[i])
    ensures forall i :: 1 <= i < |close| && r.position[i - 1] == 0 ==>
      (r.position[i] == 1 <==> CrossesAbove(r.fast, r.slow, i) && Lt(At(r.rsi, i), Some(overbought))) &&
      (r.position[i] == -1 <==>
        !(CrossesAbove(r.fast, r.slow, i) && Lt(At(r.rsi, i), Some(overbought))) &&
        CrossesBelow(r.fast, r.slow, i) && Gt(At(r.rsi, i), Some(oversold)))
    ensures forall i :: 1 <= i < |close| && r.position[i - 1] == 1 ==>
      (r.position[i] == 0 <==> Lt(At(r.fast, i), At(r.slow, i))) && r.position[i] != -1
    ensures forall i :: 1 <= i < |close| && r.position[i - 1] == -1 ==>
      (r.position[i] == 0 <==> Gt(At(r.fast, i), At(r.slow, i))) && r.position[i] != 1
  {
    var fast, slow, rsi := RollingMean(close, fastWindow), RollingMean(close, slowWindow), Rsi(close, rsiPeriod);
    var step := (i: nat, p: int) => MultiStep(fast, slow, rsi, overbought, oversold, i, p);
    RunInRange(|close|, step);
    var pos := Run(|close|, step);
    assert forall i :: 1 <= i < |close| ==> pos[i] == MultiStep(fast, slow, rsi, overbought, oversold, i, pos[i - 1]);
    MultiColumns(fast, slow, rsi, pos)
  }

  /** `multi_indicator_strategy(data, ...)`: adds `Fast_MA`, `Slow_MA`, `RSI`
      and `Position`. */
  function MultiIndicatorStrategy(f: Frame, fastWindow: nat, slowWindow: nat, rsiPeriod: nat,
                                  overbought: real, oversold: real): (r: Frame)
    requires fastWindow >= 1 && slowWindow >= 1 && rsiPeriod >= 1
    ensures r.bars == f.bars
    ensures r.cols.Keys == f.cols.Keys + {"Fast_MA", "Slow_MA", "RSI", "Position"}
    ensures r.cols["Fast_MA"] == RollingMean(Closes(f.bars), fastWindow)
    ensures r.cols["Slow_MA"] == RollingMean(Closes(f.bars), slowWindow)
    ensures r.cols["RSI"] == Rsi(Closes(f.bars), rsiPeriod)
    ensures r.cols["Position"] ==
      LiftInts(MultiIndicator(Closes(f.bars), fastWindow, slowWindow, rsiPeriod, overbought, oversold).position)
    ensures forall k :: k in f.cols && k !in {"Fast_MA", "Slow_MA", "RSI", "Position"} ==> r.cols[k] == f.cols[k]
  {
    var m := MultiIndicator(Closes(f.bars), fastWindow, slowWindow, rsiPeriod, overbought, oversold);
    var g := WithColumn(f, "Fast_MA", m.fast);
    var g := WithColumn(g, "Slow_MA", m.slow);
    var g := WithColumn(g, "RSI", m.rsi);
    WithColumn(g, "Position", LiftInts(m.position))
  }
}

=== FILE: positions.dfy ===
/** The two shapes every strategy's signal column takes: a left-to-right
    state machine over the previous bar's position, and a forward fill of
    sparse crossover/breakout events. Also the crossing tests they share. */
module Positions {
  import opened Values

  /** Short, flat or long. */
  predicate IsPos(x: int) {
    -1 <= x <= 1
  }

  /** Bar 0 starts flat; bar i is `step(i, position at bar i-1)`. This is
      the `for i in range(1, len(data))` loop over a zero-initialised
      `Position` column. */
  function Run(n: nat, step: (nat, int) -> int): (r: seq<int>)
    ensures |r| == n
    ensures n > 0 ==> r[0] == 0
    ensures forall i :: 1 <= i < n ==> r[i] == step(i, r[i - 1])
    decreases n
  {
    if n == 0 then []
    else if n == 1 then [0]
    else
      var p := Run(n - 1, step);
      p + [step(n - 1, p[n - 2])]
  }

  /** Running the machine over fewer bars gives a prefix of the longer run:
      a position never depends on later bars. */
  lemma {:induction false} RunPrefix(n: nat, k: nat, step: (nat, int) -> int)
    requires k <= n
    ensures Run(k, step) == Run(n, step)[..k]
    decreases n - k
  {
    if k < n {
      RunPrefix(n, k + 1, step);
      assert Run(k + 1, step)[..k] == Run(n, step)[..k];
      if k >= 1 {
        assert Run(k + 1, step) == Run(k, step) + [step(k, Run(k, step)[k - 1])];
      } else {
        assert Run(k, step) == [];
      }
    }
  }

  /** A machine whose step only ever answers short, flat or long stays in
      that set. */
  lemma RunInRange(n: nat, step: (nat, int) -> int)
    requires forall i, p :: IsPos(step(i, p))
    ensures forall i :: 0 <= i < n ==> IsPos(Run(n, step)[i])
  {
  }

  // ------------------------------------------------------------ crossings

  /** `a[i] > b[i] and a[i-1] <= b[i-1]`, false at bar 0 and wherever a cell
      is missing. */
  predicate CrossesAbove(a: Column, b: Column, i: int) {
    Gt(At(a, i), At(b, i)) && Le(At(a, i - 1), At(b, i - 1))
  }

  /** `a[i] < b[i] and a[i-1] >= b[i-1]`. */
  predicate CrossesBelow(a: Column, b: Column, i: int) {
    Lt(At(a, i), At(b, i)) && Ge(At(a, i - 1), At(b, i - 1))
  }

  /** Crossing events: -1 on a downward crossing (assigned last, so it would
      win a tie), 1 on an upward one, 0 otherwise. */
  function CrossEvents(a: Column, b: Column, n: nat): (ev: seq<int>)
    ensures |ev| == n
    ensures forall i :: 0 <= i < n ==> (ev[i] == 1 <==> CrossesAbove(a, b, i))
    ensures forall i :: 0 <= i < n ==> (ev[i] == -1 <==> CrossesBelow(a, b, i))
    ensures forall i :: 0 <= i < n ==> IsPos(ev[i])
    ensures n > 0 ==> ev[0] == 0
  {
    seq(n, i requires 0 <= i < n =>
      if CrossesBelow(a, b, i) then -1 else if CrossesAbove(a, b, i) then 1 else 0)
  }

  // ------------------------------------------------------------ forward fill

  /** `replace(0, ffill).fillna(0)`: every zero takes the value of the bar
      before it after that bar has been filled; leading zeros stay 0. */
  function FFill(ev: seq<int>): (r: seq<int>)
    ensures |r| == |ev|
    ensures forall i :: 0 <= i < |ev| && ev[i] != 0 ==> r[i] == ev[i]
    decreases |ev|
  {
    if |ev| == 0 then []
    else
      var p := FFill(ev[..|ev| - 1]);
      var last := ev[|ev| - 1];
      assert forall i :: 0 <= i < |ev| - 1 ==> ev[..|ev| - 1][i] == ev[i];
      p + [if last != 0 then last else if |p| == 0 then 0 else p[|p| - 1]]
  }

  /** Reference meaning of a forward-filled value: `v` is the most recent
      nonzero event at or before bar `i`, or 0 when there is none. */
  ghost predicate LatestEvent(ev: seq<int>, i: int, v: int)
    requires 0 <= i < |ev|
  {
    || (exists j :: 0 <= j <= i && ev[j] != 0 && v == ev[j] && forall m :: j < m <= i ==> ev[m] == 0)
    || (v == 0 && forall m :: 0 <= m <= i ==> ev[m] == 0)
  }

  lemma FFillUnfold(ev: seq<int>)
    requires |ev| > 0
    ensures FFill(ev)[..|ev| - 1] == FFill(ev[..|ev| - 1])
  {
  }

  lemma {:induction false} FFillPrefix(ev: seq<int>, k: nat)
    requires k <= |ev|
    ensures FFill(ev[..k]) == FFill(ev)[..k]
    decreases |ev|
  {
    if k < |ev| {
      var init := ev[..|ev| - 1];
      FFillPrefix(init, k);
      FFillUnfold(ev);
      assert init[..k] == ev[..k];
      assert FFill(ev)[..k] == FFill(ev)[..|ev| - 1][..k];
    } else {
      assert ev[..k] == ev;
    }
  }

  lemma FFillStep(ev: seq<int>, i: nat)
    requires 1 <= i < |ev| && ev[i] == 0
    ensures FFill(ev)[i] == FFill(ev)[i - 1]
  {
    FFillPrefix(ev, i + 1);
    var pre := ev[..i + 1];
    assert pre[..|pre| - 1] == ev[..i];
    FFillPrefix(ev, i);
  }

  lemma FFillFirst(ev: seq<int>)
    requires |ev| > 0
    ensures FFill(ev)[0] == ev[0]
  {
    FFillPrefix(ev, 1);
    assert FFill(ev[..1]) == [ev[0]];
  }

  /** Every forward-filled value is the latest event at or before its bar. */
  lemma {:induction false} FFillIsLatestEvent(ev: seq<int>, i: nat)
    requires i < |ev|
    ensures LatestEvent(ev, i, FFill(ev)[i])
    decreases i
  {
    var r := FFill(ev);
    if ev[i] != 0 {
      assert r[i] == ev[i];
    } else if i == 0 {
      FFillFirst(ev);
    } else {
      FFillStep(ev, i);
      FFillIsLatestEvent(ev, i - 1);
      if exists j :: 0 <= j <= i - 1 && ev[j] != 0 && r[i - 1] == ev[j] && forall m :: j < m <= i - 1 ==> ev[m] == 0 {
        var j :| 0 <= j <= i - 1 && ev[j] != 0 && r[i - 1] == ev[j] && forall m :: j < m <= i - 1 ==> ev[m] == 0;
        assert forall m :: j < m <= i ==> ev[m] == 0;
      }
    }
  }

  /** Once an event has occurred the filled position is never flat again. */
  lemma {:induction false} FFillAfterEvent(ev: seq<int>, j: nat, i: nat)
    requires j <= i < |ev| && ev[j] != 0
    ensures FFill(ev)[i] != 0
    decreases i - j
  {
    if i > j && ev[i] == 0 {
      FFillStep(ev, i);
      FFillAfterEvent(ev, j, i - 1);
    }
  }

  lemma {:induction false} FFillInRange(ev: seq<int>, i: nat)
    requires i < |ev|
    requires forall m :: 0 <= m < |ev| ==> IsPos(ev[m])
    ensures IsPos(FFill(ev)[i])
    decreases i
  {
    if ev[i] == 0 {
      if i == 0 {
        FFillFirst(ev);
      } else {
        FFillStep(ev, i);
        FFillInRange(ev, i - 1);
      }
    }
  }

  /** The whole filled column at once: each value is the latest event at or
      before its bar, it is short, flat or long, and it changes only on a bar
      that carries an event. */
  lemma FFillSpec(ev: seq<int>)
    requires forall m :: 0 <= m < |ev| ==> IsPos(ev[m])
    ensures forall i :: 0 <= i < |ev| ==> LatestEvent(ev, i, FFill(ev)[i]) && IsPos(FFill(ev)[i])
    ensures forall i :: 1 <= i < |ev| && ev[i] == 0 ==> FFill(ev)[i] == FFill(ev)[i - 1]
  {
    forall i | 0 <= i < |ev|
      ensures LatestEvent(ev, i, FFill(ev)[i]) && IsPos(FFill(ev)[i])
    {
      FFillIsLatestEvent(ev, i);
      FFillInRange(ev, i);
    }
    forall i | 1 <= i < |ev| && ev[i] == 0
      ensures FFill(ev)[i] == FFill(ev)[i - 1]
    {
      FFillStep(ev, i);
    }
  }
}

=== FILE: resample.dfy ===
/** `convert_timeframe`: heal isolated gaps, group minute bars into buckets
    of `d` minutes, aggregate each bucket into one OHLCV bar, drop buckets
    that aggregate to a missing value, carry the last `Buy/Sell` of each
    bucket, and recompute SMA, EMA and RSI on the new closes. */
module Resample {
  import opened Values
  import opened Series
  import opened Indicators

  /** The minute table before resampling: a timestamp per row and columns
      that may hold gaps. `extra` holds every other numeric column. */
  datatype RawFrame = RawFrame(time: seq<int>, open: Column, high: Column, low: Column,
                               close: Column, volume: Column, extra: map<string, Column>)

  /** Every column has one cell per timestamp. */
  predicate Aligned(m: RawFrame) {
    && |m.open| == |m.time| && |m.high| == |m.time| && |m.low| == |m.time|
    && |m.close| == |m.time| && |m.volume| == |m.time|
    && forall k :: k in m.extra ==> |m.extra[k]| == |m.time|
  }

  /** Timestamps in index order (a sorted minute index). */
  predicate Sorted(time: seq<int>) {
    forall i, j :: 0 <= i < j < |time| ==> time[i] <= time[j]
  }

  // ------------------------------------------------------------ gap fill

  function Half(a: Option<real>): Option<real> {
    if a.Some? then Some(a.value / 2.0) else None
  }

  /** One cell of the gap fill. */
  function FillCell(col: Column, i: nat): (c: Option<real>)
    requires i < |col|
    ensures col[i].Some? ==> c == col[i]
    ensures col[i].None? ==> (c.Some? <==> At(col, i - 1).Some? && At(col, i + 1).Some?)
    ensures col[i].None? && c.Some? ==> c.value == (At(col, i - 1).value + At(col, i + 1).value) / 2.0
  {
    if col[i].Some? then col[i] else Half(Plus(At(col, i - 1), At(col, i + 1)))
  }

  /** `col.fillna((col.shift(1) + col.shift(-1)) / 2)`: a missing cell whose
      two neighbours are both present takes their average; the neighbours
      are read from the column before filling. */
  function GapFill(col: Column): (r: Column)
    ensures |r| == |col|
    ensures forall i :: 0 <= i < |col| && col[i].Some? ==> r[i] == col[i]
    ensures forall i :: 0 <= i < |col| && col[i].None? ==>
      (r[i].Some? <==> At(col, i - 1).Some? && At(col, i + 1).Some?) &&
      (r[i].Some? ==> r[i].value == (At(col, i - 1).value + At(col, i + 1).value) / 2.0)
    ensures AllPresent(col) ==> r == col
  {
    seq(|col|, i requires 0 <= i < |col| => FillCell(col, i))
  }

  /** A filled value lies between the two neighbours it was made from. */
  lemma GapFillBetween(col: Column, i: nat)
    requires i < |col| && col[i].None? && GapFill(col)[i].Some?
    ensures var a, b := At(col, i - 1).value, At(col, i + 1).value;
      (a <= b ==> a <= GapFill(col)[i].value <= b) && (b <= a ==> b <= GapFill(col)[i].value <= a)
  {
  }

  /** Filling twice changes nothing: a cell left missing has a neighbour that
      was missing too, and that neighbour has a missing neighbour (the cell
      itself), so it stays missing as well. */
  lemma {:induction false} GapFillIdempotent(col: Column)
    ensures GapFill(GapFill(col)) == GapFill(col)
  {
    var r := GapFill(col);
    forall i | 0 <= i < |col|
      ensures GapFill(r)[i] == r[i]
    {
      if r[i].None? {
        assert col[i].None?;
        if At(col, i - 1).None? {
          assert At(r, i - 1).None? by {
            if 0 <= i - 1 {
              assert At(col, i - 1 + 1).None?;
            }
          }
        } else {
          assert At(r, i + 1).None? by {
            assert At(col, i + 1).None?;
            if i + 1 < |col| {
              assert At(col, i + 1 - 1).None?;
            }
          }
        }
      }
    }
  }

  /** The gap fill applied to every numeric column. */
  function FillGaps(m: RawFrame): (r: RawFrame)
    ensures r.time == m.time && r.extra.Keys == m.extra.Keys
    ensures r.open == GapFill(m.open) && r.high == GapFill(m.high) && r.low == GapFill(m.low)
    ensures r.close == GapFill(m.close) && r.volume == GapFill(m.volume)
    ensures forall k :: k in m.extra ==> r.extra[k] == GapFill(m.extra[k])
    ensures Aligned(m) ==> Aligned(r)
  {
    RawFrame(m.time, GapFill(m.open), GapFill(m.high), GapFill(m.low), GapFill(m.close),
             GapFill(m.volume), map k | k in m.extra :: GapFill(m.extra[k]))
  }

  // ------------------------------------------------------------ buckets

  /** The bucket of a timestamp: bucket `k` is the half-open range
      `[k*d, k*d + d)` and is labelled by its left edge. */
  function Key(t: int, d: int): int
    requires d > 0
  {
    t / d
  }

  lemma MulMonotone(a: int, b: int, d: int)
    requires d >= 0 && a <= b
    ensures a * d <= b * d
  {
    assert b * d - a * d == (b - a) * d;
  }

  lemma MulStrict(a: int, b: int, d: int)
    requires d > 0 && a < b
    ensures a * d < b * d
  {
    assert b * d - a * d == (b - a) * d;
  }

  /** A timestamp is in bucket `k` exactly when it lies in `[k*d, k*d + d)`. */
  lemma KeyRange(t: int, k: int, d: int)
    requires d > 0
    ensures Key(t, d) == k <==> k * d <= t < k * d + d
  {
    var q, r := t / d, t % d;
    assert t == q * d + r && 0 <= r < d;
    if k * d <= t < k * d + d {
      if q > k {
        assert (k + 1) * d == k * d + d;
        MulMonotone(k + 1, q, d);
      } else if q < k {
        assert (q + 1) * d == q * d + d;
        MulMonotone(q + 1, k, d);
      }
    }
  }

  /** Later timestamps never fall in earlier buckets. */
  lemma KeyMonotone(a: int, b: int, d: int)
    requires d > 0 && a <= b
    ensures Key(a, d) <= Key(b, d)
  {
    var qa, qb := a / d, b / d;
    assert a == qa * d + a % d && b == qb * d + b % d;
    if qa > qb {
      MulMonotone(qb + 1, qa, d);
    }
  }

  /** Which rows fall in bucket `k`. */
  function InBucket(time: seq<int>, d: int, k: int): (mask: seq<bool>)
    requires d > 0
    ensures |mask| == |time|
    ensures forall i :: 0 <= i < |time| ==> (mask[i] <==> Key(time[i], d) == k)
  {
    seq(|time|, i requires 0 <= i < |time| => Key(time[i], d) == k)
  }

  /** The cells of a column that fall in bucket `k`, in index order. */
  function Bucket(col: Column, time: seq<int>, d: int, k: int): Column
    requires d > 0 && |col| == |time|
  {
    Select(col, InBucket(time, d, k))
  }

  /** The present values of bucket `k`: what every aggregation reads. */
  function BucketValues(col: Column, time: seq<int>, d: int, k: int): (xs: seq<real>)
    requires d > 0 && |col| == |time|
    ensures forall x :: x in xs <==> exists i :: 0 <= i < |col| && Key(time[i], d) == k && col[i] == Some(x)
  {
    var b := Bucket(col, time, d, k);
    forall x ensures Some(x) in b <==> exists i :: 0 <= i < |col| && Key(time[i], d) == k && col[i] == Some(x) {
      SelectMembership(col, InBucket(time, d, k), Some(x));
    }
    Present(b)
  }

  // ------------------------------------------------------------ aggregation

  /** One bucket's bar: first Open, highest High, lowest Low, last Close and
      summed Volume over the present values; missing (and then dropped by
      `dropna`) unless Open, High, Low and Close each have a present value.
      The Volume sum of no values is 0, never missing. */
  function Aggregate(m: RawFrame, d: int, k: int): (b: Option<Bar>)
    requires d > 0 && Aligned(m)
    ensures b.Some? <==>
      |BucketValues(m.open, m.time, d, k)| > 0 && |BucketValues(m.high, m.time, d, k)| > 0 &&
      |BucketValues(m.low, m.time, d, k)| > 0 && |BucketValues(m.close, m.time, d, k)| > 0
    ensures b.Some? ==> b.value.t == k * d
    ensures b.Some? ==> b.value.v == Sum(BucketValues(m.volume, m.time, d, k))
  {
    var o, h := BucketValues(m.open, m.time, d, k), BucketValues(m.high, m.time, d, k);
    var l, c := BucketValues(m.low, m.time, d, k), BucketValues(m.close, m.time, d, k);
    if |o| > 0 && |h| > 0 && |l| > 0 && |c| > 0 then
      Some(Bar(k * d, o[0], Max(h), Min(l), c[|c| - 1], Sum(BucketValues(m.volume, m.time, d, k))))
    else None
  }

  /** What an aggregated bar holds, in terms of the rows of its bucket:
      Open is the Open of the first row with one, Close the Close of the last
      row with one, High the largest High and Low the smallest Low present. */
  lemma {:induction false} AggregateMeaning(m: RawFrame, d: int, k: int)
    requires d > 0 && Aligned(m) && Aggregate(m, d, k).Some?
    ensures var b := Aggregate(m, d, k).value;
      && (exists i :: 0 <= i < |m.time| && Key(m.time[i], d) == k && m.open[i] == Some(b.o) &&
                      (forall j :: 0 <= j < i && Key(m.time[j], d) == k ==> m.open[j].None?))
      && (exists i :: 0 <= i < |m.time| && Key(m.time[i], d) == k && m.close[i] == Some(b.c) &&
                      (forall j :: i < j < |m.time| && Key(m.time[j], d) == k ==> m.close[j].None?))
      && (exists i :: 0 <= i < |m.time| && Key(m.time[i], d) == k && m.high[i] == Some(b.h))
      && (forall i :: 0 <= i < |m.time| && Key(m.time[i], d) == k && m.high[i].Some? ==> m.high[i].value <= b.h)
      && (exists i :: 0 <= i < |m.time| && Key(m.time[i], d) == k && m.low[i] == Some(b.l))
      && (forall i :: 0 <= i < |m.time| && Key(m.time[i], d) == k && m.low[i].Some? ==> b.l <= m.low[i].value)
  {
    AggregateOpenClose(m, d, k);
    AggregateHighLow(m, d, k);
  }

  lemma AggregateOpenClose(m: RawFrame, d: int, k: int)
    requires d > 0 && Aligned(m) && Aggregate(m, d, k).Some?
    ensures var b := Aggregate(m, d, k).value;
      && (exists i :: 0 <= i < |m.time| && Key(m.time[i], d) == k && m.open[i] == Some(b.o) &&
                      (forall j :: 0 <= j < i && Key(m.time[j], d) == k ==> m.open[j].None?))
      && (exists i :: 0 <= i < |m.time| && Key(m.time[i], d) == k && m.close[i] == Some(b.c) &&
                      (forall j :: i < j < |m.time| && Key(m.time[j], d) == k ==> m.close[j].None?))
  {
    var o, c := BucketValues(m.open, m.time, d, k), BucketValues(m.close, m.time, d, k);
    assert Aggregate(m, d, k).value.o == o[0] && Aggregate(m, d, k).value.c == c[|c| - 1];
    OpenIsFirst(m.open, m.time, d, k);
    CloseIsLast(m.close, m.time, d, k);
  }

  lemma AggregateHighLow(m: RawFrame, d: int, k: int)
    requires d > 0 && Aligned(m) && Aggregate(m, d, k).Some?
    ensures var b := Aggregate(m, d, k).value;
      && (exists i :: 0 <= i < |m.time| && Key(m.time[i], d) == k && m.high[i] == Some(b.h))
      && (forall i :: 0 <= i < |m.time| && Key(m.time[i], d) == k && m.high[i].Some? ==> m.high[i].value <= b.h)
      && (exists i :: 0 <= i < |m.time| && Key(m.time[i], d) == k && m.low[i] == Some(b.l))
      && (forall i :: 0 <= i < |m.time| && Key(m.time[i], d) == k && m.low[i].Some? ==> b.l <= m.low[i].value)
  {
    var h, l := BucketValues(m.high, m.time, d, k), BucketValues(m.low, m.time, d, k);
    assert Aggregate(m, d, k).value.h == Max(h) && Aggregate(m, d, k).value.l == Min(l);
    HighIsMax(m.high, m.time, d, k);
    LowIsMin(m.low, m.time, d, k);
  }

  /** Hiding the rows outside bucket `k` (rather than removing them) leaves
      the same present values. */
  function Masked(col: Column, time: seq<int>, d: int, k: int): (r: Column)
    requires d > 0 && |col| == |time|
    ensures |r| == |col|
    ensures forall i :: 0 <= i < |col| ==> r[i] == if Key(time[i], d) == k then col[i] else None
  {
    seq(|col|, i requires 0 <= i < |col| => if Key(time[i], d) == k then col[i] else None)
  }

  /** Extending a column by one row extends its bucket by that row's cell
      when the row falls in the bucket. */
  lemma BucketSnoc(col: Column, time: seq<int>, d: int, k: int)
    requires d > 0 && |col| == |time| && |col| > 0
    ensures var n := |col|;
      Bucket(col, time, d, k) ==
        Bucket(col[..n - 1], time[..n - 1], d, k) + (if Key(time[n - 1], d) == k then [col[n - 1]] else [])
  {
    assert InBucket(time, d, k)[..|col| - 1] == InBucket(time[..|col| - 1], d, k);
  }

  lemma MaskedSnoc(col: Column, time: seq<int>, d: int, k: int)
    requires d > 0 && |col| == |time| && |col| > 0
    ensures var n := |col|;
      Masked(col, time, d, k) ==
        Masked(col[..n - 1], time[..n - 1], d, k) + [if Key(time[n - 1], d) == k then col[n - 1] else None]
  {
  }

  lemma {:induction false} PresentBucketMasked(col: Column, time: seq<int>, d: int, k: int)
    requires d > 0 && |col| == |time|
    ensures Present(Bucket(col, time, d, k)) == Present(Masked(col, time, d, k))
    decreases |col|
  {
    if |col| > 0 {
      var n := |col|;
      var init, tinit := col[..n - 1], time[..n - 1];
      PresentBucketMasked(init, tinit, d, k);
      BucketSnoc(col, time, d, k);
      MaskedSnoc(col, time, d, k);
      var cell := if Key(time[n - 1], d) == k then col[n - 1] else None;
      PresentAppend(Masked(init, tinit, d, k), cell);
      if Key(time[n - 1], d) == k {
        PresentAppend(Bucket(init, tinit, d, k), col[n - 1]);
      } else {
        assert Bucket(col, time, d, k) == Bucket(init, tinit, d, k);
      }
    }
  }

  lemma MaskedPresent(col: Column, time: seq<int>, d: int, k: int)
    requires d > 0 && |col| == |time|
    ensures BucketValues(col, time, d, k) == Present(Masked(col, time, d, k))
  {
    PresentBucketMasked(col, time, d, k);
  }

  /** The largest value of a bucket is held by one of its rows and no row
      of the bucket holds a larger one. */
  lemma HighIsMax(col: Column, time: seq<int>, d: int, k: int)
    requires d > 0 && |col| == |time| && |BucketValues(col, time, d, k)| > 0
    ensures var top := Max(BucketValues(col, time, d, k));
      && (exists i :: 0 <= i < |time| && Key(time[i], d) == k && col[i] == Some(top))
      && (forall i :: 0 <= i < |time| && Key(time[i], d) == k && col[i].Some? ==> col[i].value <= top)
  {
    var xs := BucketValues(col, time, d, k);
    var top := Max(xs);
    assert top in xs;
    forall i | 0 <= i < |time| && Key(time[i], d) == k && col[i].Some?
      ensures col[i].value <= top
    {
      assert col[i].value in xs;
    }
  }

  /** The smallest value of a bucket is held by one of its rows and no row
      of the bucket holds a smaller one. */
  lemma LowIsMin(col: Column, time: seq<int>, d: int, k: int)
    requires d > 0 && |col| == |time| && |BucketValues(col, time, d, k)| > 0
    ensures var bottom := Min(BucketValues(col, time, d, k));
      && (exists i :: 0 <= i < |time| && Key(time[i], d) == k && col[i] == Some(bottom))
      && (forall i :: 0 <= i < |time| && Key(time[i], d) == k && col[i].Some? ==> bottom <= col[i].value)
  {
    var xs := BucketValues(col, time, d, k);
    var bottom := Min(xs);
    assert bottom in xs;
    forall i | 0 <= i < |time| && Key(time[i], d) == k && col[i].Some?
      ensures bottom <= col[i].value
    {
      assert col[i].value in xs;
    }
  }

  lemma OpenIsFirst(col: Column, time: seq<int>, d: int, k: int)
    requires d > 0 && |col| == |time| && |BucketValues(col, time, d, k)| > 0
    ensures exists i :: 0 <= i < |time| && Key(time[i], d) == k && col[i] == Some(BucketValues(col, time, d, k)[0]) &&
                        (forall j :: 0 <= j < i && Key(time[j], d) == k ==> col[j].None?)
  {
    MaskedPresent(col, time, d, k);
    var ms := Masked(col, time, d, k);
    var i := PresentFirst(ms);
    assert Key(time[i], d) == k;
  }

  lemma CloseIsLast(col: Column, time: seq<int>, d: int, k: int)
    requires d > 0 && |col| == |time| && |BucketValues(col, time, d, k)| > 0
    ensures var xs := BucketValues(col, time, d, k);
      exists i :: 0 <= i < |time| && Key(time[i], d) == k && col[i] == Some(xs[|xs| - 1]) &&
                  (forall j :: i < j < |time| && Key(time[j], d) == k ==> col[j].None?)
  {
    MaskedPresent(col, time, d, k);
    var ms := Masked(col, time, d, k);
    var i := PresentLast(ms);
    assert Key(time[i], d) == k;
  }

  // ------------------------------------------------------------ kept buckets

  /** The buckets `k .. k+n-1` that `kept` admits, in order. */
  function KeptKeys(kept: int -> bool, k: int, n: nat): (keys: seq<int>)
    ensures forall i :: 0 <= i < |keys| ==> k <= keys[i] < k + n && kept(keys[i])
    ensures forall i, j :: 0 <= i < j < |keys| ==> keys[i] < keys[j]
    decreases n
  {
    if n == 0 then []
    else (if kept(k) then [k] else []) + KeptKeys(kept, k + 1, n - 1)
  }

  /** ... and admits every key of the range that `kept` admits. */
  lemma {:induction false} KeptKeysComplete(kept: int -> bool, k: int, n: nat)
    ensures forall j :: k <= j < k + n && kept(j) ==> j in KeptKeys(kept, k, n)
    decreases n
  {
    if n > 0 {
      KeptKeysComplete(kept, k + 1, n - 1);
    }
  }

  /** Every bucket from the first row's to the last row's, kept or not:
      the rows pandas' resample produces before `dropna`. */
  function BucketSpan(time: seq<int>, d: int): (span: (int, nat))
    requires d > 0 && Sorted(time)
    ensures forall i :: 0 <= i < |time| ==> span.0 <= Key(time[i], d) < span.0 + span.1
  {
    if |time| == 0 then (0, 0)
    else
      var lo, hi := Key(time[0], d), Key(time[|time| - 1], d);
      KeyMonotone(time[0], time[|time| - 1], d);
      forall i | 0 <= i < |time|
        ensures lo <= Key(time[i], d) <= hi
      {
        KeyMonotone(time[0], time[i], d);
        KeyMonotone(time[i], time[|time| - 1], d);
      }
      (lo, hi - lo + 1)
  }

  /** Whether bucket `k`'s bar survives `dropna`. */
  function Survives(m: RawFrame, d: int): int -> bool
    requires d > 0 && Aligned(m)
  {
    k => Aggregate(m, d, k).Some?
  }

  /** A surviving bucket holds at least one row. */
  lemma KeptBucketHasRow(m: RawFrame, d: int, k: int)
    requires d > 0 && Aligned(m) && Aggregate(m, d, k).Some?
    ensures exists i :: 0 <= i < |m.time| && Key(m.time[i], d) == k
  {
    var o := BucketValues(m.open, m.time, d, k);
    assert o[0] in o;
  }

  /** The labels of the output rows: exactly the buckets whose bar
      survives, in increasing order. */
  function OutputKeys(m: RawFrame, d: int): (keys: seq<int>)
    requires d > 0 && Aligned(m) && Sorted(m.time)
    ensures forall i, j :: 0 <= i < j < |keys| ==> keys[i] < keys[j]
    ensures forall i :: 0 <= i < |keys| ==> Aggregate(m, d, keys[i]).Some?
    ensures forall k :: k in keys <==> Aggregate(m, d, k).Some?
  {
    var span := BucketSpan(m.time, d);
    var keys := KeptKeys(Survives(m, d), span.0, span.1);
    KeptKeysComplete(Survives(m, d), span.0, span.1);
    forall k | Aggregate(m, d, k).Some?
      ensures k in keys
    {
      KeptBucketHasRow(m, d, k);
    }
    keys
  }

  // ------------------------------------------------------------ the conversion

  /** The period the indicator library defaults to, used when SMA, EMA or
      RSI is recomputed on the resampled table. */
  const DefaultPeriod: nat := 14

  /** The `Buy/Sell` column after resampling: the last present value of each
      output row's bucket, missing when the bucket has none. */
  function LastSignals(col: Column, time: seq<int>, d: int, keys: seq<int>): (r: Column)
    requires d > 0 && |col| == |time|
    ensures |r| == |keys|
    ensures forall i :: 0 <= i < |keys| ==> r[i] == LastValue(col, time, d, keys[i])
  {
    seq(|keys|, i requires 0 <= i < |keys| => LastValue(col, time, d, keys[i]))
  }

  /** `resample(...).last()` of one bucket: the value of the last row of the
      bucket that has one, missing when no row has. */
  function LastValue(col: Column, time: seq<int>, d: int, k: int): (r: Option<real>)
    requires d > 0 && |col| == |time|
    ensures r.Some? <==> exists j :: 0 <= j < |time| && Key(time[j], d) == k && col[j].Some?
    ensures r.Some? ==> exists j :: 0 <= j < |time| && Key(time[j], d) == k && col[j] == r &&
                                    (forall j' :: j < j' < |time| && Key(time[j'], d) == k ==> col[j'].None?)
  {
    var xs := BucketValues(col, time, d, k);
    if |xs| == 0 then
      None
    else
      CloseIsLast(col, time, d, k);
      Some(xs[|xs| - 1])
  }

  /** The recomputed indicator columns, each only when the input had it. */
  function Reindicate(g: Frame, sma: bool, ema: bool, rsi: bool): (r: Frame)
    ensures r.bars == g.bars
    ensures r.cols.Keys == g.cols.Keys + (if sma then {"SMA"} else {}) + (if ema then {"EMA"} else {}) +
                           (if rsi then {"RSI"} else {})
    ensures sma ==> r.cols["SMA"] == RollingMean(Closes(g.bars), DefaultPeriod)
    ensures ema ==> r.cols["EMA"] == Lift(Ema(Closes(g.bars), DefaultPeriod))
    ensures rsi ==> r.cols["RSI"] == Rsi(Closes(g.bars), DefaultPeriod)
    ensures forall k :: k in g.cols && k !in {"SMA", "EMA", "RSI"} ==> r.cols[k] == g.cols[k]
  {
    var xs := Closes(g.bars);
    var g := if sma then WithColumn(g, "SMA", RollingMean(xs, DefaultPeriod)) else g;
    var g := if ema then WithColumn(g, "EMA", Lift(Ema(xs, DefaultPeriod))) else g;
    if rsi then WithColumn(g, "RSI", Rsi(xs, DefaultPeriod)) else g
  }

  /** The aggregated bar of each kept bucket. */
  function OutputBars(m: RawFrame, d: int, keys: seq<int>): (bars: seq<Bar>)
    requires d > 0 && Aligned(m)
    requires forall i :: 0 <= i < |keys| ==> Aggregate(m, d, keys[i]).Some?
    ensures |bars| == |keys|
    ensures forall i :: 0 <= i < |keys| ==> Aggregate(m, d, keys[i]) == Some(bars[i])
  {
    seq(|keys|, i requires 0 <= i < |keys| => Aggregate(m, d, keys[i]).value)
  }

  /** The resampled table before the indicators are recomputed. */
  function Resampled(m: RawFrame, d: int): (g: Frame)
    requires d > 0 && Aligned(m) && Sorted(m.time)
    ensures g.cols.Keys == if "Buy/Sell" in m.extra then {"Buy/Sell"} else {}
    ensures var keys := OutputKeys(m, d);
      && |g.bars| == |keys|
      && (forall i :: 0 <= i < |keys| ==> Aggregate(m, d, keys[i]) == Some(g.bars[i]))
      && ("Buy/Sell" in m.extra ==> g.cols["Buy/Sell"] == LastSignals(m.extra["Buy/Sell"], m.time, d, keys))
  {
    var keys := OutputKeys(m, d);
    var cols := if "Buy/Sell" in m.extra then map["Buy/Sell" := LastSignals(m.extra["Buy/Sell"], m.time, d, keys)]
                else map[];
    Frame(OutputBars(m, d, keys), cols)
  }

  /** `convert_timeframe(df, d)` for a bucket width of `d` minutes. */
  function ConvertTimeframe(raw: RawFrame, d: int): (r: Frame)
    requires d > 0 && Aligned(raw) && Sorted(raw.time)
    ensures r.cols.Keys == (if "Buy/Sell" in raw.extra then {"Buy/Sell"} else {}) +
                           (if "SMA" in raw.extra then {"SMA"} else {}) +
                           (if "EMA" in raw.extra then {"EMA"} else {}) +
                           (if "RSI" in raw.extra then {"RSI"} else {})
    ensures var m := FillGaps(raw);
      var keys := OutputKeys(m, d);
      && |r.bars| == |keys|
      && (forall i :: 0 <= i < |keys| ==> Aggregate(m, d, keys[i]) == Some(r.bars[i]))
      && ("Buy/Sell" in raw.extra ==> r.cols["Buy/Sell"] == LastSignals(m.extra["Buy/Sell"], m.time, d, keys))
    ensures "SMA" in raw.extra ==> r.cols["SMA"] == RollingMean(Closes(r.bars), DefaultPeriod)
    ensures "EMA" in raw.extra ==> r.cols["EMA"] == Lift(Ema(Closes(r.bars), DefaultPeriod))
    ensures "RSI" in raw.extra ==> r.cols["RSI"] == Rsi(Closes(r.bars), DefaultPeriod)
  {
    var g := Resampled(FillGaps(raw), d);
    Reindicate(g, "SMA" in raw.extra, "EMA" in raw.extra, "RSI" in raw.extra)
  }
}

=== FILE: resample_laws.dfy ===
/** What `convert_timeframe` promises about its output bars: increasing
    labels, every surviving row represented, Low never above High, a
    one-bar bucket reproduced unchanged, and volume conserved. */
module ResampleLaws {
  import opened Values
  import opened Series
  import opened Resample

  /** Output rows are labelled by strictly increasing bucket edges, each a
      multiple of the bucket width. */
  lemma LabelsIncreasing(raw: RawFrame, d: int)
    requires d > 0 && Aligned(raw) && Sorted(raw.time)
    ensures var bars := ConvertTimeframe(raw, d).bars;
      forall i, j :: 0 <= i < j < |bars| ==> bars[i].t < bars[j].t
  {
    var m := FillGaps(raw);
    var keys := OutputKeys(m, d);
    var bars := ConvertTimeframe(raw, d).bars;
    forall i, j | 0 <= i < j < |bars|
      ensures bars[i].t < bars[j].t
    {
      assert bars[i].t == keys[i] * d && bars[j].t == keys[j] * d;
      MulStrict(keys[i], keys[j], d);
    }
  }

  /** Every row whose bucket survives is represented by the output row
      labelled with its bucket's edge, and every output row is such a
      bucket's bar. */
  lemma RowRepresented(raw: RawFrame, d: int, i: nat)
    requires d > 0 && Aligned(raw) && Sorted(raw.time) && i < |raw.time|
    requires Aggregate(FillGaps(raw), d, Key(raw.time[i], d)).Some?
    ensures var bars := ConvertTimeframe(raw, d).bars;
      exists j :: 0 <= j < |bars| && bars[j].t <= raw.time[i] < bars[j].t + d &&
                  bars[j] == Aggregate(FillGaps(raw), d, Key(raw.time[i], d)).value
  {
    var m := FillGaps(raw);
    var k := Key(raw.time[i], d);
    var j := OutputIndex(m, d, k);
    var b := ConvertedBar(raw, d, j);
    assert b == Aggregate(m, d, k).value;
    LabelCovers(b.t, raw.time[i], d);
    var bars := ConvertTimeframe(raw, d).bars;
    assert 0 <= j < |bars| && bars[j] == b;
  }

  /** A row lies inside the bucket labelled with its bucket's edge. */
  lemma LabelCovers(edge: int, t: int, d: int)
    requires d > 0 && edge == Key(t, d) * d
    ensures edge <= t < edge + d
  {
    KeyRange(t, Key(t, d), d);
  }

  /** Output row `j` is the bar of the `j`-th surviving bucket. */
  lemma ConvertedBar(raw: RawFrame, d: int, j: nat) returns (b: Bar)
    requires d > 0 && Aligned(raw) && Sorted(raw.time) && j < |OutputKeys(FillGaps(raw), d)|
    ensures j < |ConvertTimeframe(raw, d).bars| && ConvertTimeframe(raw, d).bars[j] == b
    ensures Aggregate(FillGaps(raw), d, OutputKeys(FillGaps(raw), d)[j]) == Some(b)
  {
    b := ConvertTimeframe(raw, d).bars[j];
  }

  /** The position of a surviving bucket among the output rows. */
  lemma OutputIndex(m: RawFrame, d: int, k: int) returns (j: nat)
    requires d > 0 && Aligned(m) && Sorted(m.time) && Aggregate(m, d, k).Some?
    ensures j < |OutputKeys(m, d)| && OutputKeys(m, d)[j] == k
  {
    var keys := OutputKeys(m, d);
    assert k in keys;
    j :| 0 <= j < |keys| && keys[j] == k;
  }

  /** If some row of a bucket has a present Low not above its present High,
      the bucket's bar has Low not above High. */
  lemma AggregateLowNotAboveHigh(m: RawFrame, d: int, k: int, i: nat)
    requires d > 0 && Aligned(m) && i < |m.time| && Key(m.time[i], d) == k
    requires m.low[i].Some? && m.high[i].Some? && m.low[i].value <= m.high[i].value
    requires Aggregate(m, d, k).Some?
    ensures Aggregate(m, d, k).value.l <= Aggregate(m, d, k).value.h
  {
    AggregateMeaning(m, d, k);
  }

  /** Hence when every input bar has both a Low and a High, with Low not
      above High, so does every output bar. */
  lemma LowNotAboveHigh(raw: RawFrame, d: int)
    requires d > 0 && Aligned(raw) && Sorted(raw.time)
    requires forall i :: 0 <= i < |raw.time| ==>
      raw.low[i].Some? && raw.high[i].Some? && raw.low[i].value <= raw.high[i].value
    ensures var bars := ConvertTimeframe(raw, d).bars;
      forall j :: 0 <= j < |bars| ==> bars[j].l <= bars[j].h
  {
    var m := FillGaps(raw);
    var keys := OutputKeys(m, d);
    var bars := ConvertTimeframe(raw, d).bars;
    forall j | 0 <= j < |bars|
      ensures bars[j].l <= bars[j].h
    {
      KeptBucketHasRow(m, d, keys[j]);
      var i :| 0 <= i < |m.time| && Key(m.time[i], d) == keys[j];
      AggregateLowNotAboveHigh(m, d, keys[j], i);
    }
  }

  /** Selecting exactly one position yields that element alone. */
  lemma {:induction false} SelectSingle<T>(xs: seq<T>, mask: seq<bool>, i: nat)
    requires |xs| == |mask| && i < |xs| && mask[i]
    requires forall j :: 0 <= j < |mask| && j != i ==> !mask[j]
    ensures Select(xs, mask) == [xs[i]]
  {
    assert xs == xs[..i] + [xs[i]] + xs[i + 1..];
    assert mask == mask[..i] + [mask[i]] + mask[i + 1..];
    SelectConcat(xs[..i] + [xs[i]], mask[..i] + [mask[i]], xs[i + 1..], mask[i + 1..]);
    SelectConcat(xs[..i], mask[..i], [xs[i]], [mask[i]]);
    SelectNone(xs[..i], mask[..i]);
    SelectNone(xs[i + 1..], mask[i + 1..]);
    assert Select([xs[i]], [mask[i]]) == Select([], []) + [xs[i]];
  }

  /** A bucket holding only row `i` has row `i`'s value, if present, as its
      only value. */
  lemma SingleRowValues(col: Column, time: seq<int>, d: int, i: nat)
    requires d > 0 && |col| == |time| && i < |time|
    requires forall j :: 0 <= j < |time| && j != i ==> Key(time[j], d) != Key(time[i], d)
    ensures BucketValues(col, time, d, Key(time[i], d)) == if col[i].Some? then [col[i].value] else []
  {
    SelectSingle(col, InBucket(time, d, Key(time[i], d)), i);
    PresentAppend([], col[i]);
    assert [] + [col[i]] == [col[i]];
  }

  /** A bucket whose Open, High, Low and Close each have exactly one value
      has those values as its bar. */
  lemma AggregateOfSingletons(m: RawFrame, d: int, k: int, o: real, h: real, l: real, c: real)
    requires d > 0 && Aligned(m)
    requires BucketValues(m.open, m.time, d, k) == [o] && BucketValues(m.high, m.time, d, k) == [h]
    requires BucketValues(m.low, m.time, d, k) == [l] && BucketValues(m.close, m.time, d, k) == [c]
    ensures Aggregate(m, d, k) == Some(Bar(k * d, o, h, l, c, Sum(BucketValues(m.volume, m.time, d, k))))
  {
  }

  /** A bucket holding one row reproduces that row's OHLCV, with a missing
      volume summed to 0. */
  lemma SingleRowBucket(m: RawFrame, d: int, i: nat)
    requires d > 0 && Aligned(m) && i < |m.time|
    requires forall j :: 0 <= j < |m.time| && j != i ==> Key(m.time[j], d) != Key(m.time[i], d)
    requires m.open[i].Some? && m.high[i].Some? && m.low[i].Some? && m.close[i].Some?
    ensures var k := Key(m.time[i], d);
      Aggregate(m, d, k) ==
        Some(Bar(k * d, m.open[i].value, m.high[i].value, m.low[i].value, m.close[i].value, m.volume[i].GetOr(0.0)))
  {
    var k := Key(m.time[i], d);
    SingleRowValues(m.open, m.time, d, i);
    SingleRowValues(m.high, m.time, d, i);
    SingleRowValues(m.low, m.time, d, i);
    SingleRowValues(m.close, m.time, d, i);
    SingleRowValues(m.volume, m.time, d, i);
    AggregateOfSingletons(m, d, k, m.open[i].value, m.high[i].value, m.low[i].value, m.close[i].value);
    if m.volume[i].Some? {
      SumAppend([], m.volume[i].value);
      assert [] + [m.volume[i].value] == [m.volume[i].value];
    }
  }

  // ------------------------------------------------------------ volume

  /** Total volume of one bucket. */
  function BucketSum(col: Column, time: seq<int>, d: int, k: int): real
    requires d > 0 && |col| == |time|
  {
    Sum(BucketValues(col, time, d, k))
  }

  /** Every bucket's total, as a function of the bucket. */
  function BucketSums(col: Column, time: seq<int>, d: int): int -> real
    requires d > 0 && |col| == |time|
  {
    k => BucketSum(col, time, d, k)
  }

  /** `f(k) + f(k+1) + ... + f(k+n-1)`. */
  function RangeSum(f: int -> real, k: int, n: nat): real
    decreases n
  {
    if n == 0 then 0.0 else f(k) + RangeSum(f, k + 1, n - 1)
  }

  /** `f` applied to each key. */
  function Gather(f: int -> real, keys: seq<int>): (vs: seq<real>)
    ensures |vs| == |keys|
    ensures forall i :: 0 <= i < |keys| ==> vs[i] == f(keys[i])
  {
    seq(|keys|, i requires 0 <= i < |keys| => f(keys[i]))
  }

  /** Raising `f` at one point raises the range sum by the same amount when
      the point is in the range. */
  lemma {:induction false} RangeSumBump(f: int -> real, g: int -> real, c: int, e: real, k: int, n: nat)
    requires forall j :: f(j) == g(j) + (if j == c then e else 0.0)
    ensures RangeSum(f, k, n) == RangeSum(g, k, n) + (if k <= c < k + n then e else 0.0)
    decreases n
  {
    if n > 0 {
      RangeSumBump(f, g, c, e, k + 1, n - 1);
    }
  }

  lemma {:induction false} RangeSumZero(f: int -> real, k: int, n: nat)
    requires forall j :: f(j) == 0.0
    ensures RangeSum(f, k, n) == 0.0
    decreases n
  {
    if n > 0 {
      RangeSumZero(f, k + 1, n - 1);
    }
  }

  /** Summing only the kept keys loses nothing when every dropped key
      contributes 0. */
  lemma GatherConcat(f: int -> real, a: seq<int>, b: seq<int>)
    ensures Gather(f, a + b) == Gather(f, a) + Gather(f, b)
  {
  }

  lemma KeptKeysUnfold(kept: int -> bool, k: int, n: nat)
    requires n > 0
    ensures KeptKeys(kept, k, n) == (if kept(k) then [k] else []) + KeptKeys(kept, k + 1, n - 1)
  {
  }

  lemma KeptHead(kept: int -> bool, f: int -> real, k: int)
    requires !kept(k) ==> f(k) == 0.0
    ensures Sum(Gather(f, if kept(k) then [k] else [])) == f(k)
  {
    if kept(k) {
      assert Gather(f, [k]) == [] + [f(k)];
      SumAppend([], f(k));
    } else {
      assert Gather(f, []) == [];
    }
  }

  /** One step of `KeptSum`: the first key's contribution. */
  lemma KeptSumStep(kept: int -> bool, f: int -> real, k: int, n: nat)
    requires n > 0 && (!kept(k) ==> f(k) == 0.0)
    ensures Sum(Gather(f, KeptKeys(kept, k, n))) == f(k) + Sum(Gather(f, KeptKeys(kept, k + 1, n - 1)))
  {
    var head: seq<int> := if kept(k) then [k] else [];
    var rest := KeptKeys(kept, k + 1, n - 1);
    KeptKeysUnfold(kept, k, n);
    GatherConcat(f, head, rest);
    SumConcat(Gather(f, head), Gather(f, rest));
    KeptHead(kept, f, k);
  }

  lemma {:induction false} KeptSum(kept: int -> bool, f: int -> real, k: int, n: nat)
    requires forall j :: k <= j < k + n && !kept(j) ==> f(j) == 0.0
    ensures Sum(Gather(f, KeptKeys(kept, k, n))) == RangeSum(f, k, n)
    decreases n
  {
    if n == 0 {
      assert Gather(f, KeptKeys(kept, k, n)) == [];
    } else {
      KeptSum(kept, f, k + 1, n - 1);
      KeptSumStep(kept, f, k, n);
    }
  }

  /** Adding a row adds its value, if present, to its own bucket only. */
  lemma BucketSumAppend(col: Column, time: seq<int>, d: int, k: int, x: Option<real>, t: int)
    requires d > 0 && |col| == |time|
    ensures BucketSum(col + [x], time + [t], d, k) ==
      BucketSum(col, time, d, k) + (if k == Key(t, d) && x.Some? then x.value else 0.0)
  {
    var n := |col|;
    var mask := InBucket(time + [t], d, k);
    assert (col + [x])[..n] == col;
    assert mask[..n] == InBucket(time, d, k);
    var sel := Select(col, InBucket(time, d, k));
    assert BucketValues(col, time, d, k) == Present(sel);
    if k == Key(t, d) {
      assert Select(col + [x], mask) == sel + [x];
      assert BucketValues(col + [x], time + [t], d, k) == Present(sel + [x]);
      PresentAppend(sel, x);
      if x.Some? {
        SumAppend(Present(sel), x.value);
      } else {
        assert Present(sel) + [] == Present(sel);
      }
    } else {
      assert Select(col + [x], mask) == sel + [];
      assert sel + [] == sel;
    }
  }

  /** When every row falls in buckets `k .. k+n-1`, their totals add up to
      the column's total. */
  lemma {:induction false} SpanVolumeTotal(col: Column, time: seq<int>, d: int, k: int, n: nat)
    requires d > 0 && |col| == |time|
    requires forall i :: 0 <= i < |time| ==> k <= Key(time[i], d) < k + n
    ensures RangeSum(BucketSums(col, time, d), k, n) == Sum(Present(col))
    decreases |col|
  {
    if |col| == 0 {
      forall j ensures BucketSums(col, time, d)(j) == 0.0 {
        assert Select(col, InBucket(time, d, j)) == [];
      }
      RangeSumZero(BucketSums(col, time, d), k, n);
    } else {
      var last := |col| - 1;
      var init, tinit := col[..last], time[..last];
      var x, t := col[last], time[last];
      assert col == init + [x] && time == tinit + [t];
      SpanVolumeTotal(init, tinit, d, k, n);
      var e := if x.Some? then x.value else 0.0;
      forall j
        ensures BucketSums(col, time, d)(j) == BucketSums(init, tinit, d)(j) + (if j == Key(t, d) then e else 0.0)
      {
        BucketSumAppend(init, tinit, d, j, x, t);
      }
      RangeSumBump(BucketSums(col, time, d), BucketSums(init, tinit, d), Key(t, d), e, k, n);
      PresentAppend(init, x);
      if x.Some? {
        SumAppend(Present(init), x.value);
      } else {
        assert Present(init) + [] == Present(init);
      }
    }
  }

  /** A row whose Open, High, Low and Close are all present keeps its
      bucket's bar. */
  lemma RowSurvives(m: RawFrame, d: int, i: nat)
    requires d > 0 && Aligned(m) && i < |m.time|
    requires m.open[i].Some? && m.high[i].Some? && m.low[i].Some? && m.close[i].Some?
    ensures Aggregate(m, d, Key(m.time[i], d)).Some?
  {
    var k := Key(m.time[i], d);
    assert m.open[i].value in BucketValues(m.open, m.time, d, k);
    assert m.high[i].value in BucketValues(m.high, m.time, d, k);
    assert m.low[i].value in BucketValues(m.low, m.time, d, k);
    assert m.close[i].value in BucketValues(m.close, m.time, d, k);
  }

  /** With every Open, High, Low and Close present, a dropped bucket has no
      rows and therefore no volume. */
  lemma DroppedBucketEmpty(m: RawFrame, d: int, k: int)
    requires d > 0 && Aligned(m) && Aggregate(m, d, k).None?
    requires AllPresent(m.open) && AllPresent(m.high) && AllPresent(m.low) && AllPresent(m.close)
    ensures BucketSum(m.volume, m.time, d, k) == 0.0
  {
    forall i | 0 <= i < |m.time|
      ensures Key(m.time[i], d) != k
    {
      RowSurvives(m, d, i);
    }
    assert Select(m.volume, InBucket(m.time, d, k)) == Select(m.volume, InBucket(m.time, d, k));
    SelectNone(m.volume, InBucket(m.time, d, k));
  }

  /** The output volumes are the totals of the kept buckets, in order. */
  lemma OutputVolumes(raw: RawFrame, d: int)
    requires d > 0 && Aligned(raw) && Sorted(raw.time)
    ensures var m := FillGaps(raw);
      var span := BucketSpan(m.time, d);
      Volumes(ConvertTimeframe(raw, d).bars) ==
        Gather(BucketSums(m.volume, m.time, d), KeptKeys(Survives(m, d), span.0, span.1))
  {
    var m := FillGaps(raw);
    var span := BucketSpan(m.time, d);
    var keys := OutputKeys(m, d);
    assert keys == KeptKeys(Survives(m, d), span.0, span.1);
    var bars := ConvertTimeframe(raw, d).bars;
    var f := BucketSums(m.volume, m.time, d);
    var g := Gather(f, keys);
    var vs := Volumes(bars);
    forall i | 0 <= i < |keys|
      ensures vs[i] == g[i]
    {
      assert Aggregate(m, d, keys[i]) == Some(bars[i]);
      assert f(keys[i]) == BucketSum(m.volume, m.time, d, keys[i]);
    }
  }

  /** With every Open, High, Low and Close present, the kept buckets'
      totals add up to the column's total. */
  lemma KeptVolumeTotal(m: RawFrame, d: int)
    requires d > 0 && Aligned(m) && Sorted(m.time)
    requires AllPresent(m.open) && AllPresent(m.high) && AllPresent(m.low) && AllPresent(m.close)
    ensures var span := BucketSpan(m.time, d);
      Sum(Gather(BucketSums(m.volume, m.time, d), KeptKeys(Survives(m, d), span.0, span.1))) == Sum(Present(m.volume))
  {
    var span := BucketSpan(m.time, d);
    var f := BucketSums(m.volume, m.time, d);
    forall j | span.0 <= j < span.0 + span.1 && !Survives(m, d)(j)
      ensures f(j) == 0.0
    {
      DroppedBucketEmpty(m, d, j);
    }
    KeptSum(Survives(m, d), f, span.0, span.1);
    SpanVolumeTotal(m.volume, m.time, d, span.0, span.1);
  }

  /** With every Open, High, Low and Close present, no bucket holding a row
      is dropped, so the output volume is the input's total volume (after
      gap filling). */
  lemma VolumeConserved(raw: RawFrame, d: int)
    requires d > 0 && Aligned(raw) && Sorted(raw.time)
    requires AllPresent(raw.open) && AllPresent(raw.high) && AllPresent(raw.low) && AllPresent(raw.close)
    ensures Sum(Volumes(ConvertTimeframe(raw, d).bars)) == Sum(Present(GapFill(raw.volume)))
  {
    OutputVolumes(raw, d);
    KeptVolumeTotal(FillGaps(raw), d);
  }
}

=== FILE: series.dfy ===
/** The bar table the strategies and the accounting work on: a sequence of
    OHLCV bars indexed by an integer minute timestamp, plus named numeric
    columns aligned with the bars (the DataFrame's extra columns). */
module Series {
  import opened Values

  /** One OHLCV sample; `t` is the bar's timestamp in minutes. */
  datatype Bar = Bar(t: int, o: real, h: real, l: real, c: real, v: real)

  /** A table: bars in index order and named columns such as `SMA`,
      `UpperBand`, `Position` or `Buy/Sell`. */
  datatype Frame = Frame(bars: seq<Bar>, cols: map<string, Column>)

  /** Every column shares the table's index. */
  ghost predicate WellFormed(f: Frame) {
    forall k :: k in f.cols ==> |f.cols[k]| == |f.bars|
  }

  function Closes(bars: seq<Bar>): (xs: seq<real>)
    ensures |xs| == |bars|
    ensures forall i :: 0 <= i < |bars| ==> xs[i] == bars[i].c
  {
    seq(|bars|, i requires 0 <= i < |bars| => bars[i].c)
  }

  function Opens(bars: seq<Bar>): (xs: seq<real>)
    ensures |xs| == |bars|
    ensures forall i :: 0 <= i < |bars| ==> xs[i] == bars[i].o
  {
    seq(|bars|, i requires 0 <= i < |bars| => bars[i].o)
  }

  function Volumes(bars: seq<Bar>): (xs: seq<real>)
    ensures |xs| == |bars|
    ensures forall i :: 0 <= i < |bars| ==> xs[i] == bars[i].v
  {
    seq(|bars|, i requires 0 <= i < |bars| => bars[i].v)
  }

  function Stamps(bars: seq<Bar>): (ts: seq<int>)
    ensures |ts| == |bars|
    ensures forall i :: 0 <= i < |bars| ==> ts[i] == bars[i].t
  {
    seq(|bars|, i requires 0 <= i < |bars| => bars[i].t)
  }

  /** The named column, or an empty one when the table lacks it. Callers
      that must fail on a missing column test membership first. */
  function Col(f: Frame, name: string): Column {
    if name in f.cols then f.cols[name] else []
  }

  /** `data[name] = col`: adds the column or overwrites it. */
  function WithColumn(f: Frame, name: string, col: Column): (r: Frame)
    ensures r.bars == f.bars
    ensures r.cols.Keys == f.cols.Keys + {name}
    ensures r.cols[name] == col
    ensures forall k :: k in f.cols && k != name ==> r.cols[k] == f.cols[k]
  {
    f.(cols := f.cols[name := col])
  }

  /** `data.drop(columns=names)`. */
  function Drop(f: Frame, names: set<string>): (r: Frame)
    ensures r.bars == f.bars
    ensures r.cols.Keys == f.cols.Keys - names
    ensures forall k :: k in r.cols ==> r.cols[k] == f.cols[k]
  {
    f.(cols := map k | k in f.cols && k !in names :: f.cols[k])
  }
}

=== FILE: signals.dfy ===
/** The strategies that compute their signal column with whole-column
    (vectorised) assignments instead of a loop: MACD crossover, trend
    following breakout, RSI thresholds, mean reversion, intraday gap and the
    edge-triggered SMA crossover. */
module SignalStrategies {
  import opened Values
  import opened Series
  import opened Indicators
  import opened Positions

  // ------------------------------------------------------------ MACD crossover

  /** The crossing events of the MACD line over its signal line. */
  function MacdEvents(close: seq<real>, short: nat, long: nat, signal: nat): (ev: seq<int>)
    requires short >= 1 && long >= 1 && signal >= 1
    ensures |ev| == |close|
    ensures forall i :: 0 <= i < |close| ==> IsPos(ev[i])
  {
    var m := Macd(close, short, long, signal);
    CrossEvents(Lift(m.macd), Lift(m.signal), |close|)
  }

  /** `macd_strategy`'s `Position`: crossing events carried forward. */
  function MacdPositions(close: seq<real>, short: nat, long: nat, signal: nat): (r: seq<int>)
    requires short >= 1 && long >= 1 && signal >= 1
    ensures |r| == |close|
    ensures var m := Macd(close, short, long, signal);
      forall i :: 0 <= i < |close| ==>
        IsPos(r[i]) &&
        (CrossesAbove(Lift(m.macd), Lift(m.signal), i) ==> r[i] == 1) &&
        (CrossesBelow(Lift(m.macd), Lift(m.signal), i) ==> r[i] == -1)
    ensures var ev := MacdEvents(close, short, long, signal);
      forall i :: 0 <= i < |close| ==> LatestEvent(ev, i, r[i])
    // the position only changes on a crossing bar
    ensures var m := Macd(close, short, long, signal);
      forall i :: 1 <= i < |close| && r[i] != r[i - 1] ==>
        CrossesAbove(Lift(m.macd), Lift(m.signal), i) || CrossesBelow(Lift(m.macd), Lift(m.signal), i)
  {
    var ev := MacdEvents(close, short, long, signal);
    FFillSpec(ev);
    FFill(ev)
  }

  /** The indicator lines `macd_strategy` writes before its signal. */
  function MacdLineColumns(f: Frame, short: nat, long: nat, signal: nat): (r: Frame)
    requires short >= 1 && long >= 1 && signal >= 1
    ensures r.bars == f.bars
    ensures r.cols.Keys == f.cols.Keys + {"EMA_short", "EMA_long", "MACD", "Signal_Line"}
    ensures r.cols["EMA_short"] == Lift(Ema(Closes(f.bars), short))
    ensures r.cols["EMA_long"] == Lift(Ema(Closes(f.bars), long))
    ensures r.cols["MACD"] == Lift(Macd(Closes(f.bars), short, long, signal).macd)
    ensures r.cols["Signal_Line"] == Lift(Macd(Closes(f.bars), short, long, signal).signal)
    ensures forall k :: k in f.cols && k !in {"EMA_short", "EMA_long", "MACD", "Signal_Line"} ==>
      r.cols[k] == f.cols[k]
  {
    var xs := Closes(f.bars);
    var m := Macd(xs, short, long, signal);
    f.(cols := f.cols["EMA_short" := Lift(Ema(xs, short))]["EMA_long" := Lift(Ema(xs, long))]
                     ["MACD" := Lift(m.macd)]["Signal_Line" := Lift(m.signal)])
  }

  /** `macd_strategy(data, ...)`: adds the two EMAs, `MACD`, `Signal_Line`
      and `Position`. */
  function MacdStrategy(f: Frame, short: nat, long: nat, signal: nat): (r: Frame)
    requires short >= 1 && long >= 1 && signal >= 1
    ensures r.bars == f.bars
    ensures r.cols.Keys == f.cols.Keys + {"EMA_short", "EMA_long", "MACD", "Signal_Line", "Position"}
    ensures r.cols["EMA_short"] == Lift(Ema(Closes(f.bars), short))
    ensures r.cols["EMA_long"] == Lift(Ema(Closes(f.bars), long))
    ensures r.cols["MACD"] == Lift(Macd(Closes(f.bars), short, long, signal).macd)
    ensures r.cols["Signal_Line"] == Lift(Macd(Closes(f.bars), short, long, signal).signal)
    ensures r.cols["Position"] == LiftInts(MacdPositions(Closes(f.bars), short, long, signal))
    ensures forall k :: k in f.cols && k !in {"EMA_short", "EMA_long", "MACD", "Signal_Line", "Position"} ==>
      r.cols[k] == f.cols[k]
  {
    var g := MacdLineColumns(f, short, long, signal);
    WithColumn(g, "Position", LiftInts(MacdPositions(Closes(f.bars), short, long, signal)))
  }

  // ------------------------------------------------------------ breakout

  /** First row of the `min_periods=1` window that ends at row `i`. */
  function WindowStart(i: nat, p: nat): (s: nat)
    requires p >= 1
    ensures s <= i && i - s < p
    ensures i >= p - 1 ==> s == i - p + 1
  {
    if i + 1 >= p then i + 1 - p else 0
  }

  /** The largest value of the window ending at row `i`. */
  function WindowMax(xs: seq<real>, i: nat, p: nat): (m: real)
    requires p >= 1 && i < |xs|
    ensures forall j :: WindowStart(i, p) <= j <= i ==> xs[j] <= m
    ensures exists j :: WindowStart(i, p) <= j <= i && xs[j] == m
  {
    var s := WindowStart(i, p);
    var w := xs[s..i + 1];
    assert forall j :: s <= j <= i ==> w[j - s] == xs[j];
    assert exists j :: s <= j <= i && xs[j] == Max(w) by {
      var k :| 0 <= k < |w| && w[k] == Max(w);
      assert xs[s + k] == Max(w);
    }
    Max(w)
  }

  /** The smallest value of the window ending at row `i`. */
  function WindowMin(xs: seq<real>, i: nat, p: nat): (m: real)
    requires p >= 1 && i < |xs|
    ensures forall j :: WindowStart(i, p) <= j <= i ==> m <= xs[j]
    ensures exists j :: WindowStart(i, p) <= j <= i && xs[j] == m
  {
    var s := WindowStart(i, p);
    var w := xs[s..i + 1];
    assert forall j :: s <= j <= i ==> w[j - s] == xs[j];
    assert exists j :: s <= j <= i && xs[j] == Min(w) by {
      var k :| 0 <= k < |w| && w[k] == Min(w);
      assert xs[s + k] == Min(w);
    }
    Min(w)
  }

  /** `rolling(window=p, min_periods=1).max()`. */
  function RollingMax(xs: seq<real>, p: nat): (r: seq<real>)
    requires p >= 1
    ensures |r| == |xs|
    ensures forall i :: 0 <= i < |xs| ==> r[i] == WindowMax(xs, i, p)
  {
    seq(|xs|, i requires 0 <= i < |xs| => WindowMax(xs, i, p))
  }

  /** `rolling(window=p, min_periods=1).min()`. */
  function RollingMin(xs: seq<real>, p: nat): (r: seq<real>)
    requires p >= 1
    ensures |r| == |xs|
    ensures forall i :: 0 <= i < |xs| ==> r[i] == WindowMin(xs, i, p)
  {
    seq(|xs|, i requires 0 <= i < |xs| => WindowMin(xs, i, p))
  }

  /** Every close lies between its own lowest low and highest high. */
  lemma ChannelContainsClose(close: seq<real>, lookback: nat)
    requires lookback >= 1
    ensures forall i :: 0 <= i < |close| ==>
      RollingMin(close, lookback)[i] <= close[i] <= RollingMax(close, lookback)[i]
  {
    forall i | 0 <= i < |close|
      ensures RollingMin(close, lookback)[i] <= close[i] <= RollingMax(close, lookback)[i]
    {
      assert WindowStart(i, lookback) <= i;
    }
  }

  /** The breakout events: -1 (assigned last) when the close falls below the
      previous bar's lowest low, else 1 when it rises above the previous
      bar's highest high. At bar 0 the shifted levels are missing and
      neither comparison holds. */
  function BreakoutEvent(close: seq<real>, hh: seq<real>, ll: seq<real>, i: nat): (e: int)
    requires i < |close| == |hh| == |ll|
    ensures IsPos(e)
    ensures e == -1 <==> i >= 1 && close[i] < ll[i - 1]
    ensures e == 1 <==> i >= 1 && close[i] > hh[i - 1] && !(close[i] < ll[i - 1])
  {
    if i >= 1 && close[i] < ll[i - 1] then -1
    else if i >= 1 && close[i] > hh[i - 1] then 1
    else 0
  }

  /** A buy is a close above the previous highest high, a sell a close below
      the previous lowest low; the two never coincide, and bar 0 has
      neither. */
  function BreakoutEvents(close: seq<real>, lookback: nat): (ev: seq<int>)
    requires lookback >= 1
    ensures |ev| == |close|
    ensures forall i :: 0 <= i < |close| ==> IsPos(ev[i])
    ensures forall i :: 0 <= i < |close| ==>
      (ev[i] == 1 <==> i >= 1 && close[i] > RollingMax(close, lookback)[i - 1]) &&
      (ev[i] == -1 <==> i >= 1 && close[i] < RollingMin(close, lookback)[i - 1])
  {
    var hh, ll := RollingMax(close, lookback), RollingMin(close, lookback);
    ChannelContainsClose(close, lookback);
    assert forall i :: 0 <= i < |close| ==> ll[i] <= hh[i];
    seq(|close|, i requires 0 <= i < |close| => BreakoutEvent(close, hh, ll, i))
  }

  /** The window ending one bar later starts no earlier. */
  lemma WindowStartMonotone(i: nat, p: nat)
    requires p >= 1 && i >= 1
    ensures WindowStart(i - 1, p) <= WindowStart(i, p)
  {
  }

  /** A close above the previous window's maximum is its own window's
      maximum. */
  lemma {:induction false} WindowMaxNewHigh(close: seq<real>, lookback: nat, i: nat)
    requires lookback >= 1 && 1 <= i < |close|
    requires close[i] > WindowMax(close, i - 1, lookback)
    ensures WindowMax(close, i, lookback) == close[i]
  {
    var m, prev := WindowMax(close, i, lookback), WindowMax(close, i - 1, lookback);
    var s := WindowStart(i, lookback);
    WindowStartMonotone(i, lookback);
    forall j | s <= j < i
      ensures close[j] <= close[i]
    {
      assert close[j] <= prev;
    }
    var j :| s <= j <= i && close[j] == m;
    assert close[i] <= m;
  }

  /** A close below the previous window's minimum is its own window's
      minimum. */
  lemma {:induction false} WindowMinNewLow(close: seq<real>, lookback: nat, i: nat)
    requires lookback >= 1 && 1 <= i < |close|
    requires close[i] < WindowMin(close, i - 1, lookback)
    ensures WindowMin(close, i, lookback) == close[i]
  {
    var m, prev := WindowMin(close, i, lookback), WindowMin(close, i - 1, lookback);
    var s := WindowStart(i, lookback);
    WindowStartMonotone(i, lookback);
    forall j | s <= j < i
      ensures close[i] <= close[j]
    {
      assert prev <= close[j];
    }
    var j :| s <= j <= i && close[j] == m;
    assert m <= close[i];
  }

  /** A buy bar sets a new highest high: it is the close itself. */
  lemma BreakoutBuyIsNewHigh(close: seq<real>, lookback: nat, i: nat)
    requires lookback >= 1 && i < |close|
    requires BreakoutEvents(close, lookback)[i] == 1
    ensures RollingMax(close, lookback)[i] == close[i]
  {
    assert i >= 1 && close[i] > RollingMax(close, lookback)[i - 1];
    WindowMaxNewHigh(close, lookback, i);
  }

  /** A sell bar sets a new lowest low. */
  lemma BreakoutSellIsNewLow(close: seq<real>, lookback: nat, i: nat)
    requires lookback >= 1 && i < |close|
    requires BreakoutEvents(close, lookback)[i] == -1
    ensures RollingMin(close, lookback)[i] == close[i]
  {
    assert i >= 1 && close[i] < RollingMin(close, lookback)[i - 1];
    WindowMinNewLow(close, lookback, i);
  }

  /** `breakout_strategy`'s `Position`: breakout events carried forward. */
  function BreakoutPositions(close: seq<real>, lookback: nat): (r: seq<int>)
    requires lookback >= 1
    ensures |r| == |close|
    ensures var ev := BreakoutEvents(close, lookback);
      forall i :: 0 <= i < |close| ==> IsPos(r[i]) && LatestEvent(ev, i, r[i])
    ensures var ev := BreakoutEvents(close, lookback);
      forall i :: 1 <= i < |close| && r[i] != r[i - 1] ==> ev[i] != 0
  {
    var ev := BreakoutEvents(close, lookback);
    FFillSpec(ev);
    FFill(ev)
  }

  /** The channel `breakout_strategy` writes before its signal. */
  function ChannelColumns(f: Frame, lookback: nat): (r: Frame)
    requires lookback >= 1
    ensures r.bars == f.bars
    ensures r.cols.Keys == f.cols.Keys + {"HHigh", "LLow"}
    ensures r.cols["HHigh"] == Lift(RollingMax(Closes(f.bars), lookback))
    ensures r.cols["LLow"] == Lift(RollingMin(Closes(f.bars), lookback))
    ensures forall k :: k in f.cols && k !in {"HHigh", "LLow"} ==> r.cols[k] == f.cols[k]
  {
    var xs := Closes(f.bars);
    f.(cols := f.cols["HHigh" := Lift(RollingMax(xs, lookback))]["LLow" := Lift(RollingMin(xs, lookback))])
  }

  /** `breakout_strategy(data, lookback)`: adds `HHigh`, `LLow` and
      `Position`. */
  function BreakoutStrategy(f: Frame, lookback: nat): (r: Frame)
    requires lookback >= 1
    ensures r.bars == f.bars
    ensures r.cols.Keys == f.cols.Keys + {"HHigh", "LLow", "Position"}
    ensures r.cols["HHigh"] == Lift(RollingMax(Closes(f.bars), lookback))
    ensures r.cols["LLow"] == Lift(RollingMin(Closes(f.bars), lookback))
    ensures r.cols["Position"] == LiftInts(BreakoutPositions(Closes(f.bars), lookback))
    ensures forall k :: k in f.cols && k !in {"HHigh", "LLow", "Position"} ==> r.cols[k] == f.cols[k]
  {
    var g := ChannelColumns(f, lookback);
    WithColumn(g, "Position", LiftInts(BreakoutPositions(Closes(f.bars), lookback)))
  }

  // ------------------------------------------------------------ thresholds

  /** The vectorised pattern of the RSI, mean reversion and gap strategies:
      the column starts at 0, `x < lo` rows are set to 1, then `x > hi` rows
      are set to -1 (so -1 wins); a missing operand matches neither. */
  function Threshold(x: Option<real>, lo: Option<real>, hi: Option<real>): (r: int)
    ensures IsPos(r)
    ensures r == -1 <==> Gt(x, hi)
    ensures r == 1 <==> Lt(x, lo) && !Gt(x, hi)
  {
    if Gt(x, hi) then -1 else if Lt(x, lo) then 1 else 0
  }

  // ------------------------------------------------------------ RSI thresholds

  /** The period `rsi_strategy` actually uses: it calls the RSI indicator
      with its default and never passes its own `rsi_period` on. */
  const RsiDefaultPeriod: nat := 14

  /** Per bar: -1 above the overbought level, else 1 below the oversold
      level, else 0; a missing RSI gives 0. */
  function RsiSignals(rsi: Column, overbought: real, oversold: real): (r: seq<int>)
    ensures |r| == |rsi|
    ensures forall i :: 0 <= i < |rsi| ==>
      (r[i] == -1 <==> rsi[i].Some? && rsi[i].value > overbought) &&
      (r[i] == 1 <==> rsi[i].Some? && rsi[i].value < oversold && rsi[i].value <= overbought) &&
      (r[i] == 0 <==> rsi[i].None? || oversold <= rsi[i].value <= overbought)
  {
    seq(|rsi|, i requires 0 <= i < |rsi| => Threshold(rsi[i], Some(oversold), Some(overbought)))
  }

  /** `rsi_strategy(data, rsi_period, overbought, oversold)`: adds the
      14-bar `RSI` and `Position`, whatever `rsiPeriod` is. */
  function RsiStrategy(f: Frame, rsiPeriod: nat, overbought: real, oversold: real): (r: Frame)
    ensures r.bars == f.bars
    ensures r.cols.Keys == f.cols.Keys + {"RSI", "Position"}
    ensures r.cols["RSI"] == Rsi(Closes(f.bars), RsiDefaultPeriod)
    ensures r.cols["Position"] == LiftInts(RsiSignals(r.cols["RSI"], overbought, oversold))
    ensures forall k :: k in f.cols && k !in {"RSI", "Position"} ==> r.cols[k] == f.cols[k]
  {
    var rsi := Rsi(Closes(f.bars), RsiDefaultPeriod);
    f.(cols := f.cols["RSI" := rsi]["Position" := LiftInts(RsiSignals(rsi, overbought, oversold))])
  }

  /** No signal before the RSI warm-up window is full, and the period
      argument changes nothing. */
  lemma RsiStrategyWarmUp(f: Frame, rsiPeriod: nat, otherPeriod: nat, overbought: real, oversold: real, i: nat)
    requires i < |f.bars| && i < RsiDefaultPeriod - 1
    ensures RsiStrategy(f, rsiPeriod, overbought, oversold).cols["Position"][i] == Some(0.0)
    ensures RsiStrategy(f, rsiPeriod, overbought, oversold) == RsiStrategy(f, otherPeriod, overbought, oversold)
  {
    var rsi := Rsi(Closes(f.bars), RsiDefaultPeriod);
    assert rsi[i].None?;
  }

  // ------------------------------------------------------------ mean reversion

  /** `Series.std()`: sample standard deviation of the present cells, missing
      when fewer than two are present. */
  function ColumnStd(col: Column, root: real -> real): (s: Option<real>)
    ensures s.Some? <==> |Present(col)| >= 2
    ensures s.Some? ==> s.value == root(SampleVariance(Present(col)))
  {
    var xs := Present(col);
    if |xs| < 2 then None else Some(root(SampleVariance(xs)))
  }

  /** `Close - Moving Average`, missing where the average is. */
  function Deviations(close: seq<real>, average: Column): (d: Column)
    requires |average| == |close|
    ensures |d| == |close|
    ensures forall i :: 0 <= i < |close| ==>
      (d[i].Some? <==> average[i].Some?) &&
      (d[i].Some? ==> d[i].value == close[i] - average[i].value)
  {
    seq(|close|, i requires 0 <= i < |close| => Minus(Some(close[i]), average[i]))
  }

  /** Per bar: -1 above twice the standard deviation, else 1 below minus
      twice of it, else 0. */
  function ReversionSignals(dev: Column, s: Option<real>): (r: seq<int>)
    ensures |r| == |dev|
    ensures forall i :: 0 <= i < |dev| ==>
      IsPos(r[i]) &&
      (r[i] == -1 <==> s.Some? && dev[i].Some? && dev[i].value > 2.0 * s.value) &&
      (r[i] == 1 <==> s.Some? && dev[i].Some? && dev[i].value < -2.0 * s.value && dev[i].value <= 2.0 * s.value)
  {
    seq(|dev|, i requires 0 <= i < |dev| => Threshold(dev[i], Times(-2.0, s), Times(2.0, s)))
  }

  datatype ReversionColumns = ReversionColumns(average: Column, deviation: Column, signal: seq<int>)

  /** `mean_reversion_strategy`'s columns: the moving average, the close's
      deviation from it, and the signal against twice the deviation's
      standard deviation over the whole table. */
  function MeanReversion(close: seq<real>, lookback: nat, root: real -> real): (r: ReversionColumns)
    requires lookback >= 1
    ensures r.average == RollingMean(close, lookback)
    ensures r.deviation == Deviations(close, r.average)
    ensures r.signal == ReversionSignals(r.deviation, ColumnStd(r.deviation, root))
  {
    var ma := RollingMean(close, lookback);
    var dev := Deviations(close, ma);
    ReversionColumns(ma, dev, ReversionSignals(dev, ColumnStd(dev, root)))
  }

  /** With a non-negative square root the two thresholds are ordered, so a
      buy is exactly a deviation below minus twice the standard deviation and
      no bar is both; before the average is defined there is no signal. */
  lemma MeanReversionSignals(close: seq<real>, lookback: nat, root: real -> real, i: nat)
    requires lookback >= 1 && i < |close|
    requires forall x :: x >= 0.0 ==> root(x) >= 0.0
    ensures var r := MeanReversion(close, lookback, root);
      var s := ColumnStd(r.deviation, root);
      (r.signal[i] == 1 <==> s.Some? && r.deviation[i].Some? && r.deviation[i].value < -2.0 * s.value) &&
      (i < lookback - 1 ==> r.signal[i] == 0)
  {
    var r := MeanReversion(close, lookback, root);
    var s := ColumnStd(r.deviation, root);
    if s.Some? {
      assert s.value >= 0.0 by {
        assert SampleVariance(Present(r.deviation)) >= 0.0;
      }
    }
  }

  /** `mean_reversion_strategy(data, lookback)`: adds `Moving Average`,
      `Deviation` and `Buy/Sell`. */
  function MeanReversionStrategy(f: Frame, lookback: nat, root: real -> real): (r: Frame)
    requires lookback >= 1
    ensures r.bars == f.bars
    ensures r.cols.Keys == f.cols.Keys + {"Moving Average", "Deviation", "Buy/Sell"}
    ensures r.cols["Moving Average"] == RollingMean(Closes(f.bars), lookback)
    ensures r.cols["Deviation"] == Deviations(Closes(f.bars), RollingMean(Closes(f.bars), lookback))
    ensures r.cols["Buy/Sell"] == LiftInts(MeanReversion(Closes(f.bars), lookback, root).signal)
    ensures forall k :: k in f.cols && k !in {"Moving Average", "Deviation", "Buy/Sell"} ==> r.cols[k] == f.cols[k]
  {
    var m := MeanReversion(Closes(f.bars), lookback, root);
    f.(cols := f.cols["Moving Average" := m.average]["Deviation" := m.deviation]["Buy/Sell" := LiftInts(m.signal)])
  }

  // ------------------------------------------------------------ intraday gap

  /** `Open - Close.shift(1)`: missing at bar 0. */
  function Gaps(bars: seq<Bar>): (g: Column)
    ensures |g| == |bars|
    ensures |bars| > 0 ==> g[0].None?
    ensures forall i :: 1 <= i < |bars| ==> g[i] == Some(bars[i].o - bars[i - 1].c)
  {
    seq(|bars|, i requires 0 <= i < |bars| => GapAt(bars, i))
  }

  function GapAt(bars: seq<Bar>, i: nat): (c: Option<real>)
    requires i < |bars|
    ensures c.Some? <==> i >= 1
    ensures i >= 1 ==> c.value == bars[i].o - bars[i - 1].c
  {
    if i == 0 then None else Some(bars[i].o - bars[i - 1].c)
  }

  /** The previous bar's close, missing at bar 0 (`Close.shift(1)`). */
  function PrevClose(bars: seq<Bar>, i: nat): (c: Option<real>)
    requires i < |bars|
    ensures c.Some? <==> i >= 1
    ensures i >= 1 ==> c.value == bars[i - 1].c
  {
    if i == 0 then None else Some(bars[i - 1].c)
  }

  /** One bar of the gap strategy, in terms of the open against the
      previous close. */
  function GapSignal(bars: seq<Bar>, i: nat): (r: int)
    requires i < |bars|
    ensures i == 0 ==> r == 0
    ensures i >= 1 ==>
      (r == -1 <==> bars[i].o > 1.01 * bars[i - 1].c) &&
      (r == 1 <==> bars[i].o < 0.99 * bars[i - 1].c && bars[i].o <= 1.01 * bars[i - 1].c)
    ensures IsPos(r)
  {
    var prev := PrevClose(bars, i);
    var gap := Minus(Some(bars[i].o), prev);
    Threshold(gap, Times(-0.01, prev), Times(0.01, prev))
  }

  /** Per bar: -1 on a gap up of more than 1% of the previous close, else 1
      on a gap down of more than 1%, else 0. */
  function GapSignals(bars: seq<Bar>): (r: seq<int>)
    ensures |r| == |bars|
    ensures |bars| > 0 ==> r[0] == 0
    ensures forall i :: 1 <= i < |bars| ==>
      (r[i] == -1 <==> bars[i].o > 1.01 * bars[i - 1].c) &&
      (r[i] == 1 <==> bars[i].o < 0.99 * bars[i - 1].c && bars[i].o <= 1.01 * bars[i - 1].c)
    ensures forall i :: 0 <= i < |bars| ==> IsPos(r[i])
  {
    seq(|bars|, i requires 0 <= i < |bars| => GapSignal(bars, i))
  }

  /** For a positive previous close a gap down is exactly an open below 99%
      of it, and a bar is never both a gap up and a gap down. */
  lemma GapSignalsExclusive(bars: seq<Bar>, i: nat)
    requires 1 <= i < |bars| && bars[i - 1].c > 0.0
    ensures GapSignals(bars)[i] == 1 <==> bars[i].o < 0.99 * bars[i - 1].c
  {
  }

  /** `intraday_gap_strategy(data)`: adds `Gap` and `Buy/Sell`. */
  function GapStrategy(f: Frame): (r: Frame)
    ensures r.bars == f.bars
    ensures r.cols.Keys == f.cols.Keys + {"Gap", "Buy/Sell"}
    ensures r.cols["Gap"] == Gaps(f.bars)
    ensures r.cols["Buy/Sell"] == LiftInts(GapSignals(f.bars))
    ensures forall k :: k in f.cols && k !in {"Gap", "Buy/Sell"} ==> r.cols[k] == f.cols[k]
  {
    f.(cols := f.cols["Buy/Sell" := LiftInts(GapSignals(f.bars))]["Gap" := Gaps(f.bars)])
  }

  // ------------------------------------------------------------ edge-triggered SMA

  /** `sma_stratergy(data)`: fails without an `SMA` column; otherwise adds
      `Buy/Sell`, 1 on the bar the close crosses above the SMA, -1 on the
      bar it crosses below, 0 elsewhere. */
  function SmaCrossStrategy(f: Frame): (r: Result<Frame>)
    ensures r.Err? <==> "SMA" !in f.cols
    ensures r.Err? ==> r.error == MissingColumn("SMA")
    ensures r.Ok? ==> r.value.bars == f.bars && r.value.cols.Keys == f.cols.Keys + {"Buy/Sell"}
    ensures r.Ok? ==> |r.value.cols["Buy/Sell"]| == |f.bars|
    ensures r.Ok? ==> forall i :: 0 <= i < |f.bars| ==>
      (r.value.cols["Buy/Sell"][i] == Some(1.0) <==> CrossesAbove(Lift(Closes(f.bars)), f.cols["SMA"], i)) &&
      (r.value.cols["Buy/Sell"][i] == Some(-1.0) <==> CrossesBelow(Lift(Closes(f.bars)), f.cols["SMA"], i)) &&
      (r.value.cols["Buy/Sell"][i] == Some(0.0) <==>
         !CrossesAbove(Lift(Closes(f.bars)), f.cols["SMA"], i) && !CrossesBelow(Lift(Closes(f.bars)), f.cols["SMA"], i))
    ensures r.Ok? ==> forall k :: k in f.cols && k != "Buy/Sell" ==> r.value.cols[k] == f.cols[k]
  {
    if "SMA" !in f.cols then Err(MissingColumn("SMA"))
    else
      var ev := CrossEvents(Lift(Closes(f.bars)), f.cols["SMA"], |f.bars|);
      Ok(WithColumn(f, "Buy/Sell", LiftInts(ev)))
  }

  /** Edge triggering: two adjacent bars never carry the same nonzero
      signal, since a crossing needs the bar before it on the other side. */
  lemma CrossEventsAlternate(a: Column, b: Column, n: nat, i: nat)
    requires 1 <= i < n
    ensures var ev := CrossEvents(a, b, n);
      ev[i - 1] != 0 ==> ev[i] != ev[i - 1]
  {
  }
}

=== FILE: values.dfy ===
/** Values shared by every stage of the pipeline: optional cells (a missing
    cell plays the part of a NaN), the comparisons and arithmetic that NaN
    obeys, error results, and sums, maxima and minima of real sequences. */
module Values {

  /** A cell that may be missing. */
  datatype Option<+T> = None | Some(value: T) {
    function GetOr(default: T): T {
      match this
      case Some(v) => v
      case None => default
    }
  }

  /** Why a backtest stage stops instead of producing a value. */
  datatype Error =
    | MissingColumn(name: string)      // a KeyError / ValueError about a column
    | InvalidStrategy(name: string)    // an unrecognised strategy name
    | EmptySeries                      // `iloc[0]` / `iloc[-1]` on an empty table
    | ZeroPrice                        // a floor division by a zero close

  datatype Result<+T> = Ok(value: T) | Err(error: Error) {
    predicate IsFailure() {
      Err?
    }

    function PropagateFailure<U>(): Result<U>
      requires Err?
    {
      Err(error)
    }

    function Extract(): T
      requires Ok?
    {
      value
    }
  }

  /** A numeric table column. */
  type Column = seq<Option<real>>

  /** The cell at row `i`, or a missing cell when `i` is outside the column
      (this is what `shift(1)` yields at row 0). */
  function At(col: Column, i: int): (r: Option<real>)
    ensures 0 <= i < |col| ==> r == col[i]
    ensures !(0 <= i < |col|) ==> r == None
  {
    if 0 <= i < |col| then col[i] else None
  }

  // Comparisons in which a missing operand makes the answer false.

  predicate Gt(a: Option<real>, b: Option<real>) {
    a.Some? && b.Some? && a.value > b.value
  }

  predicate Lt(a: Option<real>, b: Option<real>) {
    a.Some? && b.Some? && a.value < b.value
  }

  predicate Ge(a: Option<real>, b: Option<real>) {
    a.Some? && b.Some? && a.value >= b.value
  }

  predicate Le(a: Option<real>, b: Option<real>) {
    a.Some? && b.Some? && a.value <= b.value
  }

  // Arithmetic in which a missing operand makes the result missing.

  function Plus(a: Option<real>, b: Option<real>): Option<real> {
    if a.Some? && b.Some? then Some(a.value + b.value) else None
  }

  function Minus(a: Option<real>, b: Option<real>): Option<real> {
    if a.Some? && b.Some? then Some(a.value - b.value) else None
  }

  function Times(k: real, a: Option<real>): Option<real> {
    if a.Some? then Some(k * a.value) else None
  }

  /** A column with every cell present. */
  function Lift(xs: seq<real>): (col: Column)
    ensures |col| == |xs|
    ensures forall i :: 0 <= i < |xs| ==> col[i] == Some(xs[i])
  {
    seq(|xs|, i requires 0 <= i < |xs| => Some(xs[i]))
  }

  /** A column holding whole-number signals, as pandas stores `Position`. */
  function LiftInts(xs: seq<int>): (col: Column)
    ensures |col| == |xs|
    ensures forall i :: 0 <= i < |xs| ==> col[i] == Some(xs[i] as real)
  {
    seq(|xs|, i requires 0 <= i < |xs| => Some(xs[i] as real))
  }

  predicate AllPresent(col: Column) {
    forall i :: 0 <= i < |col| ==> col[i].Some?
  }

  /** The present cells of a column, in order (`dropna`). */
  function Present(col: Column): (xs: seq<real>)
    ensures |xs| <= |col|
    ensures forall x :: x in xs <==> Some(x) in col
    ensures AllPresent(col) ==> |xs| == |col|
    decreases |col|
  {
    if |col| == 0 then []
    else
      var init := col[..|col| - 1];
      assert col == init + [col[|col| - 1]];
      var p := Present(init);
      if col[|col| - 1].Some? then p + [col[|col| - 1].value] else p
  }

  /** Appending a cell appends its value when it is present. */
  lemma PresentAppend(col: Column, x: Option<real>)
    ensures Present(col + [x]) == Present(col) + (if x.Some? then [x.value] else [])
  {
    assert (col + [x])[..|col|] == col;
  }

  /** The first present value is the cell at the first index holding one. */
  lemma {:induction false} PresentFirst(col: Column) returns (i: nat)
    requires |Present(col)| > 0
    ensures i < |col| && col[i] == Some(Present(col)[0])
    ensures forall j :: 0 <= j < i ==> col[j].None?
    decreases |col|
  {
    var n := |col|;
    var init := col[..n - 1];
    assert col == init + [col[n - 1]];
    PresentAppend(init, col[n - 1]);
    if |Present(init)| > 0 {
      i := PresentFirst(init);
      assert col[i] == init[i];
      assert forall j :: 0 <= j < i ==> col[j] == init[j];
    } else {
      i := n - 1;
      assert Present(col) == [col[n - 1].value];
      forall j | 0 <= j < n - 1
        ensures col[j].None?
      {
        assert col[j] == init[j];
        assert forall v :: init[j] == Some(v) ==> Some(v) in init;
      }
    }
  }

  /** The last present value is the cell at the last index holding one. */
  lemma {:induction false} PresentLast(col: Column) returns (i: nat)
    requires |Present(col)| > 0
    ensures i < |col| && col[i] == Some(Present(col)[|Present(col)| - 1])
    ensures forall j :: i < j < |col| ==> col[j].None?
    decreases |col|
  {
    var n := |col|;
    var init := col[..n - 1];
    assert col == init + [col[n - 1]];
    PresentAppend(init, col[n - 1]);
    if col[n - 1].None? {
      assert Present(col) == Present(init);
      i := PresentLast(init);
      assert col[i] == init[i];
      assert forall j :: i < j < n - 1 ==> col[j] == init[j];
    } else {
      i := n - 1;
      assert Present(col) == Present(init) + [col[n - 1].value];
    }
  }

  function Sum(xs: seq<real>): real
    decreases |xs|
  {
    if |xs| == 0 then 0.0 else Sum(xs[..|xs| - 1]) + xs[|xs| - 1]
  }

  lemma {:induction false} SumConcat(a: seq<real>, b: seq<real>)
    ensures Sum(a + b) == Sum(a) + Sum(b)
    decreases |b|
  {
    if |b| == 0 {
      assert a + b == a;
    } else {
      assert (a + b)[..|a + b| - 1] == a + b[..|b| - 1];
      SumConcat(a, b[..|b| - 1]);
    }
  }

  /** Appending one value adds it to the sum. */
  lemma SumAppend(xs: seq<real>, v: real)
    ensures Sum(xs + [v]) == Sum(xs) + v
  {
    assert (xs + [v])[..|xs|] == xs;
  }

  lemma {:induction false} SumNonNegative(xs: seq<real>)
    requires forall i :: 0 <= i < |xs| ==> xs[i] >= 0.0
    ensures Sum(xs) >= 0.0
    decreases |xs|
  {
    if |xs| > 0 {
      SumNonNegative(xs[..|xs| - 1]);
    }
  }

  /** Arithmetic mean of a non-empty window. */
  function Mean(xs: seq<real>): real
    requires |xs| > 0
  {
    Sum(xs) / |xs| as real
  }

  function Max(xs: seq<real>): (m: real)
    requires |xs| > 0
    ensures forall i :: 0 <= i < |xs| ==> xs[i] <= m
    ensures exists i :: 0 <= i < |xs| && xs[i] == m
    decreases |xs|
  {
    if |xs| == 1 then xs[0]
    else
      var m := Max(xs[..|xs| - 1]);
      assert forall i :: 0 <= i < |xs| - 1 ==> xs[..|xs| - 1][i] == xs[i];
      if xs[|xs| - 1] > m then xs[|xs| - 1] else m
  }

  function Min(xs: seq<real>): (m: real)
    requires |xs| > 0
    ensures forall i :: 0 <= i < |xs| ==> m <= xs[i]
    ensures exists i :: 0 <= i < |xs| && xs[i] == m
    decreases |xs|
  {
    if |xs| == 1 then xs[0]
    else
      var m := Min(xs[..|xs| - 1]);
      assert forall i :: 0 <= i < |xs| - 1 ==> xs[..|xs| - 1][i] == xs[i];
      if xs[|xs| - 1] < m then xs[|xs| - 1] else m
  }

  /** Mean of a window lies between the window's minimum and maximum. */
  lemma {:induction false} MeanBetween(xs: seq<real>)
    requires |xs| > 0
    ensures Min(xs) <= Mean(xs) <= Max(xs)
  {
    MeanWithin(xs, Min(xs), Max(xs));
  }

  /** A mean of values within `[lo, hi]` is within `[lo, hi]`. */
  lemma MeanWithin(xs: seq<real>, lo: real, hi: real)
    requires |xs| > 0 && forall i :: 0 <= i < |xs| ==> lo <= xs[i] <= hi
    ensures lo <= Mean(xs) <= hi
  {
    var n, s := |xs| as real, Sum(xs);
    SumBounds(xs, lo, hi);
    DivideBounds(s, n, lo, hi);
  }

  lemma MulNonNegative(a: real, b: real)
    requires a >= 0.0 && b >= 0.0
    ensures a * b >= 0.0
  {
  }

  lemma MulPositive(a: real, b: real)
    requires a > 0.0 && b > 0.0
    ensures a * b > 0.0
  {
  }

  lemma Cancel(a: real, b: real, c: real)
    requires c != 0.0 && a * c == b * c
    ensures a == b
  {
    assert (a - b) * c == 0.0;
  }

  lemma DivideBounds(s: real, n: real, lo: real, hi: real)
    requires n > 0.0 && lo * n <= s <= hi * n
    ensures lo <= s / n <= hi
  {
    assert s / n - lo == (s - lo * n) / n;
    assert hi - s / n == (hi * n - s) / n;
  }

  lemma AddOne(s: real, p: real)
    ensures (s + 1.0) * p == s * p + p
  {
  }

  /** `a` and `x` against a bound `c` taken `m` times and once more. */
  lemma ScaleStep(c: real, m: real, a: real, x: real)
    ensures c * m <= a && c <= x ==> c * (m + 1.0) <= a + x
    ensures a <= c * m && x <= c ==> a + x <= c * (m + 1.0)
  {
    assert c * (m + 1.0) == c * m + c;
  }

  lemma {:induction false} SumBounds(xs: seq<real>, lo: real, hi: real)
    requires forall i :: 0 <= i < |xs| ==> lo <= xs[i] <= hi
    ensures lo * |xs| as real <= Sum(xs) <= hi * |xs| as real
    decreases |xs|
  {
    if |xs| > 0 {
      var init := xs[..|xs| - 1];
      assert forall i :: 0 <= i < |init| ==> init[i] == xs[i];
      SumBounds(init, lo, hi);
      var m := |init| as real;
      assert |xs| as real == m + 1.0;
      assert Sum(xs) == Sum(init) + xs[|xs| - 1];
      ScaleStep(lo, m, Sum(init), xs[|xs| - 1]);
      ScaleStep(hi, m, Sum(init), xs[|xs| - 1]);
      assert lo * |xs| as real == lo * (m + 1.0) && hi * |xs| as real == hi * (m + 1.0);
    }
  }

  /** Keeps the elements whose mask bit is set, in order (boolean indexing). */
  function Select<T>(xs: seq<T>, mask: seq<bool>): (r: seq<T>)
    requires |xs| == |mask|
    ensures |r| <= |xs|
    ensures forall x :: x in r ==> x in xs
    decreases |xs|
  {
    if |xs| == 0 then []
    else Select(xs[..|xs| - 1], mask[..|xs| - 1]) + (if mask[|xs| - 1] then [xs[|xs| - 1]] else [])
  }

  lemma {:induction false} SelectConcat<T>(a: seq<T>, ma: seq<bool>, b: seq<T>, mb: seq<bool>)
    requires |a| == |ma| && |b| == |mb|
    ensures Select(a + b, ma + mb) == Select(a, ma) + Select(b, mb)
    decreases |b|
  {
    if |b| == 0 {
      assert a + b == a && ma + mb == ma;
    } else {
      var n, bi, mi := |a + b|, b[..|b| - 1], mb[..|mb| - 1];
      var tail := if mb[|mb| - 1] then [b[|b| - 1]] else [];
      assert (a + b)[..n - 1] == a + bi && (ma + mb)[..n - 1] == ma + mi;
      assert (a + b)[n - 1] == b[|b| - 1] && (ma + mb)[n - 1] == mb[|mb| - 1];
      assert Select(a + b, ma + mb) == Select(a + bi, ma + mi) + tail;
      assert Select(b, mb) == Select(bi, mi) + tail;
      SelectConcat(a, ma, bi, mi);
    }
  }

  lemma {:induction false} SelectMembership<T>(xs: seq<T>, mask: seq<bool>, x: T)
    requires |xs| == |mask|
    ensures x in Select(xs, mask) <==> exists i :: 0 <= i < |xs| && mask[i] && xs[i] == x
    decreases |xs|
  {
    if |xs| > 0 {
      var n := |xs|;
      SelectMembership(xs[..n - 1], mask[..n - 1], x);
      if exists i :: 0 <= i < n && mask[i] && xs[i] == x {
        var i :| 0 <= i < n && mask[i] && xs[i] == x;
        if i < n - 1 {
          assert xs[..n - 1][i] == x && mask[..n - 1][i];
        }
      }
      if x in Select(xs[..n - 1], mask[..n - 1]) {
        var i :| 0 <= i < n - 1 && mask[..n - 1][i] && xs[..n - 1][i] == x;
        assert mask[i] && xs[i] == x;
      }
    }
  }

  lemma {:induction false} SelectAll<T>(xs: seq<T>, mask: seq<bool>)
    requires |xs| == |mask|
    requires forall i :: 0 <= i < |mask| ==> mask[i]
    ensures Select(xs, mask) == xs
    decreases |xs|
  {
    if |xs| > 0 {
      SelectAll(xs[..|xs| - 1], mask[..|xs| - 1]);
    }
  }

  lemma {:induction false} SelectNone<T>(xs: seq<T>, mask: seq<bool>)
    requires |xs| == |mask|
    requires forall i :: 0 <= i < |mask| ==> !mask[i]
    ensures Select(xs, mask) == []
    decreases |xs|
  {
    if |xs| > 0 {
      SelectNone(xs[..|xs| - 1], mask[..|xs| - 1]);
    }
  }
}
